=== FILE: README.md ===
# gnet_csharp framing, codecs and stream reassembly in Dafny

This project models the byte-level core of the gnet_csharp client network
library:

- the packed packet-header word;
- the two `SimpleProtoCodec` variants;
- the `Slice<T>` array window;
- the received-packet queue of `baseConnection`;
- the two TCP receive loops that turn a byte stream into packets.

Everything is a pure function over immutable values. Arrays are sequences,
and C# `null` and exceptions are explicit outcomes.

The model is split into modules:

- **`Bytes`** — `ushort`/`uint` values and their little-endian byte layout
  (`BinaryWriter`, `BitConverter`).
- **`Slices`** — `Slice<T>` and `Array.Copy`.
- **`Packet`** — `DefaultPacketHeader`, a 24-bit body length plus 8 flag
  bits in one `uint`, and `ProtoPacket`.
- **`Connection`** — the `PushPacket`/`PopPacket`/`ClearPackets` FIFO.
- **`Codec`** — the codec of codec.cs. Its frame is a 4-byte header
  announcing `2 + |body|`, a `ushort` command, then the body.
- **`CodecProtobufSimple`** — the codec of codec_protobuf_simple.cs. Its
  6-byte header carries the command inline and announces `|body|`. Optional
  whole-packet `DataEncoder`/`DataDecoder` hooks wrap it.
- **`Framing`** — the reference definition of how a byte stream splits into
  length-prefixed frames (`Frames`). A frame is `len + headerSize` bytes,
  where `len` is what its header announces. Framing may start from a header
  that was already read (the cached one). Both receive loops are proved
  against this definition.
- **`TcpConnection`** — the buffered connection of tcp_connection.cs:
  - a fixed receive buffer, its fill length and a cached header;
  - `decodePackets` as an imperative loop with invariants;
  - the read bookkeeping;
  - `Connect`, `SendPacket`, and the compare-and-swap `Close` that fires
    `OnClose` once.
- **`TcpConnectionSimple`** — the connection of tcp_connection_simple.cs. It
  decodes one packet at a time from the front of the buffer and shifts the
  rest left after each packet.

Main results:

- **Codec round trips**, for both codecs:
  - `Decode(Encode(p))` gives back the command and body (raw bytes for an
    unregistered command, the parsed message otherwise), for a body of at
    most 0xFFFFFD bytes (0xFFFFFF for the 6-byte codec). A wider body still
    encodes, but its length is cut to 24 bits and it does not come back.
  - For the 6-byte codec this holds with reversible hooks or none.
  - `Framing` then recovers a whole sent stream packet by packet.
- **No lost or duplicated bytes.** The bytes left after framing are exactly
  the tail of the input.
- **Chunking invariance.** However the stream is split into reads, each
  connection ends with the packets, window and cached header that framing
  the whole stream at once gives. When that framing fails, it ends closed
  with an empty queue.
- **The two connections agree.** Fed the same stream, the buffered
  connection and the per-packet one queue the same packets.
- **`OnClose` fires once.** Between two `Connect`s it fires at most once.

`TcpConnection` is generic over the codec capability `Framing.CodecOps`:
header size, header peek, decode and encode. Its end-to-end lemmas use the
6-byte codec, whose `DecodePacketHeader` it calls.

`TcpConnectionSimple` is generic over the same record. It requires one
property of the codec, `DecodesFromFront`: decoding the whole buffer equals
decoding the first frame's bytes. The source hands the whole buffer to
`Decode`, so this property is what makes the loop correct.
`TcpConnectionSimple.CodecReassembles` proves that the 4-byte codec, whose
`CreatePacketHeader`/`Decode(byte[])` this connection calls, has the
property.

## Model

| member | source | states |
|---|---|---|
| Slices.ArrayCopy | tcp_connection.cs:240 | `Array.Copy`: the result has the destination's size, holds the `n` source elements at the destination index, and every other element is unchanged; an overlapping copy within one array behaves as if the source range were saved first |
| Slices.SubSlice | slice.cs:40-45 | the nested window shares the outer window's array, starts `begin` after it, and has the given length |
| Slices.ToArray | slice.cs:56-61 | the copy has `Length` elements, and element `i` is the array's element at `StartIndex + i` |
| Slices.CopyTo | slice.cs:47-50 | `n` elements from the window start land at `dstIndex` of `dst`; the rest of `dst` is untouched |
| Slices.WholeArrayRoundTrip | slice.cs:26-31 | the whole-array window lies in bounds and copies out as the array itself |
| Slices.SubSliceToArray | slice.cs:40-61 | nesting composes: a sub-window copies out as the matching piece of the outer window's copy |
| Slices.CopyToIsToArray | slice.cs:47-61 | copying a whole window into an array of its size gives `ToArray` |
| Bytes.WriteAt | packet.cs:84-90 | a write at an offset puts the data at that offset and leaves every byte before and after it unchanged |
| Bytes.U16RoundTrip | codec.cs:94-95 | reading a written little-endian `ushort` back gives the value written |
| Bytes.U32RoundTrip | packet.cs:79-90 | reading a written little-endian `uint` back gives the value written |
| Bytes.ReadU32Local | packet.cs:79-82 | the `uint` read at an offset depends only on the four bytes there |
| Bytes.ReadU16Local | codec_protobuf_simple.cs:47 | the `ushort` read at an offset depends only on the two bytes there |
| Packet.Len | packet.cs:49-72 | a header's body length never exceeds `MaxPacketDataSize` (0xFFFFFF) |
| Packet.EmptyHeader | packet.cs:56-59 | the default header has length 0 and flags 0 |
| Packet.NewHeader | packet.cs:61-77 | the length read back is the given length's low 24 bits; for a length within 24 bits, the header gives back exactly that length and those flags |
| Packet.NewHeaderSpills | packet.cs:61-64 | with flags 0, a length wider than 24 bits is not rejected: the flags read back are its bits above the low 24 |
| Packet.WriteTo | packet.cs:84-90 | only the four header bytes at the offset change, and `ReadFrom` at that offset reads the header back |
| Packet.HeaderRoundTrip | packet.cs:61-90 | a header built from a 24-bit length, written and read back at the same offset, yields that length and those flags |
| Packet.GetMessage | packet.cs:96-132 | a packet never holds both a message and stream data |
| Packet.NewPacket | packet.cs:102-105 | the command constructor sets the command and leaves both bodies null |
| Packet.PacketWithMessage | packet.cs:107-111 | the message constructor sets the command and the message, and the stream data stays null |
| Packet.PacketWithStream | packet.cs:113-117 | the stream constructor sets the command and the stream data, and the message stays null |
| Connection.PushPacket | connection.cs:131-137 | the queue grows by one: the old queue, then the new packet at the tail |
| Connection.PopPacket | connection.cs:139-147 | an empty queue gives null and stays empty; otherwise the head is returned and only it is removed |
| Connection.ClearPackets | connection.cs:149-155 | the queue is left empty |
| Connection.PushAllAppends | connection.cs:131-137 | pushing packets one at a time appends them in order |
| Connection.DrainReturnsQueue | connection.cs:139-147 | popping until null returns the queue's contents from the head on |
| Connection.Fifo | connection.cs:131-147 | after pushes, popping returns what was queued before, then the pushed packets in push order |
| Codec.Register | codec.cs:109-112 | the command maps to the new schema, every other registration is kept, and no other command is added |
| Codec.CreatePacketHeader | codec.cs:29-34 | a null array gives length 0 and flags 0; an array of at most 0xFFFFFF bytes gives its length with flags 0, and a longer one its length's low 24 bits |
| Codec.Encode | codec.cs:43-81 | encoding fails exactly when there is no body or the frame is too large for an array; otherwise the frame is `4 + 2 + |body|` bytes, its header is `NewHeader(2 + |body|, 0)` (announcing `2 + |body|` with flags 0 for a body of at most 0xFFFFFD bytes, the low 24 bits with the rest in the flags beyond that), and it holds the command at offset 4 and the body from offset 6 |
| Codec.Resolve | codec.cs:103-106 | an unregistered command keeps its raw body; a registered one succeeds exactly when its schema parses the body, returning the command with the parsed message, and otherwise throws |
| Codec.Decode | codec.cs:83-107 | null exactly for input shorter than 6 bytes; an announced length below 2, or a frame running past the input, throws; otherwise the result is resolving the `ushort` at offset 4 against the `Len() - 2` bytes after it; on success the announced frame fits the input |
| Codec.DecodeEncode | codec.cs:43-107 | for a body of at most 0xFFFFFD bytes, decoding an encoded packet gives back its command and resolves its body, including the empty body |
| Codec.MessageRoundTrip | codec.cs:43-107 | a registered message of at most 0xFFFFFD serialised bytes whose schema parses its serialisation back comes back as the same packet |
| Codec.WideBodyMisannounced | codec.cs:43-107 | a body wider than the 24-bit field still encodes; the header announces the low 24 bits of `2 + |body|` with the high bits as nonzero flags, and an unregistered command's packet does not decode back |
| Codec.WideBodyExample | codec.cs:43-107 | 0xFFFFFF zero bytes under command 7 encode with a header reading length 1 and flags 1, and decoding that frame throws |
| Codec.WireExample | codec.cs:68-79 | command 7 with body 01 02 03 encodes as `05 00 00 00 07 00 01 02 03` |
| Codec.Ops | codec.cs:24-27 | the capability the connections see has header size 4 |
| CodecProtobufSimple.NewSimpleHeader | codec_protobuf_simple.cs:23-27 | the length is the given length's low 24 bits and the command is the one given; a 24-bit length comes back exactly, with its flags |
| CodecProtobufSimple.WriteSimpleHeader | codec_protobuf_simple.cs:44-57 | writing changes only the six header bytes, and `ReadFrom` at the same start reads the header back (word at the start, command at start + 4) |
| CodecProtobufSimple.Register | codec_protobuf_simple.cs:156-159 | after registering, the command's descriptor is the new schema, every other command's descriptor is unchanged, and the hooks stay |
| CodecProtobufSimple.GetMessageDescriptor | codec_protobuf_simple.cs:161-166 | a descriptor is found exactly for registered commands, and it is the registered one |
| CodecProtobufSimple.ApplyDecoder | codec_protobuf_simple.cs:124-127 | without `DataDecoder` the data is read as given; with one, the decoder's output is read |
| CodecProtobufSimple.DecodePacketHeader | codec_protobuf_simple.cs:79-95 | null exactly when given fewer than six bytes; the length it reads equals the `SimplePacketHeader` length of the same (decoded) bytes; without hooks it is the header at the slice start |
| CodecProtobufSimple.Frame | codec_protobuf_simple.cs:99-111 | the frame is `6 + |body|` bytes, its header is `NewSimpleHeader(|body|, 0, command)` (announcing `|body|` with flags 0 for a body of at most 0xFFFFFF bytes, the low 24 bits with the rest in the flags beyond that), and the body follows it |
| CodecProtobufSimple.Encode | codec_protobuf_simple.cs:97-117 | encoding fails only when the frame is too large for an array; otherwise it is the frame, passed once and whole through `DataEncoder` when one is set |
| CodecProtobufSimple.Resolve | codec_protobuf_simple.cs:140-153 | an unregistered command keeps its raw body; a registered one succeeds exactly when parsing succeeds, returning the command with the parsed message; a parse failure gives null, and nothing throws |
| CodecProtobufSimple.Decode | codec_protobuf_simple.cs:119-154 | with the corrected guard of the findings below: null for fewer than six bytes; a (decoded) slice too short for a header throws; null when the body would run past the window; otherwise the result is resolving the header's command against the `Len()` bytes after the header |
| CodecProtobufSimple.DecodeAsWritten | codec_protobuf_simple.cs:119-154 | as written: null for fewer than six bytes; a (decoded) slice too short for a header throws; where the frame fits, the corrected result; a body longer than the whole window gives null; a frame past the window but inside the array resolves the bytes after the header; a frame past the array throws for an unregistered command and gives null for a registered one, whose copy sits inside the `try` |
| CodecProtobufSimple.GuardAdmitsOverlongLength | codec_protobuf_simple.cs:132-142 | the length guard as written accepts a six-byte window announcing six body bytes, returning the bytes past the window or throwing; the corrected guard returns null |
| CodecProtobufSimple.DecodeReadsOnlyWindow | codec_protobuf_simple.cs:119-154 | decoding a window of a larger array equals decoding a copy of that window |
| CodecProtobufSimple.AsWrittenAgreesOnArrays | codec_protobuf_simple.cs:119-154 | on a whole array the guard as written and the corrected guard give the same packet or the same failure to deliver one |
| CodecProtobufSimple.AsWrittenAgreesInPlace | tcp_connection.cs:221-230 | on a window of the receive buffer whose length the header peeked from its own first six bytes announces (what `DecodePackets` passes while no stale header is cached), the as-written `Decode` gives what the connection's codec capability gives |
| CodecProtobufSimple.OverlongInPlace | codec_protobuf_simple.cs:129-147 | when a window's header announces a body ending past the window but inside the array, the as-written `Decode` in place resolves the bytes after the header, while the capability's decode of a copy gives null |
| CodecProtobufSimple.ReversibleUndoes | codec_protobuf_simple.cs:111-127 | reversible hooks give the frame back whole |
| CodecProtobufSimple.DecodeFrame | codec_protobuf_simple.cs:119-154 | a window that decodes to a frame yields that frame's command and body |
| CodecProtobufSimple.DecodeEncode | codec_protobuf_simple.cs:97-154 | with reversible hooks or none, for a body of at most 0xFFFFFF bytes, decoding an encoded packet gives back its command and resolves its body, including the empty body |
| CodecProtobufSimple.WideBodyTruncated | codec_protobuf_simple.cs:97-154 | without hooks, a body wider than the 24-bit field still encodes; the header announces the length's low 24 bits with the high bits as nonzero flags, and an unregistered command decodes to the body cut to those low 24 bits |
| CodecProtobufSimple.RawRoundTrip | codec_protobuf_simple.cs:97-154 | raw bytes of an unregistered command, at most 0xFFFFFF of them, come back as the same packet |
| CodecProtobufSimple.Ops | codec_protobuf_simple.cs:74-77 | the capability the connections see has header size 6 |
| CodecProtobufSimple.ShiftBytes | codec_protobuf_simple.cs:112-113 | the additive cipher keeps the length and shifts every byte by the key modulo 256 |
| CodecProtobufSimple.CipherIsReversible | codec_protobuf_simple.cs:112-127 | the additive cipher used as encoder and decoder is reversible, also on the header prefix the reassembler decodes alone |
| CodecProtobufSimple.PeekEncoded | codec_protobuf_simple.cs:79-117 | the header peeked from an encoded packet with a body of at most 0xFFFFFF bytes announces its body length, and the packet spans header plus body |
| CodecProtobufSimple.OpsOnEncoded | codec_protobuf_simple.cs:79-154 | through the connection's capability, an encoded `Sendable` packet (body of at most 0xFFFFFF bytes) peeks as its body length and decodes to itself |
| CodecProtobufSimple.WireStep | codec_protobuf_simple.cs:97-154 | on a stream of sent `Sendable` packets, the first packet frames first, then the rest of the stream |
| CodecProtobufSimple.StreamRoundTrip | codec_protobuf_simple.cs:97-154 | framing the bytes of packets sent back to back, each with a body of at most 0xFFFFFF bytes (`Sendable`), gives every packet in order, with nothing left over and no error |
| CodecProtobufSimple.RawSurvives | codec_protobuf_simple.cs:140-142 | a raw body of an unregistered command always resolves to its own packet |
| Framing.Frames | tcp_connection.cs:199-235 | framing never leaves more than its input; when it stops without a header, fewer than a header's bytes remain; when it stops with one, fewer than that frame's bytes remain |
| Framing.RestIsSuffix | tcp_connection.cs:233-242 | the bytes framing leaves are exactly a tail of the input: none lost, none duplicated |
| Framing.CachedHeaderAgrees | tcp_connection.cs:205-219 | a cached header that its bytes announce does not change the framing |
| Framing.CoherentAppend | tcp_connection.cs:221-224 | appending bytes keeps a cached header coherent with its bytes |
| Framing.RestCoherent | tcp_connection.cs:221-224 | the header framing leaves cached is the one its remaining bytes announce |
| Framing.RestIsIdle | tcp_connection.cs:203-224 | framing stops only where nothing more can be framed: framing the tail again consumes nothing |
| Framing.FramesWithHeader | tcp_connection.cs:205-221 | once the header bytes are there, a cached header and a fresh read are interchangeable |
| Framing.OnePass | tcp_connection.cs:205-234 | a step that takes a packet consumes a non-empty prefix of the bytes and leaves no header cached |
| Framing.FramesByPass | tcp_connection.cs:203-235 | framing is one step repeated: it stops, fails, or takes one packet and frames the rest from scratch |
| Framing.FramesLeadingFrame | tcp_connection.cs:221-234 | a whole well-formed frame at the front frames as its packet, followed by whatever follows it |
| Framing.FramesAppend | tcp_connection.cs:175-176 | framing a longer stream frames the same packets first, then continues from the old tail, with its header, plus the new bytes |
| Framing.FailureIsFinal | tcp_connection.cs:176-179 | once framing fails, more bytes neither rescue it nor change the packets framed before the failure |
| TcpConnection.NewConn | tcp_connection.cs:25-31 | a new connection has an empty window, the whole buffer free, no client, and is neither connected nor closed |
| TcpConnection.DecodeSpec | tcp_connection.cs:199-245 | `decodePackets` in terms of framing: while connected it pushes exactly the packets the window frames into, from the cached header; it fails exactly when framing fails, leaving the buffer untouched; otherwise exactly the unframed tail stays at the buffer front; the buffer keeps its size and the fill length never grows |
| TcpConnection.SpecOnError | tcp_connection.cs:227-230 | a loop that hits a decode error returns false, with the buffer and fill length untouched |
| TcpConnection.SpecOnStop | tcp_connection.cs:237-244 | a loop that stops after consuming `readIndex` bytes moves the tail to the front when `readIndex > 0`, and changes nothing otherwise |
| TcpConnection.Advance | tcp_connection.cs:205-234 | one loop pass, reading the header from a copy and the packet from its own bytes, is one framing step |
| TcpConnection.Scan | tcp_connection.cs:201-235 | the loop's `readIndex` never passes the fill length, and the packets pushed, plus where it stopped, are the framing of the window |
| TcpConnection.ScanStops | tcp_connection.cs:203-224 | a pass that takes no packet ends the loop where framing stops or fails |
| TcpConnection.ScanTakes | tcp_connection.cs:226-234 | a pass that takes a packet pushes it, advances `readIndex` by the frame length, clears the cached header, and keeps the loop invariant |
| TcpConnection.DecodePackets | tcp_connection.cs:199-245 | the method computes exactly `DecodeSpec` |
| TcpConnection.Close | tcp_connection.cs:72-98 | every close disconnects and empties the queue; only the first after a `Connect` drops the client and fires `OnClose`; buffer, fill length and cached header stay |
| TcpConnection.CloseIsIdempotent | tcp_connection.cs:77-98 | a second close fires nothing and changes nothing |
| TcpConnection.SplitCount | tcp_connection.cs:41-42 | splitting gives at least one part |
| TcpConnection.SplitCountAppend | tcp_connection.cs:41-42 | a concatenation splits into the parts of both pieces, less one, because the piece boundary joins two parts |
| TcpConnection.HostPortSplitsInTwo | tcp_connection.cs:41-42 | `host:port` with no other colon splits into exactly two parts |
| TcpConnection.NoSeparator | tcp_connection.cs:41-42 | a string without the separator is one part |
| TcpConnection.Connect | tcp_connection.cs:33-70 | refused exactly when a client exists, the address does not split in two or the lookup is empty; an exception before any change exactly when the port does not parse or the lookup throws; an exception from `BeginConnect` exactly when the parsed port is outside 0..65535, after the client, address and close flag are set; accepted exactly otherwise; both of the last two create the client, store the address, clear the connected flag and re-arm the close flag without touching the buffer, header or queue |
| TcpConnection.ConnectRearmsClose | tcp_connection.cs:66-95 | after each `Connect` that reaches line 66, accepted or thrown by `BeginConnect`, the next close fires `OnClose` again |
| TcpConnection.OnConnected | tcp_connection.cs:134-156 | a connect whose first read is armed fires `OnConnected(true)` and starts with an empty window and no cached header (the header reset is the correction); one that cannot get its stream fires `OnConnected(false)` and then closes; one whose `BeginRead` throws fires `OnConnected(true)`, then `OnConnected(false)`, then closes, with the fill length and header already reset |
| TcpConnection.OnConnectedAsWritten | tcp_connection.cs:134-156 | as written: a connect whose first read is armed fires `OnConnected(true)`, resets the fill length and keeps the cached header, the close flag and the queue; one that cannot get its stream fires `OnConnected(false)` and then closes; one whose `BeginRead` throws fires `OnConnected(true)`, then `OnConnected(false)`, then closes, with the fill length reset and the header kept; with no cached header it is `OnConnected` |
| TcpConnection.FillWindow | tcp_connection.cs:175 | writing a read at the fill length extends the window by exactly the bytes read |
| TcpConnection.OnRead | tcp_connection.cs:158-193 | an empty read closes; a non-empty read on a connected connection either queues exactly the packets that the window plus the read frame into, leaving exactly the unframed tail and its header with no callback, or closes with an empty queue exactly when that framing fails; the fill length never passes the buffer |
| TcpConnection.SendPacket | tcp_connection.cs:111-132 | returns false without encoding exactly when disconnected; an encoder exception escapes; otherwise it submits exactly the encoded bytes, and a failing write closes |
| TcpConnection.Apply | tcp_connection.cs:146-185 | with connects handled as written, every event keeps the fill length within the buffer, because reads only fill the free part |
| TcpConnection.ApplyClosesOnce | tcp_connection.cs:72-98 | one event fires `OnClose` exactly when it sets the close flag, and nothing clears the flag |
| TcpConnection.CloseFiresOnce | tcp_connection.cs:66-95 | over any series of events after a `Connect`, `OnClose` fires at most once: exactly once if the connection went from open to closed |
| TcpConnection.ConnectedStartsClean | tcp_connection.cs:143-146 | a freshly connected connection holds the reassembly invariant for the empty stream |
| TcpConnection.ReadFrames | tcp_connection.cs:175-176 | framing the stream so far plus a read is framing the old stream, then the window plus the read from the cached header |
| TcpConnection.ReadKeepsInv | tcp_connection.cs:158-193 | one read keeps the reassembly invariant, or closes with an empty queue and one `OnClose` exactly when framing the longer stream fails |
| TcpConnection.ReadFails | tcp_connection.cs:176-179 | a read whose bytes make framing fail closes, empties the queue and fires `OnClose` |
| TcpConnection.ReadSucceeds | tcp_connection.cs:175-186 | a read that frames without error keeps the invariant for the longer stream and fires nothing |
| TcpConnection.ReadMatches | tcp_connection.cs:175-186 | after such a read, queue, window and cached header are what framing the window plus the read gives |
| TcpConnection.ClosedStaysClosed | tcp_connection.cs:188-191 | a closed connection is unchanged by further reads; this holds by the definition of `Deliver`, which stops at a closed connection to model `EndRead` throwing on the closed stream into the `catch` |
| TcpConnection.FirstReadFails | tcp_connection.cs:176-179 | a read that makes framing fail closes the connection for good, and framing the whole stream fails too |
| TcpConnection.ChunkingInvariance | tcp_connection.cs:158-245 | however the stream is split into reads, the connection ends with the packets, window and cached header of framing the whole stream at once, or closed with an empty queue when that framing fails |
| TcpConnection.SameStreamSameResult | tcp_connection.cs:158-245 | two splittings of one stream leave the same packets, the same state and the same unframed bytes |
| TcpConnection.SendsProduceWire | tcp_connection.cs:111-122 | a connected connection submits exactly the encoded packets back to back |
| TcpConnection.SentPacketsArrive | tcp_connection.cs:134-245 | packets sent through the 6-byte codec, each with a body of at most 0xFFFFFF bytes (`Sendable`), reach a peer connected as written, with no cached header, in order and unchanged, whatever the reads, with nothing left buffered |
| TcpConnection.ArriveFromClean | tcp_connection.cs:160-245 | a connection holding the invariant for an empty stream, fed chunks whose concatenation frames to exactly some packets, stays connected, appends exactly those packets to its queue and ends with an empty window and no cached header |
| TcpConnection.DroppedMidPacket | tcp_connection.cs:168-172 | connecting, receiving a bare header and then a 0-byte read leaves the connection closed, without a client |
| TcpConnection.BareHeaderWaits | tcp_connection.cs:221-224 | a header announcing 10 bytes with no body yet is held back, its length cached |
| TcpConnection.BareHeaderReads | codec_protobuf_simple.cs:79-95 | the header bytes `0A 00 00 00 01 00` announce 10 |
| TcpConnection.DroppedMidPacketKeepsHeader | tcp_connection.cs:72-98 | the close leaves the cached header in place |
| TcpConnection.StaleHeaderWaits | tcp_connection.cs:221-224 | with the stale header cached, the complete 6-byte packet is held back as the start of a 16-byte frame |
| TcpConnection.CleanStartFrames | tcp_connection.cs:203-235 | from a clean start, the same 6 bytes frame as the empty-bodied packet |
| TcpConnection.StaleHeaderSurvivesReconnect | tcp_connection.cs:134-156 | after reconnecting as written, the packet is not delivered and the stale header stays; with the header cleared on connect, it is delivered |
| TcpConnection.StaleHeaderIsReachable | tcp_connection.cs:33-70 | `Connect` accepts the dropped connection again with the stale header still cached and its 32-byte buffer |
| TcpConnection.StaleHeaderMeetsOverlongGuard | tcp_connection.cs:205-230 | from a connection with a stale cached header of 10 and at least 18 buffer bytes (such as the reachable one above), reconnecting as written and reading `0C 00 00 00 02 00` plus ten zero bytes closes the model, while `Decode` as written on the 16-byte window returns command 2 with the 12 bytes after the header |
| TcpConnection.StaleHeaderFails | tcp_connection.cs:205-230 | with an empty window and a cached header, a read of exactly the announced frame that the codec cannot decode closes the connection |
| TcpConnectionSimple.NewConn | tcp_connection_simple.cs:19-25 | a new connection has an empty window, the whole buffer free, no client, and is not connected |
| TcpConnectionSimple.CodecReassembles | codec.cs:83-107 | the 4-byte codec's `Decode` on a whole buffer gives what it gives on the first frame's bytes |
| TcpConnectionSimple.WholeBufferDecode | codec.cs:83-107 | once the first frame is complete, decoding the whole buffer and decoding just the frame agree, including a failure when the header announces less than a command |
| TcpConnectionSimple.FrontHeader | tcp_connection_simple.cs:146-148 | the header `CreatePacketHeader(null)` reads from offset 0 of the buffer has the length the codec peeks from the first four bytes |
| TcpConnectionSimple.ShiftLeft | tcp_connection_simple.cs:162 | the buffer keeps its size, and the bytes after the first `n` of the first `len` move to the front |
| TcpConnectionSimple.ShiftLeftIsArrayCopy | tcp_connection_simple.cs:162 | the shift is `Array.Copy` of the buffer onto itself |
| TcpConnectionSimple.Compact | tcp_connection_simple.cs:137-167 | the loop keeps the buffer size and never grows the fill length; while it pushes nothing, buffer and fill length are untouched |
| TcpConnectionSimple.CompactStep | tcp_connection_simple.cs:139-163 | one pass stops or fails exactly when a framing step does; when the step takes a packet, the pass pushes that packet and goes on with the shifted buffer, whose front is the rest of the window |
| TcpConnectionSimple.CompactFrames | tcp_connection_simple.cs:137-167 | the loop succeeds exactly when framing the window does not fail, pushes the framed packets in wire order, and leaves exactly the unframed bytes at the front |
| TcpConnectionSimple.DecodePackets | tcp_connection_simple.cs:137-167 | nothing happens while disconnected; while connected, the result is framing the window, as above |
| TcpConnectionSimple.Close | tcp_connection_simple.cs:169-191 | every call disconnects, drops the client and empties the queue, with no guard; buffer and fill length stay |
| TcpConnectionSimple.CloseTwice | tcp_connection_simple.cs:169-191 | closing twice is closing once |
| TcpConnectionSimple.Connect | tcp_connection_simple.cs:27-61 | refused exactly when the address does not split in two or the lookup is empty, even if a client exists; an exception before any change exactly when the port does not parse or the lookup throws; an exception from `BeginConnect` exactly when the parsed port is outside 0..65535, after the client and address are set; accepted exactly otherwise; both of the last two have a client and store the address, keeping the connected flag, buffer, fill length and queue |
| TcpConnectionSimple.OnConnectedAsWritten | tcp_connection_simple.cs:69-86 | as written, the fill length and buffer survive the reconnect; a connect without a stream closes |
| TcpConnectionSimple.OnConnected | tcp_connection_simple.cs:69-86 | with the fill length reset (the correction), a connected connection starts with an empty window and keeps its queue and client; a connect without a stream closes |
| TcpConnectionSimple.FillWindow | tcp_connection_simple.cs:113 | writing a read at the fill length extends the window by exactly the bytes read |
| TcpConnectionSimple.OnRead | tcp_connection_simple.cs:94-135 | an empty read closes; a read while disconnected only grows the window; a read while connected queues exactly the packets that the window plus the read frame into and leaves exactly the unframed tail, or closes with an empty queue exactly when that framing fails |
| TcpConnectionSimple.SendPacket | tcp_connection_simple.cs:198-209 | returns false exactly when disconnected; otherwise it submits exactly the encoded bytes, or an exception escapes |
| TcpConnectionSimple.ConnectedStartsClean | tcp_connection_simple.cs:69-86 | with the fill length reset, a freshly connected connection holds the reassembly invariant for the empty stream |
| TcpConnectionSimple.ReadFrames | tcp_connection_simple.cs:113-115 | framing the stream plus a read is framing the old stream, then its unframed tail plus the read from scratch |
| TcpConnectionSimple.ReadKeepsInv | tcp_connection_simple.cs:94-135 | one read keeps the invariant, or closes with an empty queue exactly when framing the longer stream fails |
| TcpConnectionSimple.ReadSucceeds | tcp_connection_simple.cs:113-124 | a read that frames without error keeps the invariant for the longer stream |
| TcpConnectionSimple.ReadMatches | tcp_connection_simple.cs:113-124 | after such a read, queue and window are what framing the window plus the read gives |
| TcpConnectionSimple.FirstReadFails | tcp_connection_simple.cs:115-119 | a read that makes framing fail closes the connection for good, and framing the whole stream fails too |
| TcpConnectionSimple.ChunkingInvariance | tcp_connection_simple.cs:94-167 | however the stream is split into reads, the connection ends with the packets and window of framing the whole stream at once, or closed with an empty queue when that framing fails |
| TcpConnectionSimple.AgreesWithBuffered | tcp_connection_simple.cs:137-167 | fed one stream in any reads, this connection and the buffered one queue the same packets, stay open or close alike, and hold the same unframed bytes |
| TcpConnectionSimple.StaleBytesHideHeader | tcp_connection_simple.cs:141-152 | two stale bytes in front make the header announce 329993 bytes, so nothing is framed |
| TcpConnectionSimple.SampleFrames | tcp_connection_simple.cs:137-167 | on its own, the sample packet frames as command 7 with body 01 02 03 |
| TcpConnectionSimple.StaleBytesSurviveReconnect | tcp_connection_simple.cs:69-86 | after reconnecting as written, the next whole packet is not delivered; with the fill length reset, it is |
| TcpConnectionSimple.DroppedMidHeader | tcp_connection_simple.cs:105-110 | connecting, receiving two bytes and then a 0-byte read leaves the connection disconnected |
| TcpConnectionSimple.StaleBytesAreReachable | tcp_connection_simple.cs:27-61 | `Connect` accepts the dropped connection again, with the two stale bytes still in its window |

## Left out

- Sockets and connection setup become parameters. The DNS lookup,
  `int.Parse` of the port, `TcpClient`, `NetworkStream` and the
  `BeginConnect`/`BeginRead`/`EndRead`/`BeginWrite` calls are modelled
  only by their outcomes: `port` (none when `int.Parse` throws),
  `addressCount`, the `ConnectOutcome` of `onAsyncConnected` (the
  `streamOk` flag of the simple connection), `writeOk`, and the bytes a
  read returns.
- `BeginRead` throwing when `onAsyncRead` re-arms it (tcp_connection.cs:182-185)
  reaches the `catch`, which closes: the same transition as a user
  `Close`, so it is not a separate event.
- A read is a chunk of at most the free part of the buffer. A negative
  `bytesRead` is treated like 0.
- `onAsyncWrite`: an `EndWrite` failure closes the connection. That is the
  same transition as a user `Close`, so it is not a separate event.
- ws_connection.cs is not modelled. It is blocking I/O and a `Task.Run`
  receive loop. Its only logic, one frame decoded as one packet and the
  same compare-and-swap close, is already covered.
- `lock` and `Interlocked` are not modelled as concurrency. The close flag
  and the queue are a sequential state machine, with one operation per
  step.
- Protobuf internals are left abstract. `ToByteArray`/`CalculateSize` and
  `Parser.ParseFrom` are the functions `serialize` and `parse` (which may
  fail) in `ProtoRuntime`. The size is taken as the serialised length, so
  the length-mismatch log at codec.cs:58-61 has no counterpart.
- Hook contents are left abstract. `DataEncoder`/`DataDecoder` are
  `Bytes -> Bytes` functions over whole arrays; the connection and packet
  arguments they receive are dropped. The decoder's output is read as a
  fresh array starting at offset 0.
- Logging (`Console.WriteLine`) is not modelled. Neither is
  `TryWriteBytes` (codec.cs:36-41), which writes into a copy and has no
  effect.
- From `ConnectionConfig`, only `RecvBufferSize` is kept, as the
  constructor's parameter. The timeouts and other fields contain no logic.
- Exceptions thrown by user callbacks (`OnConnected`, `OnClose`) are not
  modelled.
- The `m_TcpClient != null` test in the read handler's `catch` is not
  modelled. In the model every decode error closes, which is what the
  `catch` does while a client exists.
- `IsConnected()` (connection.cs:116-119) is the `connected` field of each
  connection state. It has no separate member.
- tcp_connection.cs calls `Codec.DecodePacketHeader`, which only the
  6-byte codec defines. It also passes `ArraySegment`s where that codec
  takes `Slice<byte>`. The connection's codec capability decodes a copy of
  the window with the corrected guard.
  `CodecProtobufSimple.DecodeReadsOnlyWindow` shows the corrected decode
  gives the same on the window in place.
  `CodecProtobufSimple.AsWrittenAgreesInPlace` shows the guard as written
  gives the same packet or failure on every window whose length was
  peeked from the window's own first six bytes. That covers every window
  `DecodePackets` passes while no stale header is cached.
- `CodecProtobufSimple.Ops`: once a stale header is cached (the reconnect
  as written at tcp_connection.cs:145, after a drop or after a decode
  failure, since framing keeps the header on failure), the window's length
  comes from that header rather than from the window's bytes. There the
  connection model closes, where the source decodes in place and may read
  up to 6 bytes past the window. `TcpConnection.StaleHeaderMeetsOverlongGuard`
  shows one such input. The model keeps the corrected guard, because the
  stale header it depends on is itself the finding at tcp_connection.cs:145.
- tcp_connection_simple.cs uses `m_Codec`, `GetCodec()` and
  `clearPackets()`, which the `baseConnection` in connection.cs does not
  declare. They are read as the connection's codec and `ClearPackets`.
- `TcpConnectionSimple.Compact`: a codec whose header cannot be read ends
  the loop like a decode error. The 4-byte header the source pairs with
  this connection always reads.
- `TcpConnectionSimple.DecodePackets`: it states the buffer only up to the
  fill length, plus its size. The stale bytes beyond the fill length are
  never read again.
- `Bytes.U16ToBytes`, `Bytes.U32ToBytes`: their contracts state only the
  length. The layout is stated by `Bytes.U16RoundTrip` and
  `Bytes.U32RoundTrip`.
- `Convert.ToInt32`/`Convert.ToUInt32` overflow cannot happen: a frame longer
  than `MaxArrayLength` (0x7FFFFFC7) makes `Encode` fail in the model, as the
  allocation would.
- `Encode` does not reject a body longer than `MaxPacketDataSize`, in either
  codec: it announces the low 24 bits of the length and ORs the rest into the
  flags, so such a packet does not round-trip (`Codec.WideBodyMisannounced`,
  `CodecProtobufSimple.WideBodyTruncated`). The round-trip lemmas are stated
  for bodies within the 24-bit field.

## Findings

| source | as written | input that shows it | evidently intended | confidence | as-written member | corrected member |
|---|---|---|---|---|---|---|
| codec_protobuf_simple.cs:134 | `if (messageLen > data.Length)` compares the body length with the whole window, header included | window `[6,0,0,0,7,0]` (length 6 announcing a 6-byte body). Over the first 6 bytes of `[6,0,0,0,7,0,1,2,3,4,5,6]` it returns command 7 with the bytes after the window; over a 6-byte array `Array.Copy` throws | `6 + messageLen > data.Length` returns null | high; not executed | CodecProtobufSimple.DecodeAsWritten, shown by CodecProtobufSimple.GuardAdmitsOverlongLength and TcpConnection.StaleHeaderMeetsOverlongGuard | CodecProtobufSimple.Decode, with CodecProtobufSimple.DecodeReadsOnlyWindow |
| tcp_connection.cs:145 | `onAsyncConnected` resets `m_ReadLength` but not `m_CurrentPacketHeader`, which `Close` also keeps | connect, receive `0A 00 00 00 01 00`, the peer closes, `Connect` again, then receive the whole packet `00 00 00 00 02 00`: nothing is delivered, because the stale header makes the connection wait for 16 bytes | a new connection frames its stream from the start, with no cached header | high; not executed | TcpConnection.OnConnectedAsWritten, shown by TcpConnection.StaleHeaderSurvivesReconnect and TcpConnection.StaleHeaderIsReachable | TcpConnection.OnConnected, with TcpConnection.ConnectedStartsClean |
| tcp_connection_simple.cs:79 | `OnConnected` starts reading at `m_ReadLength`, which nothing resets | connect, receive `09 09`, the peer closes, `Connect` again, then receive `05 00 00 00 07 00 01 02 03`: the header read at offset 0 announces 329993 bytes and the packet is never delivered | reset `m_ReadLength` to 0 on connect, as tcp_connection.cs:145 does | high; not executed | TcpConnectionSimple.OnConnectedAsWritten, shown by TcpConnectionSimple.StaleBytesSurviveReconnect and TcpConnectionSimple.StaleBytesAreReachable | TcpConnectionSimple.OnConnected, with TcpConnectionSimple.ConnectedStartsClean |

=== FILE: bytes.dfy ===
/** Fixed-width unsigned integers and their little-endian byte layout, as
    `BinaryWriter.Write` produces it and `BitConverter.ToUInt16/ToUInt32`
    reads it on a little-endian platform. */
module Bytes {
  import opened Slices

  type byte = x: int | 0 <= x < 0x100
  type u16 = x: int | 0 <= x < 0x1_0000
  type u32 = x: int | 0 <= x < 0x1_0000_0000
  type Bytes = seq<byte>

  /** The largest number of elements a .NET byte array may hold
      (`Array.MaxLength`); allocating more throws. */
  const MaxArrayLength: nat := 0x7FFF_FFC7

  /** `BinaryWriter.Write(ushort)`: low byte first. */
  function U16ToBytes(v: u16): (r: Bytes)
    ensures |r| == 2
  {
    [v % 0x100, v / 0x100]
  }

  /** `BinaryWriter.Write(uint)`: low half first. */
  function U32ToBytes(v: u32): (r: Bytes)
    ensures |r| == 4
  {
    U16ToBytes(v % 0x1_0000) + U16ToBytes(v / 0x1_0000)
  }

  /** `BitConverter.ToUInt16(b, off)`. */
  function ReadU16(b: Bytes, off: nat): u16
    requires off + 2 <= |b|
  {
    b[off] as int + b[off + 1] as int * 0x100
  }

  /** `BitConverter.ToUInt32(b, off)`. */
  function ReadU32(b: Bytes, off: nat): u32
    requires off + 4 <= |b|
  {
    ReadU16(b, off) as int + ReadU16(b, off + 2) as int * 0x1_0000
  }

  /** Writing `data` at `off` of a fixed-size array (a `BinaryWriter` over a
      non-expandable `MemoryStream`). */
  function WriteAt(b: Bytes, off: nat, data: Bytes): (r: Bytes)
    requires off + |data| <= |b|
    ensures |r| == |b|
    ensures r[off..off + |data|] == data
    ensures r[..off] == b[..off] && r[off + |data|..] == b[off + |data|..]
  {
    ArrayCopy(data, 0, b, off, |data|)
  }

  /** Reading back a written `ushort` gives the value written. */
  lemma U16RoundTrip(b: Bytes, off: nat, v: u16)
    requires off + 2 <= |b|
    ensures ReadU16(WriteAt(b, off, U16ToBytes(v)), off) == v
  {
    var r := WriteAt(b, off, U16ToBytes(v));
    assert r[off] == v % 0x100 && r[off + 1] == v / 0x100 by {
      assert r[off..off + 2] == U16ToBytes(v);
    }
  }

  /** Reading back a written `uint` gives the value written. */
  lemma U32RoundTrip(b: Bytes, off: nat, v: u32)
    requires off + 4 <= |b|
    ensures ReadU32(WriteAt(b, off, U32ToBytes(v)), off) == v
  {
    var r := WriteAt(b, off, U32ToBytes(v));
    assert r[off..off + 4] == U32ToBytes(v);
    assert r[off] == (v % 0x1_0000) % 0x100 && r[off + 1] == (v % 0x1_0000) / 0x100;
    assert r[off + 2] == (v / 0x1_0000) % 0x100 && r[off + 3] == (v / 0x1_0000) / 0x100;
  }

  /** The value read depends only on the four bytes at `off`. */
  lemma ReadU32Local(a: Bytes, ia: nat, b: Bytes, ib: nat)
    requires ia + 4 <= |a| && ib + 4 <= |b|
    requires a[ia..ia + 4] == b[ib..ib + 4]
    ensures ReadU32(a, ia) == ReadU32(b, ib)
  {
    assert a[ia] == a[ia..ia + 4][0] && a[ia + 1] == a[ia..ia + 4][1];
    assert a[ia + 2] == a[ia..ia + 4][2] && a[ia + 3] == a[ia..ia + 4][3];
  }

  /** The value read depends only on the two bytes at `off`. */
  lemma ReadU16Local(a: Bytes, ia: nat, b: Bytes, ib: nat)
    requires ia + 2 <= |a| && ib + 2 <= |b|
    requires a[ia..ia + 2] == b[ib..ib + 2]
    ensures ReadU16(a, ia) == ReadU16(b, ib)
  {
    assert a[ia] == a[ia..ia + 2][0] && a[ia + 1] == a[ia..ia + 2][1];
  }
}

=== FILE: codec.dfy ===
/** The codec with a 4-byte header followed by a 2-byte command (codec.cs):
    `[len:24 | flags:8][command:u16][body]`, where `len` counts the command
    and the body. */
module Codec {
  import opened Common
  import opened Bytes
  import opened Packet
  import opened Framing

  /** `m_MessageDescriptors`: which schema a command's body parses with. */
  type Registry = map<u16, Schema>

  /** `PacketHeaderSize()`. */
  const HeaderSize: nat := DefaultPacketHeaderSize

  /** The command follows the header as a little-endian `ushort`. */
  const CommandSize: nat := 2

  /** `SimpleProtoCodec` of codec.cs: its registry and the protobuf runtime. */
  datatype SimpleProtoCodec = SimpleProtoCodec(registry: Registry, proto: ProtoRuntime)

  /** `Register(command, descriptor)`: a later registration replaces an earlier one. */
  function Register(registry: Registry, command: u16, schema: Schema): (r: Registry)
    ensures command in r && r[command] == schema
    ensures forall c | c in registry && c != command :: c in r && r[c] == registry[c]
    ensures r.Keys == registry.Keys + {command}
  {
    registry[command := schema]
  }

  /** `CreatePacketHeader(connection, packet, packetData)`: an empty header
      for a null array, else one announcing the array's length. */
  function CreatePacketHeader(packetData: Option<Bytes>): (h: PacketHeader)
    requires packetData.Some? ==> |packetData.value| <= MaxArrayLength
    ensures packetData.None? ==> Len(h) == 0 && Flags(h) == 0
    ensures packetData.Some? && |packetData.value| <= MaxPacketDataSize ==>
              Len(h) == |packetData.value| && Flags(h) == 0
  {
    if packetData.None? then EmptyHeader() else NewHeader(|packetData.value|, 0)
  }

  /** The body bytes `Encode` writes: the serialised message when there is
      one, else the stream data; `None` when both are null, where
      `streamData.Length` throws. */
  function EncodedBody(c: SimpleProtoCodec, p: ProtoPacket): Option<Bytes> {
    match p.payload
    case ProtoMessage(m) => Some(c.proto.serialize(m))
    case StreamData(d) => Some(d)
    case NoPayload => None
  }

  /** `Encode(connection, packet)`; `None` stands for the exceptions (no body
      at all, or a frame too large for a .NET array). Both branches of the
      source build the same layout. */
  function Encode(c: SimpleProtoCodec, p: ProtoPacket): (r: Option<Bytes>)
    ensures r.Some? <==> EncodedBody(c, p).Some? && HeaderSize + CommandSize + |EncodedBody(c, p).value| <= MaxArrayLength
    ensures r.Some? ==>
              var body := EncodedBody(c, p).value;
              && |r.value| == HeaderSize + CommandSize + |body|
              && ReadFrom(r.value, 0) == NewHeader(CommandSize + |body|, 0)
              && ReadU16(r.value, HeaderSize) == p.command
              && r.value[HeaderSize + CommandSize..] == body
  {
    var body := EncodedBody(c, p);
    if body.None? || HeaderSize + CommandSize + |body.value| > MaxArrayLength then None
    else
      var b := body.value;
      var zeros: Bytes := seq(HeaderSize + CommandSize + |b|, _ => 0);
      var withHeader := WriteTo(NewHeader(CommandSize + |b|, 0), zeros, 0);
      var withCommand := WriteAt(withHeader, HeaderSize, U16ToBytes(p.command));
      var full := WriteAt(withCommand, HeaderSize + CommandSize, b);
      assert full[..HeaderSize] == withHeader[..HeaderSize] by {
        assert full[..HeaderSize] == withCommand[..HeaderSize + CommandSize][..HeaderSize];
      }
      ReadU32Local(full, 0, withHeader, 0);
      U16RoundTrip(withHeader, HeaderSize, p.command);
      assert full[HeaderSize..HeaderSize + CommandSize] == withCommand[HeaderSize..HeaderSize + CommandSize] by {
        assert full[..HeaderSize + CommandSize] == withCommand[..HeaderSize + CommandSize];
      }
      ReadU16Local(full, HeaderSize, withCommand, HeaderSize);
      Some(full)
  }

  /** What a body becomes once its command is resolved: raw bytes for an
      unregistered command, else the parsed message; a failed parse throws. */
  function Resolve(c: SimpleProtoCodec, command: u16, body: Bytes): (r: Outcome<ProtoPacket>)
    ensures r.Null? == false
    ensures command !in c.registry ==> r == Value(ProtoPacket(command, StreamData(body)))
    ensures command in c.registry ==> (r.Value? <==> c.proto.parse(c.registry[command], body).Some?)
    ensures command in c.registry && c.proto.parse(c.registry[command], body).Some? ==>
              r == Value(ProtoPacket(command, ProtoMessage(c.proto.parse(c.registry[command], body).value)))
  {
    if command !in c.registry then Value(ProtoPacket(command, StreamData(body)))
    else match c.proto.parse(c.registry[command], body)
      case None => Throws
      case Some(m) => Value(ProtoPacket(command, ProtoMessage(m)))
  }

  /** `Decode(connection, data)`. Inputs shorter than header and command give
      null. The body is the `Len() - 2` bytes after the command; a header with
      `Len() < 2`, or one announcing more bytes than `data` holds, makes
      `Span.Slice` throw. */
  function Decode(c: SimpleProtoCodec, data: Bytes): (r: Outcome<ProtoPacket>)
    ensures r.Null? <==> |data| < HeaderSize + CommandSize
    ensures (&& |data| >= HeaderSize + CommandSize
             && (Len(ReadFrom(data, 0)) < CommandSize || HeaderSize + Len(ReadFrom(data, 0)) > |data|))
            ==> r.Throws?
    ensures (&& |data| >= HeaderSize + CommandSize
             && CommandSize <= Len(ReadFrom(data, 0)) && HeaderSize + Len(ReadFrom(data, 0)) <= |data|)
            ==>
              r == Resolve(c, ReadU16(data, HeaderSize), data[HeaderSize + CommandSize..HeaderSize + Len(ReadFrom(data, 0))])
    ensures r.Value? ==>
              && HeaderSize + Len(ReadFrom(data, 0)) <= |data|
              && r.value.command == ReadU16(data, HeaderSize)
              && (r.value.command !in c.registry ==>
                    r.value.payload == StreamData(data[HeaderSize + CommandSize..HeaderSize + Len(ReadFrom(data, 0))]))
              && (r.value.command in c.registry ==> r.value.payload.ProtoMessage?)
  {
    if |data| < HeaderSize + CommandSize then Null
    else
      var header := ReadFrom(data, 0);
      var command := ReadU16(data, HeaderSize);
      var messageLen := Len(header) - CommandSize;
      if messageLen < 0 || HeaderSize + CommandSize + messageLen > |data| then Throws
      else Resolve(c, command, data[HeaderSize + CommandSize..HeaderSize + CommandSize + messageLen])
  }

  /** Round trip: decoding an encoded packet gives back its command, and
      its body as raw bytes for an unregistered command, or as the message
      the schema parses it to. A header length of exactly `CommandSize`
      (an empty body) is no error. */
  lemma {:induction false} DecodeEncode(c: SimpleProtoCodec, p: ProtoPacket)
    requires EncodedBody(c, p).Some?
    requires CommandSize + |EncodedBody(c, p).value| <= MaxPacketDataSize
    ensures Encode(c, p).Some?
    ensures var body := EncodedBody(c, p).value;
            Decode(c, Encode(c, p).value) == Resolve(c, p.command, body)
  {
    var body := EncodedBody(c, p).value;
    var e := Encode(c, p).value;
    assert Len(ReadFrom(e, 0)) == CommandSize + |body|;
    assert e[HeaderSize + CommandSize..HeaderSize + CommandSize + |body|] == body;
  }

  /** Nothing checks a body against `MaxPacketDataSize`: a body too wide for
      the 24-bit length field still encodes. The header then announces the
      low 24 bits of `2 + |body|`, the high bits land in the flags, and an
      unregistered command's packet does not come back. */
  lemma WideBodyMisannounced(c: SimpleProtoCodec, p: ProtoPacket)
    requires EncodedBody(c, p).Some?
    requires MaxPacketDataSize < CommandSize + |EncodedBody(c, p).value|
    requires HeaderSize + CommandSize + |EncodedBody(c, p).value| <= MaxArrayLength
    ensures Encode(c, p).Some?
    ensures var n := CommandSize + |EncodedBody(c, p).value|;
            var h := ReadFrom(Encode(c, p).value, 0);
            Len(h) == n % 0x100_0000 && Flags(h) == n / 0x100_0000 && Flags(h) != 0
    ensures p.command !in c.registry ==>
              Decode(c, Encode(c, p).value) != Resolve(c, p.command, EncodedBody(c, p).value)
  {
    var body := EncodedBody(c, p).value;
    NewHeaderSpills(CommandSize + |body|);
    if p.command !in c.registry {
      ShortHeaderLosesBody(c, Encode(c, p).value, p.command, body);
    }
  }

  /** A frame whose header announces less than `2 + |body|` does not decode
      to the raw packet with that body. */
  lemma ShortHeaderLosesBody(c: SimpleProtoCodec, e: Bytes, command: u16, body: Bytes)
    requires command !in c.registry && |e| >= HeaderSize + CommandSize
    requires Len(ReadFrom(e, 0)) < CommandSize + |body|
    ensures Decode(c, e) != Value(ProtoPacket(command, StreamData(body)))
  {
    var d := Decode(c, e);
    if d.Value? && d.value.command !in c.registry {
      assert |d.value.payload.data| == Len(ReadFrom(e, 0)) - CommandSize;
    }
  }

  /** The smallest such body, 0xFFFFFF zero bytes: the header reads length 1
      and flags 1, and decoding the frame throws. */
  lemma WideBodyExample(c: SimpleProtoCodec)
    requires 7 !in c.registry
    ensures var e := Encode(c, ProtoPacket(7, StreamData(seq(0xFF_FFFF, _ => 0))));
            && e.Some?
            && Len(ReadFrom(e.value, 0)) == 1 && Flags(ReadFrom(e.value, 0)) == 1
            && Decode(c, e.value).Throws?
  {
    WideBodyMisannounced(c, ProtoPacket(7, StreamData(seq(0xFF_FFFF, _ => 0))));
  }

  /** For a registered command, the round trip returns the original packet
      whenever the schema parses the serialised message back to itself. */
  lemma MessageRoundTrip(c: SimpleProtoCodec, p: ProtoPacket)
    requires p.payload.ProtoMessage? && p.command in c.registry
    requires CommandSize + |c.proto.serialize(p.payload.message)| <= MaxPacketDataSize
    requires c.proto.parse(c.registry[p.command], c.proto.serialize(p.payload.message)) == Some(p.payload.message)
    ensures Encode(c, p).Some? && Decode(c, Encode(c, p).value) == Value(p)
  {
    DecodeEncode(c, p);
  }

  /** The worked example of the wire format: command 7 with body 01 02 03
      is the nine bytes `05 00 00 00 07 00 01 02 03`. */
  lemma WireExample(c: SimpleProtoCodec)
    ensures Encode(c, ProtoPacket(7, StreamData([1, 2, 3]))) == Some([5, 0, 0, 0, 7, 0, 1, 2, 3])
  {
    var e := Encode(c, ProtoPacket(7, StreamData([1, 2, 3]))).value;
    assert ReadFrom(e, 0) == PacketHeader(5);
    assert e[0] as int + e[1] as int * 0x100 + e[2] as int * 0x1_0000 + e[3] as int * 0x100_0000 == 5;
    assert ReadU16(e, 4) == 7;
    assert e[0] == 5 && e[1] == 0 && e[2] == 0 && e[3] == 0 && e[4] == 7 && e[5] == 0;
    assert e[6..] == [1, 2, 3];
    assert e == e[..6] + e[6..];
    assert e[..6] == [5, 0, 0, 0, 7, 0];
    var expected: Bytes := [5, 0, 0, 0, 7, 0, 1, 2, 3];
    assert expected == [5, 0, 0, 0, 7, 0] + [1, 2, 3];
    assert e == expected;
  }

  /** The capability the connection layer sees. The header is read straight
      from the first four bytes (`CreatePacketHeader(null)` then `ReadFrom`). */
  function Ops(c: SimpleProtoCodec): (ops: CodecOps)
    ensures ValidOps(ops) && ops.headerSize == HeaderSize
  {
    CodecOps(
      HeaderSize,
      (w: Bytes) => if |w| >= HeaderSize then Some(Len(ReadFrom(w, 0))) else None,
      (w: Bytes) => Decode(c, w).ToOption(),
      (p: ProtoPacket) => Encode(c, p))
  }
}

=== FILE: codec_protobuf_simple.dfy ===
/** The codec with a 6-byte header that carries the command inline
    (codec_protobuf_simple.cs): `[len:24 | flags:8][command:u16][body]`,
    where `len` counts the body only. Whole-packet transform hooks may sit
    after encoding and before decoding. */
module CodecProtobufSimple {
  import opened Common
  import opened Bytes
  import opened Slices
  import opened Packet
  import opened Framing
  import Codec

  /** `SimplePacketHeader.SimplePacketHeaderSize`, also `PacketHeaderSize()`. */
  const SimplePacketHeaderSize: nat := 6

  /** Offset of the command inside the header. */
  const CommandOffset: nat := 4

  /** `SimplePacketHeader`: the `DefaultPacketHeader` word and a command. */
  datatype SimplePacketHeader = SimplePacketHeader(word: PacketHeader, command: u16)

  /** `new SimplePacketHeader(len, flags, command)`. */
  function NewSimpleHeader(len: u32, flags: byte, command: u16): (h: SimplePacketHeader)
    ensures Len(h.word) == len % 0x100_0000 && h.command == command
    ensures len <= MaxPacketDataSize ==> Len(h.word) == len && Flags(h.word) == flags
  {
    SimplePacketHeader(NewHeader(len, flags), command)
  }

  /** A whole header fits in the array from the slice's start. */
  predicate HeaderFits(s: Slice<byte>) {
    0 <= s.start && s.start + SimplePacketHeaderSize <= |s.original|
  }

  /** `ReadFrom(slice)`: the word at `StartIndex`, the command at `StartIndex + 4`. */
  function ReadSimpleHeader(s: Slice<byte>): SimplePacketHeader
    requires HeaderFits(s)
  {
    SimplePacketHeader(ReadFrom(s.original, s.start), ReadU16(s.original, s.start + CommandOffset))
  }

  /** `WriteTo(slice)`: the array after the header is written at `StartIndex`.
      Only the six header bytes change, and reading them back gives the header. */
  function WriteSimpleHeader(h: SimplePacketHeader, s: Slice<byte>): (r: Bytes)
    requires HeaderFits(s)
    ensures |r| == |s.original|
    ensures r[..s.start] == s.original[..s.start]
    ensures r[s.start + SimplePacketHeaderSize..] == s.original[s.start + SimplePacketHeaderSize..]
    ensures ReadSimpleHeader(Slice(r, s.start, s.length)) == h
  {
    var withWord := WriteTo(h.word, s.original, s.start);
    var r := WriteAt(withWord, s.start + CommandOffset, U16ToBytes(h.command));
    assert r[s.start..s.start + DefaultPacketHeaderSize] == withWord[s.start..s.start + DefaultPacketHeaderSize] by {
      assert r[..s.start + CommandOffset] == withWord[..s.start + CommandOffset];
    }
    ReadU32Local(r, s.start, withWord, s.start);
    U16RoundTrip(withWord, s.start + CommandOffset, h.command);
    r
  }

  /** `DataEncoder` and `DataDecoder`: optional transforms of whole packets
      (cipher, compression). The connection and packet arguments they also
      receive are not modelled. */
  datatype Hooks = Hooks(encoder: Option<Bytes -> Bytes>, decoder: Option<Bytes -> Bytes>)

  /** `SimpleProtoCodec` of codec_protobuf_simple.cs. */
  datatype SimpleProtoCodec = SimpleProtoCodec(registry: Codec.Registry, proto: ProtoRuntime, hooks: Hooks)

  /** `Register(command, descriptor)`, the same replacement as in codec.cs. */
  function Register(c: SimpleProtoCodec, command: u16, schema: Schema): (r: SimpleProtoCodec)
    ensures GetMessageDescriptor(r, command) == Some(schema)
    ensures forall k | k != command :: GetMessageDescriptor(r, k) == GetMessageDescriptor(c, k)
    ensures r.hooks == c.hooks && r.proto == c.proto
  {
    c.(registry := Codec.Register(c.registry, command, schema))
  }

  /** `getMessageDescriptor(command)`: the registered schema, or null. */
  function GetMessageDescriptor(c: SimpleProtoCodec, command: u16): (r: Option<Schema>)
    ensures r.Some? <==> command in c.registry
    ensures r.Some? ==> r.value == c.registry[command]
  {
    if command in c.registry then Some(c.registry[command]) else None
  }

  /** The data `Decode` and `DecodePacketHeader` go on to read: the input, or
      what `DataDecoder` makes of its bytes. */
  function ApplyDecoder(c: SimpleProtoCodec, data: Slice<byte>): (d: Slice<byte>)
    requires InBounds(data)
    ensures InBounds(d)
    ensures c.hooks.decoder.None? ==> d == data
    ensures c.hooks.decoder.Some? ==> d == FromArray(c.hooks.decoder.value(ToArray(data)))
  {
    if c.hooks.decoder.Some? then FromArray(c.hooks.decoder.value(ToArray(data))) else data
  }

  /** `DecodePacketHeader(connection, headerData)`: null for fewer than six
      bytes; otherwise the decoder runs and the `DefaultPacketHeader` word is
      read, so its length is the one `SimplePacketHeader` reads from the same
      bytes. A decoder output too short for the word throws. */
  function DecodePacketHeader(c: SimpleProtoCodec, headerData: Slice<byte>): (r: Outcome<PacketHeader>)
    requires InBounds(headerData)
    ensures r.Null? <==> headerData.length < SimplePacketHeaderSize
    ensures var d := ApplyDecoder(c, headerData);
            r.Value? && HeaderFits(d) ==> Len(r.value) == Len(ReadSimpleHeader(d).word)
    ensures c.hooks.decoder.None? && headerData.length >= SimplePacketHeaderSize ==>
              r == Value(ReadSimpleHeader(headerData).word)
  {
    if headerData.length < SimplePacketHeaderSize then Null
    else
      var d := ApplyDecoder(c, headerData);
      if d.start + DefaultPacketHeaderSize > |d.original| then Throws
      else Value(ReadFrom(d.original, d.start))
  }

  /** The body `Encode` writes: the serialised message, else the stream data,
      else nothing (a null body has length 0). */
  function EncodedBody(c: SimpleProtoCodec, p: ProtoPacket): Bytes {
    match p.payload
    case ProtoMessage(m) => c.proto.serialize(m)
    case StreamData(d) => d
    case NoPayload => []
  }

  /** The framed packet before `DataEncoder`: the header announcing the body
      length with flags 0 and the command inline, then the body. */
  function Frame(command: u16, body: Bytes): (r: Bytes)
    requires SimplePacketHeaderSize + |body| <= MaxArrayLength
    ensures |r| == SimplePacketHeaderSize + |body|
    ensures ReadSimpleHeader(FromArray(r)) == NewSimpleHeader(|body|, 0, command)
    ensures r[SimplePacketHeaderSize..] == body
  {
    var zeros: Bytes := seq(SimplePacketHeaderSize + |body|, _ => 0);
    var withHeader := WriteSimpleHeader(NewSimpleHeader(|body|, 0, command), FromArray(zeros));
    var r := WriteAt(withHeader, SimplePacketHeaderSize, body);
    assert r[..SimplePacketHeaderSize] == withHeader[..SimplePacketHeaderSize];
    ReadU32Local(r, 0, withHeader, 0);
    ReadU16Local(r, CommandOffset, withHeader, CommandOffset);
    r
  }

  /** `Encode(connection, packet)`: the framed packet, passed once, whole,
      through `DataEncoder` when one is set. `None` stands for a frame too
      large for a .NET array. */
  function Encode(c: SimpleProtoCodec, p: ProtoPacket): (r: Option<Bytes>)
    ensures r.Some? <==> SimplePacketHeaderSize + |EncodedBody(c, p)| <= MaxArrayLength
    ensures r.Some? && c.hooks.encoder.None? ==> r.value == Frame(p.command, EncodedBody(c, p))
    ensures r.Some? && c.hooks.encoder.Some? ==> r.value == c.hooks.encoder.value(Frame(p.command, EncodedBody(c, p)))
  {
    var body := EncodedBody(c, p);
    if SimplePacketHeaderSize + |body| > MaxArrayLength then None
    else
      var packetBytes := Frame(p.command, body);
      Some(if c.hooks.encoder.Some? then c.hooks.encoder.value(packetBytes) else packetBytes)
  }

  /** What a body becomes once its command is resolved: raw bytes for an
      unregistered command, else the parsed message; a parse failure is
      caught and gives null. */
  function Resolve(c: SimpleProtoCodec, command: u16, body: Bytes): (r: Outcome<ProtoPacket>)
    ensures !r.Throws?
    ensures GetMessageDescriptor(c, command).None? ==> r == Value(ProtoPacket(command, StreamData(body)))
    ensures GetMessageDescriptor(c, command).Some? ==>
              (r.Value? <==> c.proto.parse(c.registry[command], body).Some?)
    ensures GetMessageDescriptor(c, command).Some? && c.proto.parse(c.registry[command], body).Some? ==>
              r == Value(ProtoPacket(command, ProtoMessage(c.proto.parse(c.registry[command], body).value)))
  {
    match GetMessageDescriptor(c, command)
    case None => Value(ProtoPacket(command, StreamData(body)))
    case Some(schema) =>
      match c.proto.parse(schema, body)
      case None => Null
      case Some(m) => Value(ProtoPacket(command, ProtoMessage(m)))
  }

  /** `Decode(connection, data)` as written: the length guard compares the
      body length with the whole data length, header included, so a body
      that runs up to six bytes past the window is still copied from the
      underlying array. When it runs past the array, `ToArray` throws: the
      exception escapes for an unregistered command, and is caught (null)
      for a registered one, whose copy sits inside the `try`. */
  function DecodeAsWritten(c: SimpleProtoCodec, data: Slice<byte>): (r: Outcome<ProtoPacket>)
    requires InBounds(data)
    ensures data.length < SimplePacketHeaderSize ==> r.Null?
    ensures var d := ApplyDecoder(c, data);
            data.length >= SimplePacketHeaderSize && !HeaderFits(d) ==> r.Throws?
    ensures var d := ApplyDecoder(c, data);
            data.length >= SimplePacketHeaderSize && HeaderFits(d) ==>
              var h := ReadSimpleHeader(d);
              var end := d.start + SimplePacketHeaderSize + Len(h.word);
              && (SimplePacketHeaderSize + Len(h.word) <= d.length ==> r == Decode(c, data))
              && (Len(h.word) > d.length ==> r.Null?)
              && (d.length < SimplePacketHeaderSize + Len(h.word) && Len(h.word) <= d.length && end <= |d.original| ==>
                    r == Resolve(c, h.command, d.original[d.start + SimplePacketHeaderSize..end]))
              && (Len(h.word) <= d.length && end > |d.original| ==>
                    r == if GetMessageDescriptor(c, h.command).None? then Throws else Null)
  {
    if data.length < SimplePacketHeaderSize then Null
    else
      var d := ApplyDecoder(c, data);
      if !HeaderFits(d) then Throws
      else
        var h := ReadSimpleHeader(d);
        var messageLen := Len(h.word);
        if messageLen > d.length then Null
        else if d.start + SimplePacketHeaderSize + messageLen > |d.original| then
          if GetMessageDescriptor(c, h.command).None? then Throws else Null
        else
          var body := d.original[d.start + SimplePacketHeaderSize..d.start + SimplePacketHeaderSize + messageLen];
          assert SimplePacketHeaderSize + messageLen <= d.length ==>
                   ToArray(d)[SimplePacketHeaderSize..SimplePacketHeaderSize + messageLen] == body;
          Resolve(c, h.command, body)
  }

  /** `Decode(connection, data)` with the guard counting the header: null
      for fewer than six bytes or a body longer than what follows the header,
      so the body always lies inside the (decoded) window. */
  function Decode(c: SimpleProtoCodec, data: Slice<byte>): (r: Outcome<ProtoPacket>)
    requires InBounds(data)
    ensures data.length < SimplePacketHeaderSize ==> r.Null?
    ensures var d := ApplyDecoder(c, data);
            data.length >= SimplePacketHeaderSize && !HeaderFits(d) ==> r.Throws?
    ensures var d := ApplyDecoder(c, data);
            (data.length >= SimplePacketHeaderSize && HeaderFits(d) &&
             SimplePacketHeaderSize + Len(ReadSimpleHeader(d).word) > d.length) ==> r.Null?
    ensures var d := ApplyDecoder(c, data);
            data.length >= SimplePacketHeaderSize && HeaderFits(d) &&
            SimplePacketHeaderSize + Len(ReadSimpleHeader(d).word) <= d.length ==>
              var h := ReadSimpleHeader(d);
              r == Resolve(c, h.command, ToArray(d)[SimplePacketHeaderSize..SimplePacketHeaderSize + Len(h.word)])
    ensures r.Value? ==>
              var d := ApplyDecoder(c, data);
              && HeaderFits(d)
              && var h := ReadSimpleHeader(d);
              && SimplePacketHeaderSize + Len(h.word) <= d.length
              && r.value.command == h.command
              && (GetMessageDescriptor(c, h.command).None? ==>
                    r.value.payload == StreamData(ToArray(d)[SimplePacketHeaderSize..SimplePacketHeaderSize + Len(h.word)]))
              && (GetMessageDescriptor(c, h.command).Some? ==> r.value.payload.ProtoMessage?)
  {
    if data.length < SimplePacketHeaderSize then Null
    else
      var d := ApplyDecoder(c, data);
      if !HeaderFits(d) then Throws
      else
        var h := ReadSimpleHeader(d);
        var messageLen := Len(h.word);
        if SimplePacketHeaderSize + messageLen > d.length then Null
        else Resolve(c, h.command, ToArray(d)[SimplePacketHeaderSize..SimplePacketHeaderSize + messageLen])
  }

  /** The guard as written lets a header announce a body that ends past the
      window: over a six-byte window of a larger array the bytes after the
      window come back as the body, and over a six-byte array the copy throws.
      The corrected guard returns null in both cases. */
  lemma GuardAdmitsOverlongLength(c: SimpleProtoCodec)
    requires c.hooks.decoder.None? && 7 !in c.registry
    ensures var a: Bytes := [6, 0, 0, 0, 7, 0, 1, 2, 3, 4, 5, 6];
            && DecodeAsWritten(c, Slice(a, 0, 6)) == Value(ProtoPacket(7, StreamData([1, 2, 3, 4, 5, 6])))
            && DecodeAsWritten(c, FromArray(a[..6])) == Throws
            && Decode(c, Slice(a, 0, 6)) == Null
            && Decode(c, FromArray(a[..6])) == Null
  {
    OverlongInWindow(c);
    OverlongInArray(c);
  }

  /** The six-byte window at the front of the twelve-byte array. */
  lemma OverlongInWindow(c: SimpleProtoCodec)
    requires c.hooks.decoder.None? && 7 !in c.registry
    ensures var a: Bytes := [6, 0, 0, 0, 7, 0, 1, 2, 3, 4, 5, 6];
            && DecodeAsWritten(c, Slice(a, 0, 6)) == Value(ProtoPacket(7, StreamData([1, 2, 3, 4, 5, 6])))
            && Decode(c, Slice(a, 0, 6)) == Null
  {
    var a: Bytes := [6, 0, 0, 0, 7, 0, 1, 2, 3, 4, 5, 6];
    assert ReadSimpleHeader(Slice(a, 0, 6)) == SimplePacketHeader(PacketHeader(6), 7);
    assert a[6..12] == [1, 2, 3, 4, 5, 6];
  }

  /** The same six bytes as an array of their own. */
  lemma OverlongInArray(c: SimpleProtoCodec)
    requires c.hooks.decoder.None? && 7 !in c.registry
    ensures var a: Bytes := [6, 0, 0, 0, 7, 0];
            && DecodeAsWritten(c, FromArray(a)) == Throws
            && Decode(c, FromArray(a)) == Null
  {
    var a: Bytes := [6, 0, 0, 0, 7, 0];
    assert ReadSimpleHeader(FromArray(a)) == SimplePacketHeader(PacketHeader(6), 7);
  }

  /** With the corrected guard, decoding a window depends only on the bytes
      inside it, so decoding a slice of the receive buffer equals decoding a
      copy of that slice. */
  lemma DecodeReadsOnlyWindow(c: SimpleProtoCodec, data: Slice<byte>)
    requires InBounds(data)
    ensures Decode(c, data) == Decode(c, FromArray(ToArray(data)))
  {
    if c.hooks.decoder.Some? {
      WindowThroughDecoder(c, data);
    } else if data.length >= SimplePacketHeaderSize {
      WindowWithoutDecoder(c, data);
    }
  }

  /** With a decoder hook both sides decode the hook's output on the same bytes. */
  lemma WindowThroughDecoder(c: SimpleProtoCodec, data: Slice<byte>)
    requires InBounds(data) && c.hooks.decoder.Some?
    ensures Decode(c, data) == Decode(c, FromArray(ToArray(data)))
  {
    var copy := FromArray(ToArray(data));
    assert ToArray(copy) == ToArray(data);
    assert ApplyDecoder(c, data) == ApplyDecoder(c, copy);
  }

  /** Without a decoder hook the header and the body are read from the same
      bytes whether they sit in the window or in a copy of it. */
  lemma WindowWithoutDecoder(c: SimpleProtoCodec, data: Slice<byte>)
    requires InBounds(data) && c.hooks.decoder.None? && data.length >= SimplePacketHeaderSize
    ensures Decode(c, data) == Decode(c, FromArray(ToArray(data)))
  {
    var copy := FromArray(ToArray(data));
    var w := ToArray(data);
    var h := ReadSimpleHeader(data);
    assert h == ReadSimpleHeader(copy) by {
      assert data.original[data.start..data.start + DefaultPacketHeaderSize] == w[..DefaultPacketHeaderSize];
      assert copy.original[0..DefaultPacketHeaderSize] == w[..DefaultPacketHeaderSize];
      ReadU32Local(data.original, data.start, copy.original, 0);
      assert data.original[data.start + CommandOffset..data.start + CommandOffset + 2] == w[CommandOffset..CommandOffset + 2];
      assert copy.original[CommandOffset..CommandOffset + 2] == w[CommandOffset..CommandOffset + 2];
      ReadU16Local(data.original, data.start + CommandOffset, copy.original, CommandOffset);
    }
    assert ToArray(copy) == w;
    DecodeByHeader(c, data, copy);
  }

  /** Without a decoder hook `Decode` sees a slice only through its length,
      its header and the bytes of its window. */
  lemma DecodeByHeader(c: SimpleProtoCodec, a: Slice<byte>, b: Slice<byte>)
    requires InBounds(a) && InBounds(b) && c.hooks.decoder.None?
    requires a.length == b.length && a.length >= SimplePacketHeaderSize
    requires ReadSimpleHeader(a) == ReadSimpleHeader(b) && ToArray(a) == ToArray(b)
    ensures Decode(c, a) == Decode(c, b)
  {
  }

  /** On a whole array, which is what the decoder hook returns and what a
      copy of the window is, the guard as written and the corrected guard
      agree up to the kind of failure. */
  lemma AsWrittenAgreesOnArrays(c: SimpleProtoCodec, w: Bytes)
    ensures DecodeAsWritten(c, FromArray(w)).ToOption() == Decode(c, FromArray(w)).ToOption()
  {
  }

  /** The call `decodePackets` makes: `Decode` on the window of the receive
      buffer that the peeked header announces. There the guard as written
      gives what the connection's capability gives. */
  lemma AsWrittenAgreesInPlace(c: SimpleProtoCodec, buf: Bytes, ri: nat, n: nat)
    requires SimplePacketHeaderSize <= n && ri + n <= |buf|
    requires PeekLen(c, buf[ri..ri + SimplePacketHeaderSize]) == Some(n - SimplePacketHeaderSize)
    ensures DecodeAsWritten(c, Slice(buf, ri, n)).ToOption() == Ops(c).decode(buf[ri..ri + n])
  {
    var w := buf[ri..ri + n];
    OpsDecode(c, w);
    if c.hooks.decoder.Some? {
      InPlaceThroughDecoder(c, buf, ri, n);
      AsWrittenAgreesOnArrays(c, w);
    } else {
      InPlaceWithoutDecoder(c, buf, ri, n);
    }
  }

  /** A window at the front of an array whose header announces a body that
      ends past the window but inside the array: `Decode` as written, in
      place, resolves the bytes after the header, some from past the window;
      the capability, decoding a copy of the window, gets null. */
  lemma OverlongInPlace(c: SimpleProtoCodec, buf: Bytes, n: nat)
    requires c.hooks.decoder.None? && SimplePacketHeaderSize <= n <= |buf|
    requires Len(ReadFrom(buf, 0)) <= n < SimplePacketHeaderSize + Len(ReadFrom(buf, 0)) <= |buf|
    ensures var len := Len(ReadFrom(buf, 0));
            && DecodeAsWritten(c, Slice(buf, 0, n))
               == Resolve(c, ReadU16(buf, CommandOffset), buf[SimplePacketHeaderSize..SimplePacketHeaderSize + len])
            && Ops(c).decode(buf[..n]) == None
  {
    var s := Slice(buf, 0, n);
    assert ApplyDecoder(c, s) == s && HeaderFits(s);
    var h := ReadSimpleHeader(s);
    assert h.word == ReadFrom(buf, 0) && h.command == ReadU16(buf, CommandOffset);
    var len := Len(h.word);
    assert DecodeAsWritten(c, s) == Resolve(c, h.command, buf[SimplePacketHeaderSize..SimplePacketHeaderSize + len]);
    OverlongCopyNull(c, buf, n);
  }

  /** The copy of such a window carries the same header, so the corrected
      decode of the copy gives null. */
  lemma OverlongCopyNull(c: SimpleProtoCodec, buf: Bytes, n: nat)
    requires c.hooks.decoder.None? && SimplePacketHeaderSize <= n <= |buf|
    requires n < SimplePacketHeaderSize + Len(ReadFrom(buf, 0))
    ensures Ops(c).decode(buf[..n]) == None
  {
    var w := buf[..n];
    assert ReadFrom(w, 0) == ReadFrom(buf, 0) by {
      assert buf[0..DefaultPacketHeaderSize] == w[0..DefaultPacketHeaderSize];
      ReadU32Local(buf, 0, w, 0);
    }
    assert ReadSimpleHeader(FromArray(w)).word == ReadFrom(buf, 0);
    assert Decode(c, FromArray(w)).Null?;
    OpsDecode(c, w);
  }

  /** The capability decodes a fresh array holding the bytes. */
  lemma OpsDecode(c: SimpleProtoCodec, w: Bytes)
    ensures Ops(c).decode(w) == Decode(c, FromArray(w)).ToOption()
  {
  }

  /** With a decoder hook, the window is decoded from its copy anyway. */
  lemma InPlaceThroughDecoder(c: SimpleProtoCodec, buf: Bytes, ri: nat, n: nat)
    requires c.hooks.decoder.Some? && ri + n <= |buf|
    ensures DecodeAsWritten(c, Slice(buf, ri, n)) == DecodeAsWritten(c, FromArray(buf[ri..ri + n]))
  {
    assert ToArray(Slice(buf, ri, n)) == buf[ri..ri + n];
    assert ToArray(FromArray(buf[ri..ri + n])) == buf[ri..ri + n];
  }

  /** Without one, the header in place announces exactly the window, where
      both guards agree, and decoding the window reads only its bytes. */
  lemma InPlaceWithoutDecoder(c: SimpleProtoCodec, buf: Bytes, ri: nat, n: nat)
    requires c.hooks.decoder.None? && SimplePacketHeaderSize <= n && ri + n <= |buf|
    requires PeekLen(c, buf[ri..ri + SimplePacketHeaderSize]) == Some(n - SimplePacketHeaderSize)
    ensures DecodeAsWritten(c, Slice(buf, ri, n)).ToOption() == Decode(c, FromArray(buf[ri..ri + n])).ToOption()
  {
    var s := Slice(buf, ri, n);
    var hd := buf[ri..ri + SimplePacketHeaderSize];
    assert Len(ReadFrom(hd, 0)) == n - SimplePacketHeaderSize;
    assert buf[ri..ri + DefaultPacketHeaderSize] == hd[..DefaultPacketHeaderSize];
    ReadU32Local(buf, ri, hd, 0);
    assert Len(ReadSimpleHeader(s).word) == n - SimplePacketHeaderSize;
    assert DecodeAsWritten(c, s) == Decode(c, s);
    DecodeReadsOnlyWindow(c, s);
    assert ToArray(s) == buf[ri..ri + n];
  }

  /** Transform hooks that keep lengths and undo each other on every prefix
      of an encoded packet, so also on the six header bytes the reassembler
      decodes on their own (as a bytewise cipher does); or no hooks at all. */
  ghost predicate Reversible(h: Hooks) {
    || (h.encoder.None? && h.decoder.None?)
    || (&& h.encoder.Some? && h.decoder.Some?
        && (forall b :: |h.encoder.value(b)| == |b|)
        && (forall b, k | 0 <= k <= |b| && k <= |h.encoder.value(b)| ::
              h.decoder.value(h.encoder.value(b)[..k]) == b[..k]))
  }

  /** The frame comes back whole from the transformed bytes. */
  lemma ReversibleUndoes(h: Hooks, b: Bytes)
    requires Reversible(h) && h.encoder.Some?
    ensures h.decoder.value(h.encoder.value(b)) == b
  {
    assert h.encoder.value(b)[..|b|] == h.encoder.value(b);
  }

  /** Decoding a window that reads as a frame gives its command and body. */
  lemma DecodeFrame(c: SimpleProtoCodec, data: Slice<byte>, command: u16, body: Bytes)
    requires InBounds(data) && data.length >= SimplePacketHeaderSize
    requires |body| <= MaxPacketDataSize
    requires ApplyDecoder(c, data) == FromArray(Frame(command, body))
    ensures Decode(c, data) == Resolve(c, command, body)
  {
    var f := Frame(command, body);
    assert ReadSimpleHeader(FromArray(f)) == NewSimpleHeader(|body|, 0, command);
    assert ToArray(FromArray(f)) == f;
    assert f[SimplePacketHeaderSize..SimplePacketHeaderSize + |body|] == body;
  }

  /** Round trip: decoding an encoded packet gives back its command and its
      body (raw for an unregistered command, parsed otherwise), including the
      empty body; with reversible hooks, or none. */
  lemma {:induction false} DecodeEncode(c: SimpleProtoCodec, p: ProtoPacket)
    requires Reversible(c.hooks)
    requires |EncodedBody(c, p)| <= MaxPacketDataSize
    ensures Encode(c, p).Some?
    ensures Decode(c, FromArray(Encode(c, p).value)) == Resolve(c, p.command, EncodedBody(c, p))
  {
    var body := EncodedBody(c, p);
    var f := Frame(p.command, body);
    var e := Encode(c, p).value;
    if c.hooks.decoder.Some? {
      ReversibleUndoes(c.hooks, f);
      assert ToArray(FromArray(e)) == e;
      assert |e| == |f|;
    }
    assert ApplyDecoder(c, FromArray(e)) == FromArray(f);
    DecodeFrame(c, FromArray(e), p.command, body);
  }

  /** Nothing checks a body against `MaxPacketDataSize`: without hooks, a
      body too wide for the 24-bit length field still encodes, its header
      announces the low 24 bits of its length with the high bits in the
      flags, and an unregistered command decodes to the truncated body. */
  lemma WideBodyTruncated(c: SimpleProtoCodec, p: ProtoPacket)
    requires c.hooks.encoder.None? && c.hooks.decoder.None?
    requires MaxPacketDataSize < |EncodedBody(c, p)|
    requires SimplePacketHeaderSize + |EncodedBody(c, p)| <= MaxArrayLength
    ensures Encode(c, p).Some?
    ensures var n := |EncodedBody(c, p)|;
            var h := ReadSimpleHeader(FromArray(Encode(c, p).value));
            Len(h.word) == n % 0x100_0000 && Flags(h.word) == n / 0x100_0000 && Flags(h.word) != 0
    ensures GetMessageDescriptor(c, p.command).None? ==>
              var body := EncodedBody(c, p);
              Decode(c, FromArray(Encode(c, p).value))
                == Value(ProtoPacket(p.command, StreamData(body[..|body| % 0x100_0000])))
  {
    var body := EncodedBody(c, p);
    NewHeaderSpills(|body|);
    if GetMessageDescriptor(c, p.command).None? {
      WideFrameDecodes(c, p.command, body);
    }
  }

  /** Without a decoder hook, a frame whose header cut the body length to
      24 bits decodes to the body cut the same way. */
  lemma WideFrameDecodes(c: SimpleProtoCodec, command: u16, body: Bytes)
    requires c.hooks.decoder.None? && GetMessageDescriptor(c, command).None?
    requires SimplePacketHeaderSize + |body| <= MaxArrayLength
    ensures Decode(c, FromArray(Frame(command, body)))
              == Value(ProtoPacket(command, StreamData(body[..|body| % 0x100_0000])))
  {
    var f := Frame(command, body);
    var len := |body| % 0x100_0000;
    assert ApplyDecoder(c, FromArray(f)) == FromArray(f);
    assert Len(ReadSimpleHeader(FromArray(f)).word) == len;
    assert ToArray(FromArray(f)) == f;
    assert f[SimplePacketHeaderSize..SimplePacketHeaderSize + len] == body[..len];
  }

  /** An unregistered command round-trips its raw bytes unchanged. */
  lemma RawRoundTrip(c: SimpleProtoCodec, command: u16, body: Bytes)
    requires Reversible(c.hooks) && command !in c.registry && |body| <= MaxPacketDataSize
    ensures var p := ProtoPacket(command, StreamData(body));
            Encode(c, p).Some? && Decode(c, FromArray(Encode(c, p).value)) == Value(p)
  {
    DecodeEncode(c, ProtoPacket(command, StreamData(body)));
  }

  /** The length the reassembler reads from a copy of the header bytes. */
  function PeekLen(c: SimpleProtoCodec, w: Bytes): Option<nat> {
    match DecodePacketHeader(c, FromArray(w))
    case Value(h) => Some(Len(h))
    case _ => None
  }

  /** The capability the connection layer sees. */
  function Ops(c: SimpleProtoCodec): (ops: CodecOps)
    ensures ValidOps(ops) && ops.headerSize == SimplePacketHeaderSize
  {
    CodecOps(
      SimplePacketHeaderSize,
      (w: Bytes) => PeekLen(c, w),
      (w: Bytes) => Decode(c, FromArray(w)).ToOption(),
      (p: ProtoPacket) => Encode(c, p))
  }

  /** A bytewise additive cipher with a fixed key, the simplest transform
      the hooks are meant for: the encoder adds the key to every byte
      modulo 256 and the decoder subtracts it. */
  function ShiftBytes(b: Bytes, key: byte): (r: Bytes)
    ensures |r| == |b|
    ensures forall i | 0 <= i < |b| :: r[i] == (b[i] + key) % 0x100
  {
    seq(|b|, i requires 0 <= i < |b| => (b[i] + key) % 0x100)
  }

  function CipherHooks(key: byte): Hooks {
    Hooks(Some((b: Bytes) => ShiftBytes(b, key)), Some((b: Bytes) => ShiftBytes(b, (0x100 - key) % 0x100)))
  }

  /** The additive cipher on both sides meets what the reassembler needs of
      hooks: it keeps lengths and every prefix decodes to the original prefix. */
  lemma CipherIsReversible(key: byte)
    ensures Reversible(CipherHooks(key))
  {
    var h := CipherHooks(key);
    forall b: Bytes, k | 0 <= k <= |b| && k <= |h.encoder.value(b)|
      ensures h.decoder.value(h.encoder.value(b)[..k]) == b[..k]
    {
      var e := ShiftBytes(b, key)[..k];
      var d := ShiftBytes(e, (0x100 - key) % 0x100);
      forall i | 0 <= i < k
        ensures d[i] == b[i]
      {
        ShiftBack(b[i], key);
      }
    }
  }

  /** Adding the key and then its complement modulo 256 restores a byte. */
  lemma ShiftBack(x: byte, key: byte)
    ensures ((x + key) % 0x100 + (0x100 - key) % 0x100) % 0x100 == x
  {
  }

  /** Resolving the packet's own body gives the packet back: always so for
      raw bytes of an unregistered command, and for a message when the
      protobuf runtime parses what it serialised. */
  predicate Survives(c: SimpleProtoCodec, p: ProtoPacket) {
    Resolve(c, p.command, EncodedBody(c, p)) == Value(p)
  }

  /** The body fits the 24-bit length field. */
  predicate Sendable(c: SimpleProtoCodec, p: ProtoPacket) {
    |EncodedBody(c, p)| <= MaxPacketDataSize
  }

  /** The bytes on the wire after sending `ps` in order. */
  function Wire(c: SimpleProtoCodec, ps: seq<ProtoPacket>): (w: Bytes)
    requires forall p | p in ps :: Sendable(c, p)
  {
    if ps == [] then [] else assert ps[0] in ps && Sendable(c, ps[0]); assert Encode(c, ps[0]).Some?; Encode(c, ps[0]).value + Wire(c, ps[1..])
  }

  /** The reassembler reads from the first six bytes of an encoded packet
      the length of its body, and the packet spans header plus body. */
  lemma PeekEncoded(c: SimpleProtoCodec, p: ProtoPacket)
    requires Reversible(c.hooks) && |EncodedBody(c, p)| <= MaxPacketDataSize
    ensures var e := Encode(c, p).value;
            && |e| == SimplePacketHeaderSize + |EncodedBody(c, p)|
            && PeekLen(c, e[..SimplePacketHeaderSize]) == Some(|EncodedBody(c, p)|)
  {
    var body := EncodedBody(c, p);
    var f := Frame(p.command, body);
    var e := Encode(c, p).value;
    var hd := e[..SimplePacketHeaderSize];
    var d := ApplyDecoder(c, FromArray(hd));
    if c.hooks.decoder.Some? {
      assert ToArray(FromArray(hd)) == hd;
      assert d.original == f[..SimplePacketHeaderSize];
    } else {
      assert d.original == f[..SimplePacketHeaderSize];
    }
    assert d.original[..DefaultPacketHeaderSize] == f[..DefaultPacketHeaderSize];
    ReadU32Local(d.original, 0, f, 0);
  }

  /** What the connection's codec capability makes of one encoded packet. */
  lemma OpsOnEncoded(c: SimpleProtoCodec, p: ProtoPacket)
    requires Reversible(c.hooks) && Sendable(c, p) && Survives(c, p)
    ensures var e := Encode(c, p).value;
            && |e| == |EncodedBody(c, p)| + SimplePacketHeaderSize
            && Ops(c).peekLen(e[..SimplePacketHeaderSize]) == Some(|EncodedBody(c, p)|)
            && Ops(c).decode(e) == Some(p)
  {
    PeekEncoded(c, p);
    DecodeEncode(c, p);
  }

  /** What holds of every packet holds of those after the first. */
  lemma TailKeeps(c: SimpleProtoCodec, ps: seq<ProtoPacket>)
    requires ps != [] && forall p | p in ps :: Sendable(c, p) && Survives(c, p)
    ensures forall q | q in ps[1..] :: Sendable(c, q) && Survives(c, q)
  {
    assert forall q | q in ps[1..] :: q in ps;
  }

  /** The first packet on the wire frames first, then the rest of the wire. */
  lemma WireStep(c: SimpleProtoCodec, ps: seq<ProtoPacket>)
    requires Reversible(c.hooks) && ps != []
    requires forall p | p in ps :: Sendable(c, p) && Survives(c, p)
    ensures forall q | q in ps[1..] :: Sendable(c, q) && Survives(c, q)
    ensures Frames(Ops(c), Wire(c, ps), None) == Prepend([ps[0]], Frames(Ops(c), Wire(c, ps[1..]), None))
  {
    var p := ps[0];
    assert p in ps;
    TailKeeps(c, ps);
    var tail := ps[1..];
    var e := Encode(c, p).value;
    var rest := Wire(c, tail);
    assert Wire(c, ps) == e + rest;
    OpsOnEncoded(c, p);
    FramesLeadingFrame(Ops(c), e, |EncodedBody(c, p)|, p, rest);
  }

  /** Sending packets back to back and framing the received stream gives
      every packet, in order, with nothing left over and no error. */
  lemma {:induction false} StreamRoundTrip(c: SimpleProtoCodec, ps: seq<ProtoPacket>)
    requires Reversible(c.hooks)
    requires forall p | p in ps :: Sendable(c, p) && Survives(c, p)
    ensures Frames(Ops(c), Wire(c, ps), None) == Split(ps, [], None, false)
    decreases |ps|
  {
    if ps != [] {
      TailKeeps(c, ps);
      StreamRoundTrip(c, ps[1..]);
      StreamStep(c, ps);
    }
  }

  /** The inductive step: a wire whose tail frames to the later packets
      frames to all of them. */
  lemma StreamStep(c: SimpleProtoCodec, ps: seq<ProtoPacket>)
    requires Reversible(c.hooks) && ps != []
    requires forall p | p in ps :: Sendable(c, p) && Survives(c, p)
    requires forall q | q in ps[1..] :: Sendable(c, q) && Survives(c, q)
    requires Frames(Ops(c), Wire(c, ps[1..]), None) == Split(ps[1..], [], None, false)
    ensures Frames(Ops(c), Wire(c, ps), None) == Split(ps, [], None, false)
  {
    WireStep(c, ps);
    PrependHead(ps);
  }

  /** Putting the first packet back in front of a clean split of the rest
      gives the clean split of all of them. */
  lemma PrependHead(ps: seq<ProtoPacket>)
    requires ps != []
    ensures Prepend([ps[0]], Split(ps[1..], [], None, false)) == Split(ps, [], None, false)
  {
    assert [ps[0]] + ps[1..] == ps;
  }

  /** Raw bytes of unregistered commands always come back unchanged. */
  lemma RawSurvives(c: SimpleProtoCodec, command: u16, body: Bytes)
    requires command !in c.registry
    ensures Survives(c, ProtoPacket(command, StreamData(body)))
  {
  }
}

=== FILE: common.dfy ===
/** Small shared datatypes: what a C# reference-returning call can produce. */
module Common {

  /** A value that may be absent; stands for a C# reference that may be null. */
  datatype Option<+T> = None | Some(value: T)

  /** The three ways a C# call that returns a reference can end: with a value,
      with `null`, or by throwing an exception. */
  datatype Outcome<+T> = Value(value: T) | Null | Throws {

    /** Collapses the two failure forms; the connection layer closes on either. */
    function ToOption(): (r: Option<T>)
      ensures r.Some? <==> Value?
      ensures r.Some? ==> r.value == value
    {
      if Value? then Some(value) else None
    }
  }
}

=== FILE: connection.dfy ===
/** The received-packet queue of `baseConnection` (connection.cs). The lock
    around it is not modelled: every operation is one atomic step on a
    sequence whose head is the oldest packet. */
module Connection {
  import opened Common

  /** `PushPacket(packet)`: enqueue at the tail. */
  function PushPacket<T>(q: seq<T>, p: T): (r: seq<T>)
    ensures |r| == |q| + 1 && r[..|q|] == q && r[|q|] == p
  {
    q + [p]
  }

  /** The result of `PopPacket()`: the packet taken (null when there was
      none) and the queue left behind. */
  datatype Popped<T> = Popped(packet: Option<T>, queue: seq<T>)

  /** `PopPacket()`: null on an empty queue, else the head, removed. */
  function PopPacket<T>(q: seq<T>): (r: Popped<T>)
    ensures q == [] <==> r.packet.None?
    ensures q == [] ==> r.queue == []
    ensures q != [] ==> r.packet == Some(q[0]) && [q[0]] + r.queue == q
  {
    if |q| == 0 then Popped(None, q) else Popped(Some(q[0]), q[1..])
  }

  /** `ClearPackets()`: whatever was queued is dropped. */
  function ClearPackets<T>(q: seq<T>): (r: seq<T>)
    ensures |r| == 0
  {
    []
  }

  /** Pushing several packets one at a time. */
  function PushAll<T>(q: seq<T>, ps: seq<T>): seq<T>
    decreases |ps|
  {
    if ps == [] then q else PushAll(PushPacket(q, ps[0]), ps[1..])
  }

  /** Popping until `PopPacket` returns null: the packets in the order they
      come out. */
  function Drain<T>(q: seq<T>): seq<T>
    decreases |q|
  {
    var r := PopPacket(q);
    if r.packet.None? then [] else [r.packet.value] + Drain(r.queue)
  }

  /** Pushing appends in order. */
  lemma {:induction false} PushAllAppends<T>(q: seq<T>, ps: seq<T>)
    ensures PushAll(q, ps) == q + ps
    decreases |ps|
  {
    if ps != [] {
      PushAllAppends(q + [ps[0]], ps[1..]);
      assert q + [ps[0]] + ps[1..] == q + ps;
    }
  }

  /** Popping returns the queue's contents from the head on. */
  lemma {:induction false} DrainReturnsQueue<T>(q: seq<T>)
    ensures Drain(q) == q
    decreases |q|
  {
    if q != [] {
      DrainReturnsQueue(q[1..]);
    }
  }

  /** FIFO: after pushing a series of packets onto a queue, popping returns
      what was queued first, then the new packets in push order. */
  lemma Fifo<T>(q: seq<T>, ps: seq<T>)
    ensures Drain(PushAll(q, ps)) == q + ps
  {
    PushAllAppends(q, ps);
    DrainReturnsQueue(q + ps);
  }
}

=== FILE: framing.dfy ===
/** Length-prefixed framing: how a byte stream splits into packets. This is
    the reference definition both receive loops are proved against. */
module Framing {
  import opened Common
  import opened Bytes
  import opened Packet

  /** The codec capability the connection layer calls (`ICodec`): the fixed
      header size, the length announced by a header (`DecodePacketHeader` on a
      copy of the header bytes, then `Len()`), decoding of one whole framed
      packet, and encoding. Decoding and header reading collapse a `null`
      result and a thrown exception into `None`: the connection closes on both. */
  datatype CodecOps = CodecOps(
    headerSize: nat,
    peekLen: Bytes -> Option<nat>,
    decode: Bytes -> Option<ProtoPacket>,
    encode: ProtoPacket -> Option<Bytes>)

  predicate ValidOps(ops: CodecOps) {
    ops.headerSize > 0
  }

  /** The packets framed from a byte run, the unconsumed tail, the header
      already read from that tail (if any), and whether framing hit an error. */
  datatype Split = Split(packets: seq<ProtoPacket>, rest: Bytes, header: Option<nat>, failed: bool)

  function Prepend(ps: seq<ProtoPacket>, r: Split): Split {
    r.(packets := ps + r.packets)
  }

  /** `a` is a tail of `b`. */
  predicate IsSuffix(a: Bytes, b: Bytes) {
    |a| <= |b| && b[|b| - |a|..] == a
  }

  /** Frames `w`, starting with `header` when a header for the first frame
      has already been read. A frame is `len + headerSize` bytes, where `len`
      is what its header announces; framing stops when the bytes left cannot
      hold a header, or cannot hold the announced frame, or on an error. */
  function Frames(ops: CodecOps, w: Bytes, header: Option<nat>): (r: Split)
    requires ValidOps(ops)
    ensures |r.rest| <= |w|
    ensures !r.failed && r.header.None? ==> |r.rest| < ops.headerSize
    ensures !r.failed && r.header.Some? ==> |r.rest| < r.header.value + ops.headerSize
    decreases |w|
  {
    if header.None? && |w| < ops.headerSize then Split([], w, None, false)
    else
      var h := FirstHeader(ops, w, header);
      if h.None? then Split([], w, None, true)
      else
        var full := h.value + ops.headerSize;
        if |w| < full then Split([], w, h, false)
        else
          match ops.decode(w[..full])
          case None => Split([], w, h, true)
          case Some(p) =>
            Prepend([p], Frames(ops, w[full..], None))
  }

  /** No byte is lost or duplicated: what framing leaves unconsumed is
      exactly the tail of the input. */
  lemma {:induction false} RestIsSuffix(ops: CodecOps, w: Bytes, header: Option<nat>)
    requires ValidOps(ops)
    ensures IsSuffix(Frames(ops, w, header).rest, w)
    decreases |w|
  {
    if header.None? && |w| < ops.headerSize {
    } else {
      var h := FirstHeader(ops, w, header);
      if h.Some? && |w| >= h.value + ops.headerSize {
        var full := h.value + ops.headerSize;
        if ops.decode(w[..full]).Some? {
          RestIsSuffix(ops, w[full..], None);
          var rest := Frames(ops, w[full..], None).rest;
          assert Frames(ops, w, header).rest == rest;
          assert w[full..][|w| - full - |rest|..] == w[|w| - |rest|..];
        }
      }
    }
  }

  /** The header cached for `w` is the one its first bytes announce. */
  predicate Coherent(ops: CodecOps, w: Bytes, header: Option<nat>) {
    header.None? || (|w| >= ops.headerSize && ops.peekLen(w[..ops.headerSize]) == header)
  }

  /** Reading the first header again gives what a coherent cached header
      already says: the cache never changes the framing. */
  lemma {:induction false} CachedHeaderAgrees(ops: CodecOps, w: Bytes, header: Option<nat>)
    requires ValidOps(ops) && Coherent(ops, w, header)
    ensures Frames(ops, w, header) == Frames(ops, w, None)
  {
  }

  /** Appending bytes cannot disturb a coherent cache. */
  lemma {:induction false} CoherentAppend(ops: CodecOps, w: Bytes, header: Option<nat>, x: Bytes)
    requires Coherent(ops, w, header)
    ensures Coherent(ops, w + x, header)
  {
    if header.Some? {
      assert (w + x)[..ops.headerSize] == w[..ops.headerSize];
    }
  }

  /** After framing, the header left over is the one the tail announces. */
  lemma {:induction false} RestCoherent(ops: CodecOps, w: Bytes, header: Option<nat>)
    requires ValidOps(ops) && Coherent(ops, w, header)
    ensures Coherent(ops, Frames(ops, w, header).rest, Frames(ops, w, header).header)
    decreases |w|
  {
    if header.None? && |w| < ops.headerSize {
    } else {
      var h := FirstHeader(ops, w, header);
      if h.Some? && |w| >= h.value + ops.headerSize {
        var full := h.value + ops.headerSize;
        if ops.decode(w[..full]).Some? {
          RestCoherent(ops, w[full..], None);
        }
      }
    }
  }

  /** Framing only stops where nothing more can be framed yet: framing the
      tail again, with its header, consumes nothing. */
  lemma {:induction false} RestIsIdle(ops: CodecOps, w: Bytes, header: Option<nat>)
    requires ValidOps(ops)
    requires !Frames(ops, w, header).failed
    ensures var r := Frames(ops, w, header);
            Frames(ops, r.rest, r.header) == Split([], r.rest, r.header, false)
  {
  }

  /** With a header at hand (cached or read), framing continues with it:
      the cache and a fresh read are interchangeable once the header bytes
      are there. */
  lemma {:induction false} FramesWithHeader(ops: CodecOps, v: Bytes, header: Option<nat>)
    requires ValidOps(ops) && |v| >= ops.headerSize
    requires header.None? ==> ops.peekLen(v[..ops.headerSize]).Some?
    ensures var h := if header.Some? then header else ops.peekLen(v[..ops.headerSize]);
            Frames(ops, v, header) == Frames(ops, v, h)
  {
  }

  /** How one step of framing ends: for want of bytes, on an error, or
      with a packet taken from the first `length` bytes. */
  datatype Pass = Stopped | Failed | Took(packet: ProtoPacket, length: nat)

  /** One step of framing: the header (cached, or read from the first
      header bytes), then the packet if all of it is there. Returns how the
      step ended and the header left cached after it. */
  function OnePass(ops: CodecOps, v: Bytes, header: Option<nat>): (r: (Pass, Option<nat>))
    requires ValidOps(ops)
    ensures r.0.Took? ==> 0 < r.0.length <= |v| && r.1.None?
  {
    if header.None? && |v| < ops.headerSize then (Stopped, None)
    else
      var h := FirstHeader(ops, v, header);
      if h.None? then (Failed, None)
      else if |v| < h.value + ops.headerSize then (Stopped, h)
      else
        match ops.decode(v[..h.value + ops.headerSize])
        case None => (Failed, h)
        case Some(p) => (Took(p, h.value + ops.headerSize), None)
  }

  /** Framing is `OnePass` repeated until a step does not take a packet. */
  lemma FramesByPass(ops: CodecOps, v: Bytes, header: Option<nat>)
    requires ValidOps(ops)
    ensures var (pass, h) := OnePass(ops, v, header);
            && (pass.Stopped? ==> Frames(ops, v, header) == Split([], v, h, false))
            && (pass.Failed? ==> Frames(ops, v, header) == Split([], v, h, true))
            && (pass.Took? ==> Frames(ops, v, header) == Prepend([pass.packet], Frames(ops, v[pass.length..], None)))
  {
  }

  /** A run that starts with a whole well-formed frame frames as that
      frame's packet, then as whatever follows it. */
  lemma FramesLeadingFrame(ops: CodecOps, e: Bytes, len: nat, p: ProtoPacket, tail: Bytes)
    requires ValidOps(ops) && |e| == len + ops.headerSize
    requires ops.peekLen(e[..ops.headerSize]) == Some(len)
    requires ops.decode(e) == Some(p)
    ensures Frames(ops, e + tail, None) == Prepend([p], Frames(ops, tail, None))
  {
    var w := e + tail;
    assert w[..ops.headerSize] == e[..ops.headerSize];
    FramesWithHeader(ops, w, None);
    assert w[..len + ops.headerSize] == e;
    FramesOneFrame(ops, w, len, p);
    assert w[len + ops.headerSize..] == tail;
  }

  /** One decoded frame, then the rest of the run. */
  lemma {:induction false} FramesOneFrame(ops: CodecOps, v: Bytes, len: nat, p: ProtoPacket)
    requires ValidOps(ops) && |v| >= len + ops.headerSize
    requires ops.decode(v[..len + ops.headerSize]) == Some(p)
    ensures Frames(ops, v, Some(len)) == Prepend([p], Frames(ops, v[len + ops.headerSize..], None))
  {
  }

  /** Framing a run with more bytes appended frames the same packets first,
      then continues from the old tail (with its header) plus the new bytes.
      This is why the packet sequence does not depend on how the stream is
      split into reads. */
  lemma {:induction false} FramesAppend(ops: CodecOps, w: Bytes, header: Option<nat>, x: Bytes)
    requires ValidOps(ops)
    requires !Frames(ops, w, header).failed
    ensures var r := Frames(ops, w, header);
            Frames(ops, w + x, header) == Prepend(r.packets, Frames(ops, r.rest + x, r.header))
    decreases |w|
  {
    if header.None? && |w| < ops.headerSize {
      AppendBeforeHeader(ops, w, x);
    } else {
      var h := FirstHeader(ops, w, header);
      AppendKeepsFirstHeader(ops, w, header, x);
      if |w| < h.value + ops.headerSize {
        AppendBeforeFrame(ops, w, h.value, x);
      } else {
        var full := h.value + ops.headerSize;
        var p := ops.decode(w[..full]).value;
        AppendKeepsFrame(ops, w, h.value, p, x);
        FramesAppend(ops, w[full..], None, x);
        AppendAfterFrame(ops, w, h.value, p, x);
      }
    }
  }

  /** `FramesAppend` when the run cannot hold a header yet. */
  lemma AppendBeforeHeader(ops: CodecOps, w: Bytes, x: Bytes)
    requires ValidOps(ops) && |w| < ops.headerSize
    ensures var r := Frames(ops, w, None);
            Frames(ops, w + x, None) == Prepend(r.packets, Frames(ops, r.rest + x, r.header))
  {
    assert Frames(ops, w, None) == Split([], w, None, false);
    assert Prepend([], Frames(ops, w + x, None)) == Frames(ops, w + x, None);
  }

  /** `FramesAppend` when the run holds a header but not its whole frame. */
  lemma AppendBeforeFrame(ops: CodecOps, w: Bytes, len: nat, x: Bytes)
    requires ValidOps(ops) && |w| < len + ops.headerSize
    ensures var r := Frames(ops, w, Some(len));
            Frames(ops, w + x, Some(len)) == Prepend(r.packets, Frames(ops, r.rest + x, r.header))
  {
    assert Frames(ops, w, Some(len)) == Split([], w, Some(len), false);
    assert Prepend([], Frames(ops, w + x, Some(len))) == Frames(ops, w + x, Some(len));
  }

  /** The inductive step of `FramesAppend`: one whole frame at the front. */
  lemma {:induction false} AppendAfterFrame(ops: CodecOps, w: Bytes, len: nat, p: ProtoPacket, x: Bytes)
    requires ValidOps(ops) && |w| >= len + ops.headerSize
    requires ops.decode(w[..len + ops.headerSize]) == Some(p)
    requires var r' := Frames(ops, w[len + ops.headerSize..], None);
             !r'.failed &&
             Frames(ops, w[len + ops.headerSize..] + x, None) == Prepend(r'.packets, Frames(ops, r'.rest + x, r'.header))
    ensures var r := Frames(ops, w, Some(len));
            Frames(ops, w + x, Some(len)) == Prepend(r.packets, Frames(ops, r.rest + x, r.header))
  {
    var full := len + ops.headerSize;
    AppendKeepsFrame(ops, w, len, p, x);
    var r' := Frames(ops, w[full..], None);
    var tail := Frames(ops, r'.rest + x, r'.header);
    PrependTwice([p], r'.packets, tail);
  }

  /** The header the first frame is read with: the cached one, else the one
      read from the first bytes. */
  function FirstHeader(ops: CodecOps, w: Bytes, header: Option<nat>): Option<nat>
    requires header.Some? || |w| >= ops.headerSize
  {
    if header.Some? then header else ops.peekLen(w[..ops.headerSize])
  }

  lemma {:induction false} AppendKeepsFirstHeader(ops: CodecOps, w: Bytes, header: Option<nat>, x: Bytes)
    requires ValidOps(ops) && (header.Some? || |w| >= ops.headerSize)
    requires FirstHeader(ops, w, header).Some?
    ensures FirstHeader(ops, w + x, header) == FirstHeader(ops, w, header)
    ensures Frames(ops, w, header) == Frames(ops, w, FirstHeader(ops, w, header))
    ensures Frames(ops, w + x, header) == Frames(ops, w + x, FirstHeader(ops, w, header))
  {
    if header.None? {
      assert (w + x)[..ops.headerSize] == w[..ops.headerSize];
      FramesWithHeader(ops, w, header);
      FramesWithHeader(ops, w + x, header);
    }
  }

  lemma {:induction false} AppendKeepsFrame(ops: CodecOps, w: Bytes, len: nat, p: ProtoPacket, x: Bytes)
    requires ValidOps(ops) && |w| >= len + ops.headerSize
    requires ops.decode(w[..len + ops.headerSize]) == Some(p)
    ensures Frames(ops, w, Some(len)) == Prepend([p], Frames(ops, w[len + ops.headerSize..], None))
    ensures Frames(ops, w + x, Some(len)) == Prepend([p], Frames(ops, w[len + ops.headerSize..] + x, None))
  {
    var full := len + ops.headerSize;
    assert (w + x)[..full] == w[..full];
    assert (w + x)[full..] == w[full..] + x;
    FramesOneFrame(ops, w, len, p);
    FramesOneFrame(ops, w + x, len, p);
  }

  lemma PrependTwice(a: seq<ProtoPacket>, b: seq<ProtoPacket>, r: Split)
    ensures Prepend(a, Prepend(b, r)) == Prepend(a + b, r)
  {
    assert a + (b + r.packets) == (a + b) + r.packets;
  }

  /** Once framing fails, more bytes do not rescue it, and the packets framed
      before the failure are the same. */
  lemma {:induction false} FailureIsFinal(ops: CodecOps, w: Bytes, header: Option<nat>, x: Bytes)
    requires ValidOps(ops)
    requires Frames(ops, w, header).failed
    ensures Frames(ops, w + x, header).failed
    ensures Frames(ops, w + x, header).packets == Frames(ops, w, header).packets
    decreases |w|
  {
    if header.Some? || |w| >= ops.headerSize {
      var h := FirstHeader(ops, w, header);
      if h.None? {
        FailsAtHeader(ops, w, x);
      } else {
        AppendKeepsFirstHeader(ops, w, header, x);
        if |w| >= h.value + ops.headerSize {
          var full := h.value + ops.headerSize;
          if ops.decode(w[..full]).Some? {
            AppendKeepsFrame(ops, w, h.value, ops.decode(w[..full]).value, x);
            FailureIsFinal(ops, w[full..], None, x);
          } else {
            FailsAtFrame(ops, w, h.value, x);
          }
        }
      }
    }
  }

  /** `FailureIsFinal` when the first header does not read. */
  lemma FailsAtHeader(ops: CodecOps, w: Bytes, x: Bytes)
    requires ValidOps(ops) && |w| >= ops.headerSize && ops.peekLen(w[..ops.headerSize]).None?
    ensures Frames(ops, w, None) == Split([], w, None, true)
    ensures Frames(ops, w + x, None) == Split([], w + x, None, true)
  {
    assert (w + x)[..ops.headerSize] == w[..ops.headerSize];
  }

  /** `FailureIsFinal` when the first whole frame does not decode. */
  lemma FailsAtFrame(ops: CodecOps, w: Bytes, len: nat, x: Bytes)
    requires ValidOps(ops) && |w| >= len + ops.headerSize && ops.decode(w[..len + ops.headerSize]).None?
    ensures Frames(ops, w, Some(len)) == Split([], w, Some(len), true)
    ensures Frames(ops, w + x, Some(len)) == Split([], w + x, Some(len), true)
  {
    assert (w + x)[..len + ops.headerSize] == w[..len + ops.headerSize];
  }
}

=== FILE: packet.dfy ===
/** The packet header word and the decoded packet value (packet.cs). */
module Packet {
  import opened Common
  import opened Bytes

  /** Size in bytes of `DefaultPacketHeader` on the wire. */
  const DefaultPacketHeaderSize: nat := 4

  /** The largest body length the 24-bit length field can carry. */
  const MaxPacketDataSize: nat := 0x00FF_FFFF

  /** Bitwise or of two bytes. */
  function Or8(a: byte, b: byte): byte {
    ((a as bv8) | (b as bv8)) as int
  }

  /** `DefaultPacketHeader`: one `uint` whose low 24 bits are the body length
      and whose high 8 bits are flags. */
  datatype PacketHeader = PacketHeader(lenAndFlags: u32)

  /** Length of the packet body (the header's own size is not included). */
  function Len(h: PacketHeader): (n: nat)
    ensures n <= MaxPacketDataSize
  {
    h.lenAndFlags % 0x100_0000
  }

  function Flags(h: PacketHeader): byte {
    h.lenAndFlags / 0x100_0000
  }

  /** `new DefaultPacketHeader()`. */
  function EmptyHeader(): (h: PacketHeader)
    ensures Len(h) == 0 && Flags(h) == 0
  {
    PacketHeader(0)
  }

  /** `new DefaultPacketHeader(len, flags)`: the word is `(flags << 24) | len`,
      so a `len` wider than 24 bits is cut to its low 24 bits and its high
      bits are or-ed into the flags. */
  function NewHeader(len: u32, flags: byte): (h: PacketHeader)
    ensures Len(h) == len % 0x100_0000
    ensures len <= MaxPacketDataSize ==> Len(h) == len && Flags(h) == flags
  {
    assert Or8(flags, 0) == flags;
    PacketHeader(Or8(flags, len / 0x100_0000) * 0x100_0000 + len % 0x100_0000)
  }

  /** With no flags given, the flags read back are the length's bits above
      the low 24: a wide length is not rejected, it spills into the flags. */
  lemma NewHeaderSpills(len: u32)
    ensures Flags(NewHeader(len, 0)) == len / 0x100_0000
  {
    assert Or8(0, len / 0x100_0000) == len / 0x100_0000;
  }

  /** `ReadFrom(segment)`: the little-endian word at the segment's offset. */
  function ReadFrom(b: Bytes, off: nat): PacketHeader
    requires off + DefaultPacketHeaderSize <= |b|
  {
    PacketHeader(ReadU32(b, off))
  }

  /** `WriteTo(segment)`: the array after the word is written at the offset. */
  function WriteTo(h: PacketHeader, b: Bytes, off: nat): (r: Bytes)
    requires off + DefaultPacketHeaderSize <= |b|
    ensures |r| == |b|
    ensures r[..off] == b[..off] && r[off + DefaultPacketHeaderSize..] == b[off + DefaultPacketHeaderSize..]
    ensures ReadFrom(r, off) == h
  {
    U32RoundTrip(b, off, h.lenAndFlags);
    WriteAt(b, off, U32ToBytes(h.lenAndFlags))
  }

  /** A header built from a length that fits in 24 bits, written and read back
      at the same offset, yields that length and those flags. */
  lemma HeaderRoundTrip(len: u32, flags: byte, b: Bytes, off: nat)
    requires len <= MaxPacketDataSize && off + DefaultPacketHeaderSize <= |b|
    ensures var h := ReadFrom(WriteTo(NewHeader(len, flags), b, off), off);
            Len(h) == len && Flags(h) == flags
  {
  }

  /** A protobuf message schema (`MessageDescriptor`), identified by name. */
  datatype Schema = Schema(name: string)

  /** A structured message (`IMessage`); its contents are opaque here. */
  datatype Message = Message(schema: Schema, fields: seq<int>)

  /** The protobuf library as seen by the codecs: serialisation
      (`ToByteArray`, whose length `CalculateSize` reports) and parsing
      (`Parser.ParseFrom`), which may fail. */
  datatype ProtoRuntime = ProtoRuntime(serialize: Message -> Bytes, parse: (Schema, Bytes) -> Option<Message>)

  /** The body a `ProtoPacket` carries: neither, a message, or raw bytes. */
  datatype Payload = NoPayload | ProtoMessage(message: Message) | StreamData(data: Bytes)

  /** `ProtoPacket`. */
  datatype ProtoPacket = ProtoPacket(command: u16, payload: Payload)

  function GetCommand(p: ProtoPacket): u16 {
    p.command
  }

  /** `Message()`; a packet never holds both a message and stream data. */
  function GetMessage(p: ProtoPacket): (m: Option<Message>)
    ensures m.Some? ==> GetStreamData(p).None?
  {
    if p.payload.ProtoMessage? then Some(p.payload.message) else None
  }

  /** `GetStreamData()`. */
  function GetStreamData(p: ProtoPacket): Option<Bytes> {
    if p.payload.StreamData? then Some(p.payload.data) else None
  }

  /** `new ProtoPacket(command)`. */
  function NewPacket(command: u16): (p: ProtoPacket)
    ensures GetCommand(p) == command && GetMessage(p).None? && GetStreamData(p).None?
  {
    ProtoPacket(command, NoPayload)
  }

  /** `new ProtoPacket(command, message)`; a null message leaves both bodies null. */
  function PacketWithMessage(command: u16, message: Option<Message>): (p: ProtoPacket)
    ensures GetCommand(p) == command && GetMessage(p) == message && GetStreamData(p).None?
  {
    ProtoPacket(command, if message.Some? then ProtoMessage(message.value) else NoPayload)
  }

  /** `new ProtoPacket(command, streamData)`; a null array leaves both bodies null. */
  function PacketWithStream(command: u16, streamData: Option<Bytes>): (p: ProtoPacket)
    ensures GetCommand(p) == command && GetStreamData(p) == streamData && GetMessage(p).None?
  {
    ProtoPacket(command, if streamData.Some? then StreamData(streamData.value) else NoPayload)
  }
}

=== FILE: slice.dfy ===
/** Arrays and the `Slice<T>` window over them (slice.cs).
    Arrays are modelled as sequence values, so "a fresh copy" and "the
    original is unchanged" hold by construction; what remains is the index
    arithmetic of the windows and of `Array.Copy`. */
module Slices {

  /** `Array.Copy(src, srcIndex, dst, dstIndex, n)`: the resulting `dst`.
      When `src` and `dst` are the same array the copy behaves as if the
      source range were first saved, which value semantics gives for free. */
  function ArrayCopy<T>(src: seq<T>, srcIndex: nat, dst: seq<T>, dstIndex: nat, n: nat): (r: seq<T>)
    requires srcIndex + n <= |src| && dstIndex + n <= |dst|
    ensures |r| == |dst|
    ensures r[dstIndex..dstIndex + n] == src[srcIndex..srcIndex + n]
    ensures forall i | 0 <= i < |dst| && !(dstIndex <= i < dstIndex + n) :: r[i] == dst[i]
  {
    dst[..dstIndex] + src[srcIndex..srcIndex + n] + dst[dstIndex + n..]
  }

  /** A window `[start, start + length)` onto a (shared) array. */
  datatype Slice<T> = Slice(original: seq<T>, start: int, length: int)

  /** The window lies inside its array; `Array.Copy` throws otherwise. */
  predicate InBounds<T>(s: Slice<T>) {
    0 <= s.start && 0 <= s.length && s.start + s.length <= |s.original|
  }

  /** `new Slice<T>(buffer)`: the whole array. */
  function FromArray<T>(buffer: seq<T>): Slice<T> {
    Slice(buffer, 0, |buffer|)
  }

  /** `new Slice<T>(src, begin, length)`: a window relative to another window,
      over the same array. */
  function SubSlice<T>(src: Slice<T>, begin: int, length: int): (r: Slice<T>)
    ensures r.original == src.original
    ensures r.start - src.start == begin && r.length == length
  {
    Slice(src.original, src.start + begin, length)
  }

  /** `ToArray()`: a copy of the elements inside the window. */
  function ToArray<T>(s: Slice<T>): (r: seq<T>)
    requires InBounds(s)
    ensures |r| == s.length
    ensures forall i | 0 <= i < s.length :: r[i] == s.original[s.start + i]
  {
    s.original[s.start..s.start + s.length]
  }

  /** `CopyTo(dst, dstIndex, n)`: `n` elements from the window start into `dst`.
      Note that `n` is not limited by the window's own length. */
  function CopyTo<T>(s: Slice<T>, dst: seq<T>, dstIndex: nat, n: nat): (r: seq<T>)
    requires 0 <= s.start && s.start + n <= |s.original| && dstIndex + n <= |dst|
    ensures |r| == |dst|
    ensures r[dstIndex..dstIndex + n] == s.original[s.start..s.start + n]
    ensures r[..dstIndex] == dst[..dstIndex] && r[dstIndex + n..] == dst[dstIndex + n..]
  {
    ArrayCopy(s.original, s.start, dst, dstIndex, n)
  }

  /** The whole-array window copies back to the array itself. */
  lemma WholeArrayRoundTrip<T>(buffer: seq<T>)
    ensures InBounds(FromArray(buffer)) && ToArray(FromArray(buffer)) == buffer
  {
  }

  /** Nesting composes: a sub-window copies out as the matching piece of the
      outer window's copy. */
  lemma SubSliceToArray<T>(s: Slice<T>, begin: int, length: int)
    requires InBounds(s) && 0 <= begin && 0 <= length && begin + length <= s.length
    ensures InBounds(SubSlice(s, begin, length))
    ensures ToArray(SubSlice(s, begin, length)) == ToArray(s)[begin..begin + length]
  {
  }

  /** Copying a whole window into an array of its size is `ToArray`. */
  lemma CopyToIsToArray<T>(s: Slice<T>, dst: seq<T>)
    requires InBounds(s) && |dst| == s.length
    ensures CopyTo(s, dst, 0, s.length) == ToArray(s)
  {
  }
}

=== FILE: tcp_connection.dfy ===
/** The TCP connection without a ring buffer (tcp_connection.cs): a fixed
    receive buffer, its fill length and the header already read for the
    packet being received, the received-packet queue, and the close flag
    that makes `OnClose` fire once. Socket calls are replaced by their
    outcomes, passed in as parameters; callbacks are returned in the order
    they fire. The codec is any `CodecOps`. */
module TcpConnection {
  import opened Common
  import opened Bytes
  import opened Slices
  import opened Packet
  import opened Framing
  import Connection
  import CodecProtobufSimple

  /** The fields of `TcpConnection` that the logic reads or writes.
      `hasClient` is `m_TcpClient != null`; `isClosed` is `m_IsClosed == 1`;
      `currentHeader` is `m_CurrentPacketHeader`, kept as its `Len()`. */
  datatype Conn = Conn(
    hasClient: bool,
    connected: bool,
    isClosed: bool,
    hostAddress: string,
    readBuffer: Bytes,
    readLength: nat,
    currentHeader: Option<nat>,
    packets: seq<ProtoPacket>)

  /** The fill length never passes the end of the buffer. */
  predicate Valid(c: Conn) {
    c.readLength <= |c.readBuffer|
  }

  /** The received bytes not yet framed. */
  function Window(c: Conn): Bytes
    requires Valid(c)
  {
    c.readBuffer[..c.readLength]
  }

  /** What a read may fill: `m_ReadBuffer.Length - m_ReadLength`. */
  function Free(c: Conn): nat
    requires Valid(c)
  {
    |c.readBuffer| - c.readLength
  }

  /** The constructor: a zeroed buffer of `RecvBufferSize` bytes. */
  function NewConn(recvBufferSize: nat): (c: Conn)
    ensures Valid(c) && Window(c) == [] && Free(c) == recvBufferSize
    ensures !c.hasClient && !c.connected && !c.isClosed && c.packets == []
  {
    Conn(false, false, false, "", seq(recvBufferSize, _ => 0), 0, None, [])
  }

  /** The user callbacks, in the order they fire. */
  datatype Callback = ConnectedCallback(success: bool) | CloseCallback

  /** A connection after an operation, with the callbacks it fired. */
  datatype Step = Step(conn: Conn, callbacks: seq<Callback>)

  /** The outcome of `decodePackets()`: its return value, the buffer and fill
      length it leaves, the cached header, and the packets it pushed. */
  datatype Decoded = Decoded(ok: bool, readBuffer: Bytes, readLength: nat, header: Option<nat>, pushed: seq<ProtoPacket>)

  /** What `decodePackets()` does, stated by framing: on a connected
      connection it pushes the packets the window frames as, starting from
      the cached header; on an error it returns false with the buffer
      untouched; otherwise it moves the unframed tail to the front of the
      buffer, which keeps its size. Nothing happens when not connected. */
  function DecodeSpec(ops: CodecOps, c: Conn): (d: Decoded)
    requires ValidOps(ops) && Valid(c)
    ensures |d.readBuffer| == |c.readBuffer| && d.readLength <= c.readLength
    ensures !c.connected ==> d == Decoded(true, c.readBuffer, c.readLength, c.currentHeader, [])
    ensures c.connected ==>
              var r := Frames(ops, Window(c), c.currentHeader);
              && d.ok == !r.failed
              && d.pushed == r.packets
              && d.header == r.header
              && (d.ok ==> d.readBuffer[..d.readLength] == r.rest)
    ensures !d.ok ==> d.readBuffer == c.readBuffer && d.readLength == c.readLength
  {
    if !c.connected then Decoded(true, c.readBuffer, c.readLength, c.currentHeader, [])
    else
      var w := Window(c);
      var r := Frames(ops, w, c.currentHeader);
      if r.failed then Decoded(false, c.readBuffer, c.readLength, r.header, r.packets)
      else
        var consumed := c.readLength - |r.rest|;
        RestIsSuffix(ops, w, c.currentHeader);
        if consumed > 0 then
          var b := ArrayCopy(c.readBuffer, consumed, c.readBuffer, 0, |r.rest|);
          assert b[..|r.rest|] == c.readBuffer[consumed..c.readLength] == w[consumed..];
          Decoded(true, b, |r.rest|, r.header, r.packets)
        else
          assert r.rest == w;
          Decoded(true, c.readBuffer, c.readLength, r.header, r.packets)
  }

  /** `decodePackets()` stopping on an error after pushing `pushed`. */
  lemma SpecOnError(ops: CodecOps, c: Conn, pushed: seq<ProtoPacket>, v: Bytes, header: Option<nat>)
    requires ValidOps(ops) && Valid(c) && c.connected
    requires Frames(ops, Window(c), c.currentHeader) == Prepend(pushed, Split([], v, header, true))
    ensures DecodeSpec(ops, c) == Decoded(false, c.readBuffer, c.readLength, header, pushed)
  {
  }

  /** `decodePackets()` stopping for want of bytes after consuming
      `readIndex` bytes. */
  lemma SpecOnStop(ops: CodecOps, c: Conn, pushed: seq<ProtoPacket>, readIndex: nat, header: Option<nat>)
    requires ValidOps(ops) && Valid(c) && c.connected && readIndex <= c.readLength
    requires Frames(ops, Window(c), c.currentHeader) == Prepend(pushed, Split([], Window(c)[readIndex..], header, false))
    ensures DecodeSpec(ops, c) ==
              if readIndex > 0 then
                Decoded(true, ArrayCopy(c.readBuffer, readIndex, c.readBuffer, 0, c.readLength - readIndex),
                        c.readLength - readIndex, header, pushed)
              else Decoded(true, c.readBuffer, c.readLength, header, pushed)
  {
  }

  /** The unread bytes from `readIndex` on. */
  function From(c: Conn, readIndex: nat): (v: Bytes)
    requires Valid(c) && readIndex <= c.readLength
    ensures v == Window(c)[readIndex..]
  {
    c.readBuffer[readIndex..c.readLength]
  }

  /** One pass of the loop body at `readIndex`: the cached header, or one
      read from a copy of the next header bytes; then, if the whole packet
      has arrived, the packet decoded from its bytes. The header it returns
      is the one cached afterwards. */
  method Advance(ops: CodecOps, c: Conn, readIndex: nat, header: Option<nat>)
    returns (pass: Pass, header': Option<nat>)
    requires ValidOps(ops) && Valid(c) && readIndex <= c.readLength
    ensures (pass, header') == OnePass(ops, From(c, readIndex), header)
  {
    ghost var v := From(c, readIndex);
    var remainLength := c.readLength - readIndex;
    header' := header;
    if header'.None? {
      if remainLength < ops.headerSize {
        return Stopped, None;
      }
      var copyHeaderData := c.readBuffer[readIndex..readIndex + ops.headerSize];
      assert copyHeaderData == v[..ops.headerSize] by {
        assert v == c.readBuffer[readIndex..c.readLength];
        forall k | 0 <= k < ops.headerSize
          ensures copyHeaderData[k] == v[k]
        {
        }
      }
      header' := ops.peekLen(copyHeaderData);
      if header'.None? {
        return Failed, None;
      }
    }
    var fullPacketLength := header'.value + ops.headerSize;
    if remainLength < fullPacketLength {
      return Stopped, header';
    }
    var fullPacketData := c.readBuffer[readIndex..readIndex + fullPacketLength];
    assert fullPacketData == v[..fullPacketLength] by {
      assert v == c.readBuffer[readIndex..c.readLength];
      assert |fullPacketData| == fullPacketLength <= |v|;
      forall k | 0 <= k < fullPacketLength
        ensures fullPacketData[k] == v[k]
      {
      }
    }
    var newPacket := ops.decode(fullPacketData);
    if newPacket.None? {
      return Failed, header';
    }
    return Took(newPacket.value, fullPacketLength), None;
  }

  /** The loop of `decodePackets()` on a connected connection: the
      packets it pushes, the header it leaves cached, and how far it got
      (`readIndex`) or, on an error, the bytes it stopped at. */
  method Scan(ops: CodecOps, c: Conn)
    returns (ok: bool, readIndex: nat, header: Option<nat>, pushed: seq<ProtoPacket>, ghost v: Bytes)
    requires ValidOps(ops) && Valid(c)
    ensures readIndex <= c.readLength
    ensures ok ==> Frames(ops, Window(c), c.currentHeader) == Prepend(pushed, Split([], Window(c)[readIndex..], header, false))
    ensures !ok ==> Frames(ops, Window(c), c.currentHeader) == Prepend(pushed, Split([], v, header, true))
  {
    readIndex := 0;
    header := c.currentHeader;
    pushed := [];
    ghost var whole := Frames(ops, Window(c), c.currentHeader);
    assert From(c, 0) == Window(c);
    while true
      invariant ScanInv(ops, c, whole, pushed, readIndex, header)
      decreases c.readLength - readIndex
    {
      v := From(c, readIndex);
      var pass, header' := Advance(ops, c, readIndex, header);
      if !pass.Took? {
        ScanStops(ops, c, readIndex, header, pushed, whole, pass, header');
        return pass.Stopped?, readIndex, header', pushed, v;
      }
      ScanTakes(ops, c, readIndex, header, pushed, whole, pass, header');
      header, pushed, readIndex := header', Connection.PushPacket(pushed, pass.packet), readIndex + pass.length;
    }
  }

  /** The loop invariant of `Scan`: the packets pushed so far, followed by
      framing the bytes from `readIndex` on, are framing the whole window. */
  ghost predicate ScanInv(ops: CodecOps, c: Conn, whole: Split, pushed: seq<ProtoPacket>, readIndex: nat, header: Option<nat>)
    requires ValidOps(ops) && Valid(c)
  {
    readIndex <= c.readLength && whole == Prepend(pushed, Frames(ops, From(c, readIndex), header))
  }

  /** A pass that does not take a packet ends `Scan`: framing stops (or
      fails) at the bytes from `readIndex` on, with the header the pass
      leaves. */
  lemma ScanStops(ops: CodecOps, c: Conn, readIndex: nat, header: Option<nat>, pushed: seq<ProtoPacket>, whole: Split,
                  pass: Pass, header': Option<nat>)
    requires ValidOps(ops) && Valid(c) && ScanInv(ops, c, whole, pushed, readIndex, header)
    requires (pass, header') == OnePass(ops, From(c, readIndex), header) && !pass.Took?
    ensures whole == Prepend(pushed, Split([], From(c, readIndex), header', pass.Failed?))
  {
    FramesByPass(ops, From(c, readIndex), header);
  }

  /** A pass that takes a packet keeps the loop invariant of `Scan`. */
  lemma ScanTakes(ops: CodecOps, c: Conn, readIndex: nat, header: Option<nat>, pushed: seq<ProtoPacket>, whole: Split,
                  pass: Pass, header': Option<nat>)
    requires ValidOps(ops) && Valid(c) && ScanInv(ops, c, whole, pushed, readIndex, header)
    requires (pass, header') == OnePass(ops, From(c, readIndex), header) && pass.Took?
    ensures ScanInv(ops, c, whole, Connection.PushPacket(pushed, pass.packet), readIndex + pass.length, header')
  {
    var v := From(c, readIndex);
    FramesByPass(ops, v, header);
    assert v[pass.length..] == From(c, readIndex + pass.length);
    PrependTwice(pushed, [pass.packet], Frames(ops, v[pass.length..], None));
    assert Connection.PushPacket(pushed, pass.packet) == pushed + [pass.packet];
  }

  /** `decodePackets()`: the loop runs while connected, an error returns
      false at once, and otherwise the consumed bytes are dropped by moving
      the tail to the front. */
  method DecodePackets(ops: CodecOps, c: Conn) returns (d: Decoded)
    requires ValidOps(ops) && Valid(c)
    ensures d == DecodeSpec(ops, c)
  {
    if !c.connected {
      return Decoded(true, c.readBuffer, c.readLength, c.currentHeader, []);
    }
    var ok, readIndex, header, pushed, v := Scan(ops, c);
    if !ok {
      SpecOnError(ops, c, pushed, v, header);
      return Decoded(false, c.readBuffer, c.readLength, header, pushed);
    }
    SpecOnStop(ops, c, pushed, readIndex, header);
    var readBuffer := c.readBuffer;
    var readLength := c.readLength;
    if readIndex > 0 {
      readBuffer := ArrayCopy(c.readBuffer, readIndex, c.readBuffer, 0, c.readLength - readIndex);
      readLength := c.readLength - readIndex;
    }
    d := Decoded(true, readBuffer, readLength, header, pushed);
  }

  /** `Close()`: always disconnected with an empty queue; the first call
      after a `Connect` (the compare-and-swap of `m_IsClosed` from 0 to 1
      succeeds) also drops the client and fires `OnClose`. The receive
      buffer, its fill length and the cached header are left as they are. */
  function Close(c: Conn): (r: Step)
    ensures !r.conn.connected && r.conn.isClosed && r.conn.packets == []
    ensures r.callbacks == (if c.isClosed then [] else [CloseCallback])
    ensures !c.isClosed ==> !r.conn.hasClient
    ensures c.isClosed ==> r.conn.hasClient == c.hasClient
    ensures r.conn.readBuffer == c.readBuffer && r.conn.readLength == c.readLength
    ensures r.conn.currentHeader == c.currentHeader && r.conn.hostAddress == c.hostAddress
  {
    var first := !c.isClosed;
    Step(
      c.(connected := false, isClosed := true,
         hasClient := if first then false else c.hasClient,
         packets := Connection.ClearPackets(c.packets)),
      if first then [CloseCallback] else [])
  }

  /** A second `Close()` only repeats the disconnect: no callback, no change. */
  lemma CloseIsIdempotent(c: Conn)
    ensures Close(Close(c).conn) == Step(Close(c).conn, [])
  {
  }

  /** `address.Split(sep).Length`: one more than the separators in it. */
  function SplitCount(s: string, sep: char): (n: nat)
    ensures n >= 1
  {
    if s == [] then 1 else SplitCount(s[1..], sep) + (if s[0] == sep then 1 else 0)
  }

  /** Separators in a concatenation add up. */
  lemma {:induction false} SplitCountAppend(a: string, b: string, sep: char)
    ensures SplitCount(a + b, sep) == SplitCount(a, sep) + SplitCount(b, sep) - 1
    decreases |a|
  {
    if a == [] {
      assert a + b == b;
    } else {
      assert (a + b)[0] == a[0];
      assert (a + b)[1..] == a[1..] + b;
      SplitCountAppend(a[1..], b, sep);
    }
  }

  /** A `host:port` address with no other colon splits into two parts. */
  lemma HostPortSplitsInTwo(host: string, port: string)
    requires forall i | 0 <= i < |host| :: host[i] != ':'
    requires forall i | 0 <= i < |port| :: port[i] != ':'
    ensures SplitCount(host + ":" + port, ':') == 2
  {
    NoSeparator(host, ':');
    NoSeparator(port, ':');
    assert SplitCount(":", ':') == 2 by {
      assert ":"[1..] == [];
    }
    SplitCountAppend(host, ":", ':');
    SplitCountAppend(host + ":", port, ':');
  }

  lemma {:induction false} NoSeparator(s: string, sep: char)
    requires forall i | 0 <= i < |s| :: s[i] != sep
    ensures SplitCount(s, sep) == 1
    decreases |s|
  {
    if s != [] {
      NoSeparator(s[1..], sep);
    }
  }

  /** `IPEndPoint.MaxPort`: `BeginConnect` throws for a port outside
      `0 ..= MaxPort`. */
  const MaxPort: int := 0xFFFF

  predicate PortInRange(port: int) {
    0 <= port <= MaxPort
  }

  /** How `Connect(address)` ends: it returns false; an exception escapes
      before any state changes (`int.Parse` of the port, or the DNS lookup);
      `BeginConnect` throws for the port after the client and address are
      already stored; or it returns true with the connect started. */
  datatype ConnectResult = Refused | Threw | ThrewAfterSetup(conn: Conn) | Accepted(conn: Conn)

  /** `Connect(address)`. The port as `int.Parse` reads it (`None` when it
      throws) and what the DNS lookup gives (`None` when it throws, else the
      number of addresses) are parameters. Past the lookup, the client is
      created, the address stored and the close flag re-armed, and then
      `BeginConnect` checks the port. */
  function Connect(c: Conn, address: string, port: Option<int>, addressCount: Option<nat>): (r: ConnectResult)
    ensures r.Refused? <==>
              c.hasClient || SplitCount(address, ':') != 2 ||
              (port.Some? && addressCount == Some(0))
    ensures r.Threw? <==>
              !c.hasClient && SplitCount(address, ':') == 2 && (port.None? || addressCount.None?)
    ensures r.Accepted? <==>
              && !c.hasClient && SplitCount(address, ':') == 2
              && port.Some? && PortInRange(port.value)
              && addressCount.Some? && addressCount.value > 0
    ensures r.ThrewAfterSetup? <==>
              && !c.hasClient && SplitCount(address, ':') == 2
              && port.Some? && !PortInRange(port.value)
              && addressCount.Some? && addressCount.value > 0
    ensures r.Accepted? || r.ThrewAfterSetup? ==>
              && r.conn.hasClient && !r.conn.connected && !r.conn.isClosed
              && r.conn.hostAddress == address
              && r.conn.readBuffer == c.readBuffer && r.conn.readLength == c.readLength
              && r.conn.currentHeader == c.currentHeader && r.conn.packets == c.packets
  {
    if c.hasClient then Refused
    else if SplitCount(address, ':') != 2 then Refused
    else if port.None? then Threw
    else if addressCount.None? then Threw
    else if addressCount.value == 0 then Refused
    else
      var started := c.(hasClient := true, hostAddress := address, connected := false, isClosed := false);
      if PortInRange(port.value) then Accepted(started) else ThrewAfterSetup(started)
  }

  /** After each `Connect` that gets as far as creating the client, the next
      `Close` fires `OnClose` again, also when `BeginConnect` then threw. */
  lemma ConnectRearmsClose(c: Conn, address: string, port: Option<int>, addressCount: Option<nat>)
    requires Connect(c, address, port, addressCount).Accepted? || Connect(c, address, port, addressCount).ThrewAfterSetup?
    ensures Close(Connect(c, address, port, addressCount).conn).callbacks == [CloseCallback]
  {
  }

  /** How `onAsyncConnected` ends: the stream cannot be obtained, so the
      `catch` runs before `OnConnected(true)`; `BeginRead` throws, so the
      `catch` runs after `OnConnected(true)` and the fill length reset; or
      the first read is armed. */
  datatype ConnectOutcome = NoStream | ReadNotArmed | Reading

  /** The `catch` of `onAsyncConnected`, after the callbacks already fired:
      disconnected, `OnConnected(false)`, then `Close()`. */
  function ConnectFailed(c: Conn, fired: seq<Callback>): Step {
    var closed := Close(c.(connected := false));
    Step(closed.conn, fired + [ConnectedCallback(false)] + closed.callbacks)
  }

  /** `onAsyncConnected` with the cached header cleared along with the fill
      length, so that a new connection frames its stream from the start.
      When the stream cannot be obtained, `OnConnected(false)` fires and the
      connection closes; when `BeginRead` throws, `OnConnected(true)` has
      already fired and the reset is done before the same happens. */
  function OnConnected(c: Conn, outcome: ConnectOutcome): (r: Step)
    ensures outcome.Reading? ==>
              && r.callbacks == [ConnectedCallback(true)]
              && r.conn.connected && r.conn.readLength == 0 && r.conn.currentHeader.None?
              && r.conn.isClosed == c.isClosed && r.conn.packets == c.packets
    ensures outcome.NoStream? ==>
              && r.callbacks == [ConnectedCallback(false)] + Close(c).callbacks
              && r.conn == Close(c).conn
    ensures outcome.ReadNotArmed? ==>
              && r.callbacks == [ConnectedCallback(true), ConnectedCallback(false)] + Close(c).callbacks
              && r.conn == Close(c.(readLength := 0, currentHeader := None)).conn
              && !r.conn.connected && r.conn.readLength == 0 && r.conn.currentHeader.None?
  {
    match outcome
    case Reading => Step(c.(connected := true, readLength := 0, currentHeader := None), [ConnectedCallback(true)])
    case NoStream => ConnectFailed(c, [])
    case ReadNotArmed =>
      ConnectFailed(c.(connected := true, readLength := 0, currentHeader := None), [ConnectedCallback(true)])
  }

  /** `onAsyncConnected` as written: only `m_ReadLength` is reset, so a
      header cached on the previous connection survives, also when
      `BeginRead` then throws. */
  function OnConnectedAsWritten(c: Conn, outcome: ConnectOutcome): (r: Step)
    ensures outcome.Reading? ==>
              && r.callbacks == [ConnectedCallback(true)]
              && r.conn.connected && r.conn.readLength == 0 && r.conn.currentHeader == c.currentHeader
              && r.conn.isClosed == c.isClosed && r.conn.packets == c.packets
    ensures outcome.NoStream? ==>
              && r.callbacks == [ConnectedCallback(false)] + Close(c).callbacks
              && r.conn == Close(c).conn
    ensures outcome.ReadNotArmed? ==>
              && r.callbacks == [ConnectedCallback(true), ConnectedCallback(false)] + Close(c).callbacks
              && r.conn == Close(c.(readLength := 0)).conn
              && !r.conn.connected && r.conn.readLength == 0 && r.conn.currentHeader == c.currentHeader
    ensures c.currentHeader.None? ==> r == OnConnected(c, outcome)
  {
    match outcome
    case Reading => Step(c.(connected := true, readLength := 0), [ConnectedCallback(true)])
    case NoStream => ConnectFailed(c, [])
    case ReadNotArmed => ConnectFailed(c.(connected := true, readLength := 0), [ConnectedCallback(true)])
  }

  /** Writing a chunk at the fill length extends the window by it. */
  lemma FillWindow(c: Conn, chunk: Bytes)
    requires Valid(c) && |chunk| <= Free(c)
    ensures WriteAt(c.readBuffer, c.readLength, chunk)[..c.readLength + |chunk|] == Window(c) + chunk
  {
    var b := WriteAt(c.readBuffer, c.readLength, chunk);
    assert b[..c.readLength + |chunk|] == b[..c.readLength] + b[c.readLength..c.readLength + |chunk|];
  }

  /** `onAsyncRead` after `EndRead` returned `chunk`, which the read could
      place only in the free part of the buffer. An empty read closes. A
      non-empty one is appended at `m_ReadLength` and decoded; a decode error
      closes. On a connected connection the outcome is the framing of the
      window plus the chunk, from the cached header. */
  function OnRead(ops: CodecOps, c: Conn, chunk: Bytes): (r: Step)
    requires ValidOps(ops) && Valid(c) && |chunk| <= Free(c)
    ensures Valid(r.conn) && |r.conn.readBuffer| == |c.readBuffer|
    ensures |chunk| == 0 ==> r == Close(c)
    ensures |chunk| > 0 && c.connected ==>
              var f := Frames(ops, Window(c) + chunk, c.currentHeader);
              && (f.failed <==> !r.conn.connected)
              && (f.failed ==> r.conn.packets == [] && r.callbacks == Close(c).callbacks)
              && (!f.failed ==>
                    && r.callbacks == []
                    && r.conn.packets == c.packets + f.packets
                    && Window(r.conn) == f.rest
                    && r.conn.currentHeader == f.header
                    && r.conn.isClosed == c.isClosed)
  {
    if |chunk| == 0 then Close(c)
    else
      FillWindow(c, chunk);
      var filled := c.(readBuffer := WriteAt(c.readBuffer, c.readLength, chunk), readLength := c.readLength + |chunk|);
      assert Window(filled) == Window(c) + chunk;
      var d := DecodeSpec(ops, filled);
      var after := filled.(readBuffer := d.readBuffer, readLength := d.readLength, currentHeader := d.header,
                           packets := c.packets + d.pushed);
      if d.ok then Step(after, []) else Close(after)
  }

  /** How `SendPacket(packet)` ends: false without encoding when not
      connected; an exception from `Encode` escapes (it is outside the
      `try`); the bytes are handed to `BeginWrite`; or `BeginWrite` throws,
      the connection closes and it returns false. */
  datatype SendResult = NotSent | EncodeThrew | Submitted(bytes: Bytes) | WriteFailed(step: Step)

  /** `SendPacket(packet)`; whether `BeginWrite` accepts the write is a parameter. */
  function SendPacket(ops: CodecOps, c: Conn, p: ProtoPacket, writeOk: bool): (r: SendResult)
    ensures r.NotSent? <==> !c.connected
    ensures r.EncodeThrew? <==> c.connected && ops.encode(p).None?
    ensures r.Submitted? ==> writeOk && ops.encode(p) == Some(r.bytes)
    ensures r.WriteFailed? ==> !writeOk && r.step == Close(c)
  {
    if !c.connected then NotSent
    else
      match ops.encode(p)
      case None => EncodeThrew
      case Some(bytes) => if writeOk then Submitted(bytes) else WriteFailed(Close(c))
  }

  /** The return value of `SendPacket` when it returns. */
  function SendReturns(r: SendResult): bool
    requires !r.EncodeThrew?
  {
    r.Submitted?
  }

  /** Things that happen to a connection once `Connect` has been accepted:
      a completed read, the connect completing, a send, a close by the user. */
  datatype Event = Read(chunk: Bytes) | ConnectDone(outcome: ConnectOutcome) | Send(packet: ProtoPacket, writeOk: bool) | UserClose

  /** One event. A read returns at most the free part of the buffer, so
      a longer chunk stands for its first `Free` bytes. A send whose encoder
      throws leaves the connection unchanged. */
  function Apply(ops: CodecOps, c: Conn, e: Event): (r: Step)
    requires ValidOps(ops) && Valid(c)
    ensures Valid(r.conn)
  {
    match e
    case Read(chunk) => OnRead(ops, c, if |chunk| <= Free(c) then chunk else chunk[..Free(c)])
    case ConnectDone(ok) => OnConnectedAsWritten(c, ok)
    case Send(p, ok) =>
      (match SendPacket(ops, c, p, ok)
       case WriteFailed(step) => step
       case _ => Step(c, []))
    case UserClose => Close(c)
  }

  /** A series of events, with all the callbacks they fire in order. */
  function Run(ops: CodecOps, c: Conn, events: seq<Event>): (r: Step)
    requires ValidOps(ops) && Valid(c)
    ensures Valid(r.conn)
    decreases |events|
  {
    if events == [] then Step(c, [])
    else
      var first := Apply(ops, c, events[0]);
      var rest := Run(ops, first.conn, events[1..]);
      Step(rest.conn, first.callbacks + rest.callbacks)
  }

  /** How many times `OnClose` fired. */
  function CloseCount(cbs: seq<Callback>): nat
    decreases |cbs|
  {
    if cbs == [] then 0 else (if cbs[0] == CloseCallback then 1 else 0) + CloseCount(cbs[1..])
  }

  lemma {:induction false} CloseCountAppend(a: seq<Callback>, b: seq<Callback>)
    ensures CloseCount(a + b) == CloseCount(a) + CloseCount(b)
    decreases |a|
  {
    if a == [] {
      assert a + b == b;
    } else {
      assert (a + b)[0] == a[0];
      assert (a + b)[1..] == a[1..] + b;
      CloseCountAppend(a[1..], b);
    }
  }

  /** One event fires `OnClose` exactly when it sets the close flag, and
      nothing clears the flag. */
  lemma ApplyClosesOnce(ops: CodecOps, c: Conn, e: Event)
    requires ValidOps(ops) && Valid(c)
    ensures var r := Apply(ops, c, e);
            && (c.isClosed ==> r.conn.isClosed)
            && CloseCount(r.callbacks) == (if !c.isClosed && r.conn.isClosed then 1 else 0)
  {
    var r := Apply(ops, c, e);
    assert CloseCount([CloseCallback]) == 1;
    assert CloseCount([ConnectedCallback(false)] + Close(c).callbacks) == CloseCount(Close(c).callbacks) by {
      CloseCountAppend([ConnectedCallback(false)], Close(c).callbacks);
    }
  }

  /** `OnClose` fires at most once between two `Connect`s: exactly once
      if the connection goes from open to closed, never otherwise. */
  lemma {:induction false} CloseFiresOnce(ops: CodecOps, c: Conn, events: seq<Event>)
    requires ValidOps(ops) && Valid(c)
    ensures var r := Run(ops, c, events);
            && (c.isClosed ==> r.conn.isClosed)
            && CloseCount(r.callbacks) == (if !c.isClosed && r.conn.isClosed then 1 else 0)
    decreases |events|
  {
    if events != [] {
      var first := Apply(ops, c, events[0]);
      ApplyClosesOnce(ops, c, events[0]);
      CloseFiresOnce(ops, first.conn, events[1..]);
      CloseCountAppend(first.callbacks, Run(ops, first.conn, events[1..]).callbacks);
    }
  }

  /** The reassembly invariant of an open connection that has received the
      bytes `seen` since it connected, starting with `queued` in its queue:
      those bytes frame without error; the queue holds `queued` followed by
      the packets framed from them; the window holds exactly the unframed
      tail; the cached header is the one framing left. */
  ghost predicate Inv(ops: CodecOps, c: Conn, seen: Bytes, queued: seq<ProtoPacket>)
    requires ValidOps(ops)
  {
    Valid(c) && c.connected && !c.isClosed && Matches(c, Frames(ops, seen, None), queued)
  }

  /** The connection's queue, window and cached header are what the
      framing `r` gives, after `queued`. */
  predicate Matches(c: Conn, r: Split, queued: seq<ProtoPacket>)
    requires Valid(c)
  {
    && !r.failed
    && c.packets == queued + r.packets
    && Window(c) == r.rest
    && c.currentHeader == r.header
  }

  /** A connection that has just connected holds the invariant for an empty
      stream, whatever the previous connection left behind. */
  lemma ConnectedStartsClean(ops: CodecOps, c: Conn)
    requires ValidOps(ops) && Valid(c) && !c.isClosed
    ensures Inv(ops, OnConnected(c, Reading).conn, [], c.packets)
  {
    assert Window(OnConnected(c, Reading).conn) == [];
  }

  /** Framing the longer stream is framing the old one, then the window
      plus the chunk from the cached header. */
  lemma ReadFrames(ops: CodecOps, c: Conn, seen: Bytes, queued: seq<ProtoPacket>, chunk: Bytes)
    requires ValidOps(ops) && Inv(ops, c, seen, queued)
    ensures Frames(ops, seen + chunk, None) ==
            Prepend(Frames(ops, seen, None).packets, Frames(ops, Window(c) + chunk, c.currentHeader))
  {
    FramesAppend(ops, seen, None, chunk);
  }

  /** One read keeps the invariant, or closes the connection exactly when
      framing the longer stream fails. */
  lemma ReadKeepsInv(ops: CodecOps, c: Conn, seen: Bytes, queued: seq<ProtoPacket>, chunk: Bytes)
    requires ValidOps(ops) && Inv(ops, c, seen, queued) && 0 < |chunk| <= Free(c)
    ensures var s := OnRead(ops, c, chunk);
            var r := Frames(ops, seen + chunk, None);
            && (!r.failed ==> Inv(ops, s.conn, seen + chunk, queued) && s.callbacks == [])
            && (r.failed ==> !s.conn.connected && s.conn.isClosed && s.conn.packets == [] && s.callbacks == [CloseCallback])
  {
    ReadFrames(ops, c, seen, queued, chunk);
    if Frames(ops, seen + chunk, None).failed {
      ReadFails(ops, c, seen, queued, chunk);
    } else {
      ReadSucceeds(ops, c, seen, queued, chunk);
    }
  }

  lemma ReadFails(ops: CodecOps, c: Conn, seen: Bytes, queued: seq<ProtoPacket>, chunk: Bytes)
    requires ValidOps(ops) && Inv(ops, c, seen, queued) && 0 < |chunk| <= Free(c)
    requires Frames(ops, Window(c) + chunk, c.currentHeader).failed
    ensures var s := OnRead(ops, c, chunk);
            !s.conn.connected && s.conn.isClosed && s.conn.packets == [] && s.callbacks == [CloseCallback]
  {
  }

  lemma ReadSucceeds(ops: CodecOps, c: Conn, seen: Bytes, queued: seq<ProtoPacket>, chunk: Bytes)
    requires ValidOps(ops) && Inv(ops, c, seen, queued) && 0 < |chunk| <= Free(c)
    requires Frames(ops, seen + chunk, None) ==
             Prepend(Frames(ops, seen, None).packets, Frames(ops, Window(c) + chunk, c.currentHeader))
    requires !Frames(ops, Window(c) + chunk, c.currentHeader).failed
    ensures Inv(ops, OnRead(ops, c, chunk).conn, seen + chunk, queued) && OnRead(ops, c, chunk).callbacks == []
  {
    var f := Frames(ops, Window(c) + chunk, c.currentHeader);
    var n := OnRead(ops, c, chunk).conn;
    ReadMatches(ops, c, chunk);
    MatchesPrepend(n, f, Frames(ops, seen, None).packets, queued);
  }

  lemma ReadMatches(ops: CodecOps, c: Conn, chunk: Bytes)
    requires ValidOps(ops) && Valid(c) && c.connected && 0 < |chunk| <= Free(c)
    requires !Frames(ops, Window(c) + chunk, c.currentHeader).failed
    ensures var s := OnRead(ops, c, chunk);
            && s.callbacks == [] && s.conn.connected && s.conn.isClosed == c.isClosed
            && Matches(s.conn, Frames(ops, Window(c) + chunk, c.currentHeader), c.packets)
  {
  }

  lemma MatchesPrepend(c: Conn, f: Split, earlier: seq<ProtoPacket>, queued: seq<ProtoPacket>)
    requires Valid(c) && Matches(c, f, queued + earlier)
    ensures Matches(c, Prepend(earlier, f), queued)
  {
  }

  /** The chunks of a stream as successive reads deliver them. */
  function Concat(chunks: seq<Bytes>): Bytes
    decreases |chunks|
  {
    if chunks == [] then [] else chunks[0] + Concat(chunks[1..])
  }

  /** Each chunk is a non-empty read that fits the free part of the buffer
      when it arrives (until the connection closes). */
  ghost predicate Admissible(ops: CodecOps, c: Conn, chunks: seq<Bytes>)
    requires ValidOps(ops) && Valid(c)
    decreases |chunks|
  {
    || chunks == []
    || c.isClosed
    || (0 < |chunks[0]| <= Free(c) && Admissible(ops, OnRead(ops, c, chunks[0]).conn, chunks[1..]))
  }

  /** Successive reads, until the connection closes. */
  function Deliver(ops: CodecOps, c: Conn, chunks: seq<Bytes>): (r: Conn)
    requires ValidOps(ops) && Valid(c) && Admissible(ops, c, chunks)
    ensures Valid(r)
    decreases |chunks|
  {
    if chunks == [] || c.isClosed then c
    else Deliver(ops, OnRead(ops, c, chunks[0]).conn, chunks[1..])
  }

  /** Once framing has failed it stays failed, and a closed connection
      ignores further reads. */
  lemma {:induction false} ClosedStaysClosed(ops: CodecOps, c: Conn, chunks: seq<Bytes>)
    requires ValidOps(ops) && Valid(c) && c.isClosed && Admissible(ops, c, chunks)
    ensures Deliver(ops, c, chunks) == c
  {
  }

  lemma ConcatStep(seen: Bytes, chunks: seq<Bytes>)
    requires chunks != []
    ensures seen + Concat(chunks) == (seen + chunks[0]) + Concat(chunks[1..])
  {
  }

  /** A first read that makes framing fail closes the connection for good. */
  lemma FirstReadFails(ops: CodecOps, c: Conn, seen: Bytes, queued: seq<ProtoPacket>, chunks: seq<Bytes>)
    requires ValidOps(ops) && Inv(ops, c, seen, queued) && Admissible(ops, c, chunks)
    requires chunks != [] && Frames(ops, seen + chunks[0], None).failed
    ensures var d := Deliver(ops, c, chunks);
            && Frames(ops, seen + Concat(chunks), None).failed
            && !d.connected && d.isClosed && d.packets == []
  {
    var s := OnRead(ops, c, chunks[0]);
    ReadKeepsInv(ops, c, seen, queued, chunks[0]);
    ConcatStep(seen, chunks);
    FailureIsFinal(ops, seen + chunks[0], None, Concat(chunks[1..]));
    ClosedStaysClosed(ops, s.conn, chunks[1..]);
  }

  /** Chunking invariance: however the stream is split into reads, the
      connection ends with the packets, window and cached header that
      framing the whole stream at once gives; or, when that framing fails,
      closed with an empty queue. */
  lemma {:induction false} ChunkingInvariance(ops: CodecOps, c: Conn, seen: Bytes, queued: seq<ProtoPacket>, chunks: seq<Bytes>)
    requires ValidOps(ops) && Inv(ops, c, seen, queued) && Admissible(ops, c, chunks)
    ensures var d := Deliver(ops, c, chunks);
            var r := Frames(ops, seen + Concat(chunks), None);
            && (!r.failed ==> Inv(ops, d, seen + Concat(chunks), queued))
            && (r.failed ==> !d.connected && d.isClosed && d.packets == [])
    decreases |chunks|
  {
    if chunks == [] {
      assert seen + Concat(chunks) == seen;
    } else if Frames(ops, seen + chunks[0], None).failed {
      FirstReadFails(ops, c, seen, queued, chunks);
    } else {
      ReadKeepsInv(ops, c, seen, queued, chunks[0]);
      ConcatStep(seen, chunks);
      ChunkingInvariance(ops, OnRead(ops, c, chunks[0]).conn, seen + chunks[0], queued, chunks[1..]);
    }
  }

  /** Two ways of splitting the same stream into reads leave the same
      packets, the same connection state, and the same unframed bytes. */
  lemma SameStreamSameResult(ops: CodecOps, c: Conn, seen: Bytes, queued: seq<ProtoPacket>, one: seq<Bytes>, two: seq<Bytes>)
    requires ValidOps(ops) && Inv(ops, c, seen, queued)
    requires Admissible(ops, c, one) && Admissible(ops, c, two) && Concat(one) == Concat(two)
    ensures var a := Deliver(ops, c, one);
            var b := Deliver(ops, c, two);
            && a.packets == b.packets && a.connected == b.connected && a.isClosed == b.isClosed
            && (a.connected ==> Window(a) == Window(b) && a.currentHeader == b.currentHeader)
  {
    ChunkingInvariance(ops, c, seen, queued, one);
    ChunkingInvariance(ops, c, seen, queued, two);
  }

  /** The bytes a series of successful sends hands to the socket, in order;
      `None` if one of them does not reach `BeginWrite`. A submitted send
      leaves the connection as it was. */
  function SentBytes(ops: CodecOps, c: Conn, ps: seq<ProtoPacket>): Option<Bytes>
    decreases |ps|
  {
    if ps == [] then Some([])
    else
      match SendPacket(ops, c, ps[0], true)
      case Submitted(bytes) =>
        (match SentBytes(ops, c, ps[1..])
         case Some(more) => Some(bytes + more)
         case None => None)
      case _ => None
  }

  /** With the 6-byte codec, a connected connection sends exactly the wire
      image of the packets. */
  lemma {:induction false} SendsProduceWire(codec: CodecProtobufSimple.SimpleProtoCodec, c: Conn, ps: seq<ProtoPacket>)
    requires c.connected
    requires forall p | p in ps :: CodecProtobufSimple.Sendable(codec, p)
    ensures SentBytes(CodecProtobufSimple.Ops(codec), c, ps) == Some(CodecProtobufSimple.Wire(codec, ps))
    decreases |ps|
  {
    if ps != [] {
      assert ps[0] in ps;
      assert forall p | p in ps[1..] :: p in ps;
      SendsProduceWire(codec, c, ps[1..]);
    }
  }

  /** End to end: packets sent through the 6-byte codec (with reversible
      hooks, or none) arrive at a freshly connected peer in order and
      unchanged, however the stream is split into reads, with nothing left
      in the buffer. As written, `onAsyncConnected` keeps a cached header,
      so the peer must not hold one from an earlier connection. */
  lemma SentPacketsArrive(codec: CodecProtobufSimple.SimpleProtoCodec, c: Conn, ps: seq<ProtoPacket>, chunks: seq<Bytes>)
    requires CodecProtobufSimple.Reversible(codec.hooks)
    requires forall p | p in ps :: CodecProtobufSimple.Sendable(codec, p) && CodecProtobufSimple.Survives(codec, p)
    requires Valid(c) && !c.isClosed && c.currentHeader.None?
    requires Admissible(CodecProtobufSimple.Ops(codec), OnConnectedAsWritten(c, Reading).conn, chunks)
    requires Concat(chunks) == CodecProtobufSimple.Wire(codec, ps)
    ensures var d := Deliver(CodecProtobufSimple.Ops(codec), OnConnectedAsWritten(c, Reading).conn, chunks);
            && d.connected && d.packets == c.packets + ps
            && Window(d) == [] && d.currentHeader.None?
  {
    var ops := CodecProtobufSimple.Ops(codec);
    var started := OnConnectedAsWritten(c, Reading).conn;
    assert started == OnConnected(c, Reading).conn;
    ConnectedStartsClean(ops, c);
    CodecProtobufSimple.StreamRoundTrip(codec, ps);
    ArriveFromClean(ops, started, c.packets, ps, chunks);
  }

  /** A stream that frames as `ps` with nothing left over is delivered,
      however it is split into reads, to any connection that holds the
      invariant for the empty stream. */
  lemma ArriveFromClean(ops: CodecOps, c: Conn, queued: seq<ProtoPacket>, ps: seq<ProtoPacket>, chunks: seq<Bytes>)
    requires ValidOps(ops) && Inv(ops, c, [], queued) && Admissible(ops, c, chunks)
    requires Frames(ops, Concat(chunks), None) == Split(ps, [], None, false)
    ensures var d := Deliver(ops, c, chunks);
            && d.connected && d.packets == queued + ps
            && Window(d) == [] && d.currentHeader.None?
  {
    assert [] + Concat(chunks) == Concat(chunks);
    ChunkingInvariance(ops, c, [], queued, chunks);
  }

  /** The 6-byte codec without hooks or registrations. */
  function PlainCodec(proto: ProtoRuntime): CodecProtobufSimple.SimpleProtoCodec {
    CodecProtobufSimple.SimpleProtoCodec(map[], proto, CodecProtobufSimple.Hooks(None, None))
  }

  /** A connection to "host:1" that has received the six header bytes of a
      packet announcing a 10-byte body, and then a 0-byte read (the peer
      closed): the header stays cached on the closed connection. */
  function DroppedMidPacket(proto: ProtoRuntime): (c: Conn)
    ensures Valid(c) && !c.hasClient && c.isClosed && |c.readBuffer| == 32
  {
    var ops := CodecProtobufSimple.Ops(PlainCodec(proto));
    var connecting := Connect(NewConn(32), "host:1", Some(1), Some(1));
    assert SplitCount("host:1", ':') == 2;
    var open := OnConnectedAsWritten(connecting.conn, Reading).conn;
    var withHeader := OnRead(ops, open, [10, 0, 0, 0, 1, 0]).conn;
    OnRead(ops, withHeader, []).conn
  }

  /** A bare header announcing 10 bytes is held back, its length cached. */
  lemma BareHeaderWaits(proto: ProtoRuntime)
    ensures var w: Bytes := [10, 0, 0, 0, 1, 0];
            Frames(CodecProtobufSimple.Ops(PlainCodec(proto)), w, None) == Split([], w, Some(10), false)
  {
    var ops := CodecProtobufSimple.Ops(PlainCodec(proto));
    var w: Bytes := [10, 0, 0, 0, 1, 0];
    assert w[..6] == w;
    BareHeaderReads(proto);
    assert ops.peekLen(w[..6]) == Some(10);
    assert OnePass(ops, w, None) == (Stopped, Some(10));
    FramesByPass(ops, w, None);
  }

  lemma BareHeaderReads(proto: ProtoRuntime)
    ensures CodecProtobufSimple.PeekLen(PlainCodec(proto), [10, 0, 0, 0, 1, 0]) == Some(10)
  {
    var w: Bytes := [10, 0, 0, 0, 1, 0];
    assert ReadU32(w, 0) == 10;
    assert CodecProtobufSimple.ReadSimpleHeader(Slices.FromArray(w)).word == PacketHeader(10);
  }

  lemma DroppedMidPacketKeepsHeader(proto: ProtoRuntime)
    ensures DroppedMidPacket(proto).currentHeader == Some(10)
  {
    var ops := CodecProtobufSimple.Ops(PlainCodec(proto));
    var connecting := Connect(NewConn(32), "host:1", Some(1), Some(1));
    assert SplitCount("host:1", ':') == 2;
    var open := OnConnectedAsWritten(connecting.conn, Reading).conn;
    var w: Bytes := [10, 0, 0, 0, 1, 0];
    assert Window(open) + w == w;
    BareHeaderWaits(proto);
  }

  /** The empty-bodied packet with command 2, as the 6-byte codec frames it. */
  function EmptyPacketWire(): Bytes {
    [0, 0, 0, 0, 2, 0]
  }

  /** A header waiting for a 10-byte body holds the 6 bytes back. */
  lemma StaleHeaderWaits(proto: ProtoRuntime)
    ensures Frames(CodecProtobufSimple.Ops(PlainCodec(proto)), EmptyPacketWire(), Some(10))
         == Split([], EmptyPacketWire(), Some(10), false)
  {
    FramesByPass(CodecProtobufSimple.Ops(PlainCodec(proto)), EmptyPacketWire(), Some(10));
  }

  /** From a clean start the 6 bytes are one whole packet. */
  lemma CleanStartFrames(proto: ProtoRuntime)
    ensures Frames(CodecProtobufSimple.Ops(PlainCodec(proto)), EmptyPacketWire(), None)
         == Split([ProtoPacket(2, StreamData([]))], [], None, false)
  {
    var ops := CodecProtobufSimple.Ops(PlainCodec(proto));
    var w := EmptyPacketWire();
    assert w[..6] == w;
    assert CodecProtobufSimple.ReadSimpleHeader(Slices.FromArray(w))
        == CodecProtobufSimple.SimplePacketHeader(PacketHeader(0), 2);
    assert ops.peekLen(w[..6]) == Some(0);
    assert ops.decode(w) == Some(ProtoPacket(2, StreamData([])));
    FramesByPass(ops, w, None);
    assert w[6..] == [];
    FramesByPass(ops, [], None);
  }

  /** The bug, for any connection that closed while a header was cached:
      reconnecting through `onAsyncConnected` as written and then receiving
      the complete packet `00 00 00 00 02 00` delivers nothing, because the
      stale header makes the connection wait for 16 bytes; with the header
      cleared on connect the packet arrives. */
  lemma StaleHeaderSurvivesReconnect(proto: ProtoRuntime, c: Conn)
    requires Valid(c) && c.currentHeader == Some(10) && |c.readBuffer| >= 6
    ensures var ops := CodecProtobufSimple.Ops(PlainCodec(proto));
            var asWritten := OnRead(ops, OnConnectedAsWritten(c, Reading).conn, EmptyPacketWire()).conn;
            var corrected := OnRead(ops, OnConnected(c, Reading).conn, EmptyPacketWire()).conn;
            && asWritten.connected && asWritten.packets == c.packets && asWritten.currentHeader == Some(10)
            && corrected.connected && corrected.packets == c.packets + [ProtoPacket(2, StreamData([]))]
  {
    StaleHeaderHolds(proto, c);
    ClearedHeaderDelivers(proto, c);
  }

  /** As written, the packet is held back behind the stale header. */
  lemma StaleHeaderHolds(proto: ProtoRuntime, c: Conn)
    requires Valid(c) && c.currentHeader == Some(10) && |c.readBuffer| >= 6
    ensures var r := OnRead(CodecProtobufSimple.Ops(PlainCodec(proto)), OnConnectedAsWritten(c, Reading).conn, EmptyPacketWire()).conn;
            r.connected && r.packets == c.packets && r.currentHeader == Some(10)
  {
    StaleHeaderWaits(proto);
    assert Window(OnConnectedAsWritten(c, Reading).conn) + EmptyPacketWire() == EmptyPacketWire();
  }

  /** With the header cleared on connect, the packet arrives. */
  lemma ClearedHeaderDelivers(proto: ProtoRuntime, c: Conn)
    requires Valid(c) && |c.readBuffer| >= 6
    ensures var r := OnRead(CodecProtobufSimple.Ops(PlainCodec(proto)), OnConnected(c, Reading).conn, EmptyPacketWire()).conn;
            r.connected && r.packets == c.packets + [ProtoPacket(2, StreamData([]))]
  {
    CleanStartFrames(proto);
    assert Window(OnConnected(c, Reading).conn) + EmptyPacketWire() == EmptyPacketWire();
  }

  /** The state the bug needs is reachable: connect, receive a bare header
      announcing 10 bytes, lose the peer, and connect again. */
  lemma StaleHeaderIsReachable(proto: ProtoRuntime)
    ensures var again := Connect(DroppedMidPacket(proto), "host:1", Some(1), Some(1));
            && again.Accepted?
            && Valid(again.conn) && again.conn.currentHeader == Some(10) && |again.conn.readBuffer| == 32
  {
    DroppedMidPacketKeepsHeader(proto);
    assert SplitCount("host:1", ':') == 2;
  }

  /** Sixteen bytes whose header announces a 12-byte body for command 2. */
  function OverlongWire(): Bytes {
    [12, 0, 0, 0, 2, 0, 0, 0, 0, 0, 0, 0, 0, 0, 0, 0]
  }

  /** Where the stale header meets the length guard. After the reconnect as
      written, a cached header of 10 sizes the window at 16 bytes, while the
      16 bytes received announce 12 body bytes. The connection's codec
      capability decodes a copy of the window with the corrected guard, gets
      null and closes. `Decode` as written, on the window in place, passes
      the guard (12 <= 16) and returns command 2 with a 12-byte body whose
      last two bytes lie past the window. */
  lemma StaleHeaderMeetsOverlongGuard(proto: ProtoRuntime, c: Conn)
    requires Valid(c) && c.currentHeader == Some(10) && |c.readBuffer| >= 18
    ensures var open := OnConnectedAsWritten(c, Reading).conn;
            var buf := WriteAt(open.readBuffer, 0, OverlongWire());
            && !OnRead(CodecProtobufSimple.Ops(PlainCodec(proto)), open, OverlongWire()).conn.connected
            && CodecProtobufSimple.DecodeAsWritten(PlainCodec(proto), Slices.Slice(buf, 0, 16))
               == Value(ProtoPacket(2, StreamData(buf[6..18])))
  {
    StaleHeaderCloses(proto, c);
    StaleHeaderReadsPastWindow(proto, c);
  }

  /** The first half: the connection closes. */
  lemma StaleHeaderCloses(proto: ProtoRuntime, c: Conn)
    requires Valid(c) && c.currentHeader == Some(10) && |c.readBuffer| >= 18
    ensures !OnRead(CodecProtobufSimple.Ops(PlainCodec(proto)), OnConnectedAsWritten(c, Reading).conn, OverlongWire()).conn.connected
  {
    var codec := PlainCodec(proto);
    var open := OnConnectedAsWritten(c, Reading).conn;
    var buf := WriteAt(open.readBuffer, 0, OverlongWire());
    OverlongBuffer(buf);
    CodecProtobufSimple.OverlongCopyNull(codec, buf, 16);
    assert buf[..16] == OverlongWire();
    StaleHeaderFails(CodecProtobufSimple.Ops(codec), open, OverlongWire());
  }

  /** The second half: `Decode` as written returns the packet. */
  lemma StaleHeaderReadsPastWindow(proto: ProtoRuntime, c: Conn)
    requires Valid(c) && |c.readBuffer| >= 18
    ensures var buf := WriteAt(OnConnectedAsWritten(c, Reading).conn.readBuffer, 0, OverlongWire());
            CodecProtobufSimple.DecodeAsWritten(PlainCodec(proto), Slices.Slice(buf, 0, 16))
            == Value(ProtoPacket(2, StreamData(buf[6..18])))
  {
    var codec := PlainCodec(proto);
    var buf := WriteAt(OnConnectedAsWritten(c, Reading).conn.readBuffer, 0, OverlongWire());
    OverlongBuffer(buf);
    CodecProtobufSimple.OverlongInPlace(codec, buf, 16);
    assert CodecProtobufSimple.GetMessageDescriptor(codec, 2).None?;
  }

  /** The header at the front of a buffer holding the overlong bytes. */
  lemma OverlongBuffer(buf: Bytes)
    requires |buf| >= 16 && buf[..16] == OverlongWire()
    ensures Len(ReadFrom(buf, 0)) == 12 && ReadU16(buf, 4) == 2
  {
    var w := OverlongWire();
    assert buf[0..4] == w[0..4] && buf[4..6] == w[4..6];
    ReadU32Local(buf, 0, w, 0);
    ReadU16Local(buf, 4, w, 4);
    assert ReadU32(w, 0) == 12 && ReadU16(w, 4) == 2;
  }

  /** A connection with an empty window and a cached header of `h`, receiving
      exactly `h + headerSize` bytes the codec cannot decode, closes. */
  lemma StaleHeaderFails(ops: CodecOps, c: Conn, w: Bytes)
    requires ValidOps(ops) && Valid(c) && c.connected && c.readLength == 0 && c.currentHeader.Some?
    requires |w| == c.currentHeader.value + ops.headerSize <= Free(c) && ops.decode(w) == None
    ensures !OnRead(ops, c, w).conn.connected
  {
    assert Window(c) + w == w;
    assert w[..|w|] == w;
  }
}

=== FILE: tcp_connection_simple.dfy ===
/** The simpler TCP connection (tcp_connection_simple.cs). It keeps no
    header between reads: every pass reads the header at offset 0, hands
    the WHOLE buffer to the codec's `Decode`, and shifts the rest of the
    buffer left after each packet. It has no close flag and fires no
    callbacks. Socket calls are replaced by their outcomes, passed in as
    parameters. The codec is the capability record of `Framing`; the
    connection is correct for any codec whose decoder ignores the bytes
    after the first packet (`DecodesFromFront`), and the 4-byte codec
    it calls (`CreatePacketHeader`, whole-array `Decode`) is one. */
module TcpConnectionSimple {
  import opened Common
  import opened Bytes
  import opened Slices
  import opened Packet
  import opened Framing
  import Connection
  import Codec
  import TcpConnection

  /** The fields of `TcpConnectionSimple` that the logic reads or writes;
      `hasClient` is `m_TcpClient != null`. */
  datatype Conn = Conn(
    hasClient: bool,
    connected: bool,
    hostAddress: string,
    readBuffer: Bytes,
    readLength: nat,
    packets: seq<ProtoPacket>)

  predicate Valid(c: Conn) {
    c.readLength <= |c.readBuffer|
  }

  /** The received bytes not yet framed: the front of the buffer. */
  function Window(c: Conn): Bytes
    requires Valid(c)
  {
    c.readBuffer[..c.readLength]
  }

  /** What a read may fill: `m_ReadBuffer.Length - m_ReadLength`. */
  function Free(c: Conn): nat
    requires Valid(c)
  {
    |c.readBuffer| - c.readLength
  }

  /** The constructor: a zeroed buffer of `RecvBufferSize` bytes. */
  function NewConn(recvBufferSize: nat): (c: Conn)
    ensures Valid(c) && Window(c) == [] && Free(c) == recvBufferSize
    ensures !c.hasClient && !c.connected && c.packets == []
  {
    Conn(false, false, "", seq(recvBufferSize, _ => 0), 0, [])
  }

  /** Handing the whole buffer to the decoder is safe: once a header and
      its whole packet are at the front of a buffer, decoding the buffer
      gives what decoding just those bytes gives. */
  ghost predicate DecodesFromFront(ops: CodecOps) {
    forall buf: Bytes, full: nat ::
      ops.headerSize <= full <= |buf| && ops.peekLen(buf[..ops.headerSize]) == Some(full - ops.headerSize)
      ==> ops.decode(buf) == ops.decode(buf[..full])
  }

  /** What the connection needs of its codec. */
  ghost predicate Reassembles(ops: CodecOps) {
    ValidOps(ops) && DecodesFromFront(ops)
  }

  /** The 4-byte codec decodes from the front: its `Decode` reads the
      length, command and body from the first packet's bytes and fails
      alike on both when the header announces less than a command (null
      for the short run, an exception for the buffer). */
  lemma CodecReassembles(codec: Codec.SimpleProtoCodec)
    ensures Reassembles(Codec.Ops(codec))
  {
    var ops := Codec.Ops(codec);
    forall buf: Bytes, full: nat |
      ops.headerSize <= full <= |buf| && ops.peekLen(buf[..ops.headerSize]) == Some(full - ops.headerSize)
      ensures ops.decode(buf) == ops.decode(buf[..full])
    {
      WholeBufferDecode(codec, buf, full);
    }
  }

  lemma WholeBufferDecode(codec: Codec.SimpleProtoCodec, buf: Bytes, full: nat)
    requires Codec.HeaderSize <= full <= |buf|
    requires Codec.Ops(codec).peekLen(buf[..Codec.HeaderSize]) == Some(full - Codec.HeaderSize)
    ensures Codec.Decode(codec, buf).ToOption() == Codec.Decode(codec, buf[..full]).ToOption()
  {
    var w := buf[..full];
    assert w[..4] == buf[..4];
    ReadU32Local(w, 0, buf, 0);
    ReadU32Local(buf[..4], 0, buf, 0);
    if full >= Codec.HeaderSize + Codec.CommandSize {
      assert w[4..6] == buf[4..6];
      ReadU16Local(w, 4, buf, 4);
      assert w[6..full] == buf[6..full];
    }
  }

  /** The 4-byte codec's header read at offset 0 of the buffer
      (`CreatePacketHeader(null)`, then `ReadFrom(m_ReadBuffer)`) is the
      length its `peekLen` reads from the first four bytes. */
  lemma FrontHeader(codec: Codec.SimpleProtoCodec, buf: Bytes)
    requires |buf| >= Codec.HeaderSize
    ensures Codec.Ops(codec).peekLen(buf[..Codec.HeaderSize]) == Some(Len(ReadFrom(buf, 0)))
  {
    var h := buf[..Codec.HeaderSize];
    assert h[0..4] == buf[0..4];
    ReadU32Local(h, 0, buf, 0);
  }

  /** The outcome of `decodePackets()`: its return value, the buffer and fill
      length it leaves, and the packets it pushed, in order. */
  datatype Decoded = Decoded(ok: bool, readBuffer: Bytes, readLength: nat, pushed: seq<ProtoPacket>)

  /** The bytes after the first `n` of the first `len` move to the front;
      the rest of the buffer stays. */
  function ShiftLeft(buf: Bytes, n: nat, len: nat): (r: Bytes)
    requires n <= len <= |buf|
    ensures |r| == |buf| && r[..len - n] == buf[n..len]
  {
    buf[n..len] + buf[len - n..]
  }

  /** `ShiftLeft` is `Array.Copy(m_ReadBuffer, n, m_ReadBuffer, 0, len - n)`. */
  lemma ShiftLeftIsArrayCopy(buf: Bytes, n: nat, len: nat)
    requires n <= len <= |buf|
    ensures ShiftLeft(buf, n, len) == ArrayCopy(buf, n, buf, 0, len - n)
  {
    assert buf[..0] == [];
  }

  /** `decodePackets()` on a connected connection holding `len` bytes:
      stop (true) while a header or the whole packet is missing; decode the
      WHOLE buffer, failing (false) on null or an exception; otherwise push
      the packet, move the remaining `len - full` bytes to the front and go
      on. A header that cannot be read ends like a decode error (the 4-byte
      header always reads). */
  function Compact(ops: CodecOps, buf: Bytes, len: nat): (d: Decoded)
    requires ValidOps(ops) && len <= |buf|
    ensures |d.readBuffer| == |buf| && d.readLength <= len
    ensures d.pushed == [] ==> d.readBuffer == buf && d.readLength == len
    decreases len
  {
    if len < ops.headerSize then Decoded(true, buf, len, [])
    else
      match ops.peekLen(buf[..ops.headerSize])
      case None => Decoded(false, buf, len, [])
      case Some(n) =>
        var fullPacketLength := n + ops.headerSize;
        if len < fullPacketLength then Decoded(true, buf, len, [])
        else
          match ops.decode(buf)
          case Some(p) =>
            var rest := Compact(ops, ShiftLeft(buf, fullPacketLength, len), len - fullPacketLength);
            rest.(pushed := [p] + rest.pushed)
          case None => Decoded(false, buf, len, [])
  }

  /** One pass of the loop is one step of framing the window: it stops
      or fails exactly when that step does, and when the step takes a
      packet the loop pushes the same packet and continues on the shifted
      buffer, whose front is the rest of the window. */
  lemma CompactStep(ops: CodecOps, buf: Bytes, len: nat)
    requires Reassembles(ops) && len <= |buf|
    ensures var pass := OnePass(ops, buf[..len], None).0;
            && (pass.Stopped? ==> Compact(ops, buf, len) == Decoded(true, buf, len, []))
            && (pass.Failed? ==> Compact(ops, buf, len) == Decoded(false, buf, len, []))
            && (pass.Took? ==>
                  var shifted := ShiftLeft(buf, pass.length, len);
                  var rest := Compact(ops, shifted, len - pass.length);
                  && shifted[..len - pass.length] == buf[..len][pass.length..]
                  && Compact(ops, buf, len) == rest.(pushed := [pass.packet] + rest.pushed))
  {
    var v := buf[..len];
    if len >= ops.headerSize {
      assert v[..ops.headerSize] == buf[..ops.headerSize];
      var h := ops.peekLen(buf[..ops.headerSize]);
      if h.Some? && len >= h.value + ops.headerSize {
        var full := h.value + ops.headerSize;
        assert v[..full] == buf[..full];
        assert ops.decode(buf) == ops.decode(buf[..full]);
        assert ShiftLeft(buf, full, len)[..len - full] == v[full..];
      }
    }
  }

  /** The per-packet compaction frames the window as the reference framing
      does: it succeeds exactly when framing does not fail, pushes the
      framed packets in wire order, and leaves exactly the unframed tail at
      the front of the buffer, so no byte is lost or duplicated. */
  lemma {:induction false} CompactFrames(ops: CodecOps, buf: Bytes, len: nat)
    requires Reassembles(ops) && len <= |buf|
    ensures var d := Compact(ops, buf, len);
            var f := Frames(ops, buf[..len], None);
            && d.ok == !f.failed
            && d.pushed == f.packets
            && d.readBuffer[..d.readLength] == f.rest
    decreases len
  {
    FramesByPass(ops, buf[..len], None);
    CompactStep(ops, buf, len);
    var pass := OnePass(ops, buf[..len], None).0;
    if pass.Took? {
      CompactFrames(ops, ShiftLeft(buf, pass.length, len), len - pass.length);
    }
  }

  /** `decodePackets()`: nothing happens while disconnected. */
  function DecodePackets(ops: CodecOps, c: Conn): (d: Decoded)
    requires Reassembles(ops) && Valid(c)
    ensures |d.readBuffer| == |c.readBuffer| && d.readLength <= c.readLength
    ensures !c.connected ==> d == Decoded(true, c.readBuffer, c.readLength, [])
    ensures c.connected ==>
              var f := Frames(ops, Window(c), None);
              && d.ok == !f.failed && d.pushed == f.packets && d.readBuffer[..d.readLength] == f.rest
  {
    if !c.connected then Decoded(true, c.readBuffer, c.readLength, [])
    else
      CompactFrames(ops, c.readBuffer, c.readLength);
      Compact(ops, c.readBuffer, c.readLength)
  }

  /** `Close()`, which has no guard: every call disconnects, drops the
      client and empties the queue. The buffer and its fill length stay. */
  function Close(c: Conn): (r: Conn)
    ensures !r.connected && !r.hasClient && r.packets == []
    ensures r.readBuffer == c.readBuffer && r.readLength == c.readLength && r.hostAddress == c.hostAddress
  {
    c.(connected := false, hasClient := false, packets := Connection.ClearPackets(c.packets))
  }

  /** Closing twice is closing once. */
  lemma CloseTwice(c: Conn)
    ensures Close(Close(c)) == Close(c)
  {
  }

  /** How `Connect(address)` ends: false; an exception before any state
      changes (`int.Parse` or the DNS lookup); `BeginConnect` throwing for
      the port after the client and address are stored; or the connect
      begun with this state. */
  datatype ConnectResult = Refused | Threw | ThrewAfterSetup(conn: Conn) | Accepted(conn: Conn)

  /** `Connect(address)`. Unlike the buffered connection it does not refuse
      when a client already exists, and resets nothing. The port as
      `int.Parse` reads it and the DNS lookup's outcome are parameters. */
  function Connect(c: Conn, address: string, port: Option<int>, addressCount: Option<nat>): (r: ConnectResult)
    ensures r.Refused? <==>
              TcpConnection.SplitCount(address, ':') != 2 || (port.Some? && addressCount == Some(0))
    ensures r.Threw? <==> TcpConnection.SplitCount(address, ':') == 2 && (port.None? || addressCount.None?)
    ensures r.Accepted? <==>
              && TcpConnection.SplitCount(address, ':') == 2 && port.Some? && TcpConnection.PortInRange(port.value)
              && addressCount.Some? && addressCount.value > 0
    ensures r.ThrewAfterSetup? <==>
              && TcpConnection.SplitCount(address, ':') == 2 && port.Some? && !TcpConnection.PortInRange(port.value)
              && addressCount.Some? && addressCount.value > 0
    ensures r.Accepted? || r.ThrewAfterSetup? ==>
              && r.conn.hasClient && r.conn.hostAddress == address && r.conn.connected == c.connected
              && r.conn.readBuffer == c.readBuffer && r.conn.readLength == c.readLength && r.conn.packets == c.packets
  {
    if TcpConnection.SplitCount(address, ':') != 2 then Refused
    else if port.None? then Threw
    else if addressCount.None? then Threw
    else if addressCount.value == 0 then Refused
    else
      var started := c.(hasClient := true, hostAddress := address);
      if TcpConnection.PortInRange(port.value) then Accepted(started) else ThrewAfterSetup(started)
  }

  /** `OnConnected()` as written: the bytes left in the buffer by the
      previous connection stay in front of the new stream. */
  function OnConnectedAsWritten(c: Conn, streamOk: bool): (r: Conn)
    requires Valid(c)
    ensures Valid(r) && r.readLength == c.readLength && r.readBuffer == c.readBuffer
    ensures streamOk ==> r.connected && r.packets == c.packets
    ensures !streamOk ==> r == Close(c)
  {
    if streamOk then c.(connected := true) else Close(c)
  }

  /** `OnConnected()` with the fill length reset, as the buffered
      connection does: a new connection frames its stream from the start. */
  function OnConnected(c: Conn, streamOk: bool): (r: Conn)
    requires Valid(c)
    ensures Valid(r)
    ensures streamOk ==> r.connected && Window(r) == [] && r.packets == c.packets && r.hasClient == c.hasClient
    ensures !streamOk ==> r == Close(c)
  {
    if streamOk then c.(connected := true, readLength := 0) else Close(c)
  }

  /** Writing a chunk at the fill length extends the window by it. */
  lemma FillWindow(c: Conn, chunk: Bytes)
    requires Valid(c) && |chunk| <= Free(c)
    ensures WriteAt(c.readBuffer, c.readLength, chunk)[..c.readLength + |chunk|] == Window(c) + chunk
  {
    var b := WriteAt(c.readBuffer, c.readLength, chunk);
    assert b[..c.readLength + |chunk|] == b[..c.readLength] + b[c.readLength..c.readLength + |chunk|];
  }

  /** `OnRead` after `EndRead` returned `chunk`: an empty read closes; a
      non-empty one is appended and decoded, and a decode error closes,
      dropping even the packets pushed by this call. */
  function OnRead(ops: CodecOps, c: Conn, chunk: Bytes): (r: Conn)
    requires Reassembles(ops) && Valid(c) && |chunk| <= Free(c)
    ensures Valid(r) && |r.readBuffer| == |c.readBuffer|
    ensures |chunk| == 0 ==> r == Close(c)
    ensures |chunk| > 0 && !c.connected ==> !r.connected && r.packets == c.packets && Window(r) == Window(c) + chunk
    ensures |chunk| > 0 && c.connected ==>
              var f := Frames(ops, Window(c) + chunk, None);
              && (f.failed <==> !r.connected)
              && (f.failed ==> r.packets == [] && !r.hasClient)
              && (!f.failed ==> r.packets == c.packets + f.packets && Window(r) == f.rest && r.hasClient == c.hasClient)
  {
    if |chunk| == 0 then Close(c)
    else
      FillWindow(c, chunk);
      var filled := c.(readBuffer := WriteAt(c.readBuffer, c.readLength, chunk), readLength := c.readLength + |chunk|);
      assert Window(filled) == Window(c) + chunk;
      var d := DecodePackets(ops, filled);
      var after := filled.(readBuffer := d.readBuffer, readLength := d.readLength, packets := c.packets + d.pushed);
      if d.ok then after else Close(after)
  }

  /** How `SendPacket(packet)` ends: false when disconnected; otherwise the
      encoded bytes go to `BeginWrite`. Neither an exception from `Encode`
      nor one from `BeginWrite` is caught, and the connection stays open. */
  datatype SendResult = NotSent | SendThrew | Submitted(bytes: Bytes)

  function SendPacket(ops: CodecOps, c: Conn, p: ProtoPacket, writeOk: bool): (r: SendResult)
    ensures r.NotSent? <==> !c.connected
    ensures r.Submitted? <==> c.connected && writeOk && ops.encode(p).Some?
    ensures r.Submitted? ==> Some(r.bytes) == ops.encode(p)
  {
    if !c.connected then NotSent
    else
      match ops.encode(p)
      case None => SendThrew
      case Some(bytes) => if writeOk then Submitted(bytes) else SendThrew
  }

  /** The reassembly invariant of an open connection that has received the
      bytes `seen` since it connected, starting with `queued` in its queue:
      those bytes frame without error, the queue holds `queued` followed by
      the framed packets, and the window holds exactly the unframed tail. */
  ghost predicate Inv(ops: CodecOps, c: Conn, seen: Bytes, queued: seq<ProtoPacket>) {
    Reassembles(ops) && Valid(c) && c.connected && Matches(c, Frames(ops, seen, None), queued)
  }

  /** The connection's queue and window are what the framing `r` gives,
      after `queued`. */
  predicate Matches(c: Conn, r: Split, queued: seq<ProtoPacket>)
    requires Valid(c)
  {
    && !r.failed
    && c.packets == queued + r.packets
    && Window(c) == r.rest
  }

  lemma MatchesPrepend(c: Conn, f: Split, earlier: seq<ProtoPacket>, queued: seq<ProtoPacket>)
    requires Valid(c) && Matches(c, f, queued + earlier)
    ensures Matches(c, Prepend(earlier, f), queued)
  {
  }

  /** A connection that has just connected holds the invariant for an empty
      stream when its fill length is reset. */
  lemma ConnectedStartsClean(ops: CodecOps, c: Conn)
    requires Reassembles(ops) && Valid(c)
    ensures Inv(ops, OnConnected(c, true), [], c.packets)
  {
  }

  /** Without a cached header, framing the longer stream is framing the old
      one, then its unframed tail plus the new bytes from scratch: reading
      the header again gives the header framing stopped at. */
  lemma ReadFrames(ops: CodecOps, seen: Bytes, chunk: Bytes)
    requires ValidOps(ops) && !Frames(ops, seen, None).failed
    ensures var f := Frames(ops, seen, None);
            Frames(ops, seen + chunk, None) == Prepend(f.packets, Frames(ops, f.rest + chunk, None))
  {
    var ops := ops;
    var f := Frames(ops, seen, None);
    FramesAppend(ops, seen, None, chunk);
    RestCoherent(ops, seen, None);
    CoherentAppend(ops, f.rest, f.header, chunk);
    CachedHeaderAgrees(ops, f.rest + chunk, f.header);
  }

  /** One read keeps the invariant, or closes the connection exactly when
      framing the longer stream fails. */
  lemma ReadKeepsInv(ops: CodecOps, c: Conn, seen: Bytes, queued: seq<ProtoPacket>, chunk: Bytes)
    requires Inv(ops, c, seen, queued) && 0 < |chunk| <= Free(c)
    ensures var n := OnRead(ops, c, chunk);
            var r := Frames(ops, seen + chunk, None);
            && (!r.failed ==> Inv(ops, n, seen + chunk, queued))
            && (r.failed ==> !n.connected && !n.hasClient && n.packets == [])
  {
    var f := Frames(ops, seen, None);
    ReadFrames(ops, seen, chunk);
    if Frames(ops, seen + chunk, None).failed {
      assert Frames(ops, Window(c) + chunk, None).failed;
    } else {
      ReadSucceeds(ops, c, seen, queued, chunk);
    }
  }

  lemma ReadSucceeds(ops: CodecOps, c: Conn, seen: Bytes, queued: seq<ProtoPacket>, chunk: Bytes)
    requires Inv(ops, c, seen, queued) && 0 < |chunk| <= Free(c)
    requires var ops := ops;
             Frames(ops, seen + chunk, None) == Prepend(Frames(ops, seen, None).packets, Frames(ops, Window(c) + chunk, None))
    requires !Frames(ops, Window(c) + chunk, None).failed
    ensures Inv(ops, OnRead(ops, c, chunk), seen + chunk, queued)
  {
    var ops := ops;
    var n := OnRead(ops, c, chunk);
    ReadMatches(ops, c, chunk);
    MatchesPrepend(n, Frames(ops, Window(c) + chunk, None), Frames(ops, seen, None).packets, queued);
  }

  lemma ReadMatches(ops: CodecOps, c: Conn, chunk: Bytes)
    requires Reassembles(ops) && Valid(c) && c.connected && 0 < |chunk| <= Free(c)
    requires !Frames(ops, Window(c) + chunk, None).failed
    ensures var n := OnRead(ops, c, chunk);
            n.connected && Matches(n, Frames(ops, Window(c) + chunk, None), c.packets)
  {
  }

  /** Each chunk is a non-empty read that fits the free part of the buffer
      when it arrives, until the connection closes. */
  ghost predicate Admissible(ops: CodecOps, c: Conn, chunks: seq<Bytes>)
    requires Reassembles(ops) && Valid(c)
    decreases |chunks|
  {
    || chunks == []
    || !c.connected
    || (0 < |chunks[0]| <= Free(c) && Admissible(ops, OnRead(ops, c, chunks[0]), chunks[1..]))
  }

  /** Successive reads, until the connection closes (a closed connection
      starts no further read). */
  function Deliver(ops: CodecOps, c: Conn, chunks: seq<Bytes>): (r: Conn)
    requires Reassembles(ops) && Valid(c) && Admissible(ops, c, chunks)
    ensures Valid(r)
    decreases |chunks|
  {
    if chunks == [] || !c.connected then c
    else Deliver(ops, OnRead(ops, c, chunks[0]), chunks[1..])
  }

  /** A first read that makes framing fail closes the connection for good. */
  lemma FirstReadFails(ops: CodecOps, c: Conn, seen: Bytes, queued: seq<ProtoPacket>, chunks: seq<Bytes>)
    requires Inv(ops, c, seen, queued) && Admissible(ops, c, chunks)
    requires chunks != [] && Frames(ops, seen + chunks[0], None).failed
    ensures var d := Deliver(ops, c, chunks);
            && Frames(ops, seen + TcpConnection.Concat(chunks), None).failed
            && !d.connected && !d.hasClient && d.packets == []
  {
    ReadKeepsInv(ops, c, seen, queued, chunks[0]);
    TcpConnection.ConcatStep(seen, chunks);
    FailureIsFinal(ops, seen + chunks[0], None, TcpConnection.Concat(chunks[1..]));
  }

  /** Chunking invariance: however the stream is split into reads, the
      connection ends with the packets and window that framing the whole
      stream at once gives; or, when that framing fails, closed with an
      empty queue. */
  lemma {:induction false} ChunkingInvariance(ops: CodecOps, c: Conn, seen: Bytes, queued: seq<ProtoPacket>, chunks: seq<Bytes>)
    requires Inv(ops, c, seen, queued) && Admissible(ops, c, chunks)
    ensures var d := Deliver(ops, c, chunks);
            var r := Frames(ops, seen + TcpConnection.Concat(chunks), None);
            && (!r.failed ==> Inv(ops, d, seen + TcpConnection.Concat(chunks), queued))
            && (r.failed ==> !d.connected && !d.hasClient && d.packets == [])
    decreases |chunks|
  {
    if chunks == [] {
      assert seen + TcpConnection.Concat(chunks) == seen;
    } else if Frames(ops, seen + chunks[0], None).failed {
      FirstReadFails(ops, c, seen, queued, chunks);
    } else {
      ReadKeepsInv(ops, c, seen, queued, chunks[0]);
      TcpConnection.ConcatStep(seen, chunks);
      ChunkingInvariance(ops, OnRead(ops, c, chunks[0]), seen + chunks[0], queued, chunks[1..]);
    }
  }

  /** The two reassemblers agree: fed the same stream over a codec that
      decodes from the front (the 4-byte one is, `CodecReassembles`), in
      whatever reads each receives it, the buffered connection
      (one compaction per read, a cached header) and this one (a compaction
      per packet, no cache) queue the same packets, stay open or close
      alike, and hold the same unframed bytes. */
  lemma AgreesWithBuffered(ops: CodecOps, t: TcpConnection.Conn, c: Conn,
                           seen: Bytes, queued: seq<ProtoPacket>, tChunks: seq<Bytes>, chunks: seq<Bytes>)
    requires Reassembles(ops) && TcpConnection.Inv(ops, t, seen, queued) && Inv(ops, c, seen, queued)
    requires TcpConnection.Admissible(ops, t, tChunks) && Admissible(ops, c, chunks)
    requires TcpConnection.Concat(tChunks) == TcpConnection.Concat(chunks)
    ensures var a := TcpConnection.Deliver(ops, t, tChunks);
            var b := Deliver(ops, c, chunks);
            && a.packets == b.packets && a.connected == b.connected
            && (b.connected ==> TcpConnection.Window(a) == Window(b))
  {
    TcpConnection.ChunkingInvariance(ops, t, seen, queued, tChunks);
    ChunkingInvariance(ops, c, seen, queued, chunks);
  }

  /** The 4-byte codec with no registrations. */
  function PlainCodec(proto: ProtoRuntime): Codec.SimpleProtoCodec {
    Codec.SimpleProtoCodec(map[], proto)
  }

  /** Its capability record. */
  function PlainOps(proto: ProtoRuntime): (ops: CodecOps)
    ensures Reassembles(ops) && ops == Codec.Ops(PlainCodec(proto))
  {
    CodecReassembles(PlainCodec(proto));
    Codec.Ops(PlainCodec(proto))
  }

  /** Command 7 with body 01 02 03 on the wire. */
  function SamplePacketWire(): Bytes {
    [5, 0, 0, 0, 7, 0, 1, 2, 3]
  }

  /** Two stale bytes in front turn the header into one announcing
      329993 bytes, so nothing is framed. */
  lemma StaleBytesHideHeader(proto: ProtoRuntime)
    ensures Frames(PlainOps(proto), [9, 9] + SamplePacketWire(), None)
         == Split([], [9, 9] + SamplePacketWire(), Some(329993), false)
  {
    var ops := PlainOps(proto);
    var w := [9, 9] + SamplePacketWire();
    var head: Bytes := [9, 9, 5, 0];
    assert w[..4] == head;
    assert ReadU32(head, 0) == 329993;
    assert ops.peekLen(w[..4]) == Some(329993);
    assert OnePass(ops, w, None).0 == Stopped;
    FramesByPass(ops, w, None);
  }

  /** On its own, the sample frames as its one packet. */
  lemma SampleFrames(proto: ProtoRuntime)
    ensures Frames(PlainOps(proto), SamplePacketWire(), None)
         == Split([ProtoPacket(7, StreamData([1, 2, 3]))], [], None, false)
  {
    var ops := PlainOps(proto);
    var w := SamplePacketWire();
    assert ReadU32(w[..4], 0) == 5;
    assert w[..9] == w && w[6..9] == [1, 2, 3];
    assert ops.decode(w) == Some(ProtoPacket(7, StreamData([1, 2, 3])));
    FramesByPass(ops, w, None);
    assert w[9..] == [];
    FramesByPass(ops, [], None);
  }

  /** The bug, for any connection that lost its peer with two bytes of a
      header received: after `OnConnected()` as written the next stream is
      framed behind those bytes and its first packet never arrives; with
      the fill length reset it does. */
  lemma StaleBytesSurviveReconnect(proto: ProtoRuntime, c: Conn)
    requires Valid(c) && Window(c) == [9, 9] && |c.readBuffer| >= 11
    ensures var ops := PlainOps(proto);
            var asWritten := OnRead(ops, OnConnectedAsWritten(c, true), SamplePacketWire());
            var corrected := OnRead(ops, OnConnected(c, true), SamplePacketWire());
            && asWritten.connected && asWritten.packets == c.packets
            && corrected.connected && corrected.packets == c.packets + [ProtoPacket(7, StreamData([1, 2, 3]))]
  {
    StaleBytesHideHeader(proto);
    SampleFrames(proto);
    assert Window(OnConnected(c, true)) + SamplePacketWire() == SamplePacketWire();
  }

  /** The state the bug needs is reachable: connect, receive two bytes,
      lose the peer, and connect again. */
  function DroppedMidHeader(proto: ProtoRuntime): (c: Conn)
    ensures Valid(c) && !c.connected && |c.readBuffer| == 16
  {
    var ops := PlainOps(proto);
    var open := OnConnectedAsWritten(Connect(NewConn(16), "host:1", Some(1), Some(1)).conn, true);
    var partial := OnRead(ops, open, [9, 9]);
    OnRead(ops, partial, [])
  }

  lemma StaleBytesAreReachable(proto: ProtoRuntime)
    ensures var again := Connect(DroppedMidHeader(proto), "host:1", Some(1), Some(1));
            && again.Accepted? && Valid(again.conn) && Window(again.conn) == [9, 9]
  {
    assert TcpConnection.SplitCount("host:1", ':') == 2;
    var ops := PlainOps(proto);
    var open := OnConnectedAsWritten(Connect(NewConn(16), "host:1", Some(1), Some(1)).conn, true);
    assert Window(open) + [9, 9] == [9, 9];
    FramesByPass(ops, [9, 9], None);
  }
}
